=== FILE: README.md ===
# Grid-cell annotation core of calculate_mean_web

calculate_mean_web is a small web application for measuring luminance. The
user uploads a photograph and lays horizontal and vertical grid lines over it.
The Flask server then computes the mean luminance of every grid cell. The
browser shows these means as a table. The user marks cells of the table with
named categories. The application keeps per-row and per-category averages, and
it exports the table and the marked cells to a spreadsheet.

This project models the core of that application as pure Dafny functions over
immutable data. Each module follows one source file:

- `ImageProcessor` (`models/image-processor.js`): an image with its grid lines,
  luminance matrix and categories. A category owns the cells marked with it.
  The module covers adding and removing categories, toggling a cell, and the
  round trip between the categories and the flat list of selected cells.
- `TableView` (`views/table-view.js`): the rendered table as rows of cells.
  Each cell has a selected flag and the ordered list of category ids it
  carries. The module covers rendering, reading the selections back, restoring
  them, clicking and toggling, the per-row category means, the category-average
  row, the overall average, and the search for the maximum of each column.
- `CanvasView` (`views/canvas-view.js`): dragging grid lines with the mouse,
  adding and removing lines, and zooming with the wheel.
- `ContextMenu` (`views/context-menu-manager.js`): where a menu is placed,
  which entries the line and cell menus hold, and what each entry does.
- `ImageService` (`services/image-service.js`): the image list, file-type
  checks, and saving an image to its JSON document and loading it back.
- `ExcelExporter` (`services/excel-exporter.js`): the payload sent to the
  server for export.
- `App` (`app.js`): switching images, padding the grid bounds, and the
  luminance request with its highlight path.
- `Boundaries` (`wsgi.py`, `consumer.py`): the server's normalisation of grid
  lines into cell boundaries.
- `ExcelServer` (`wsgi.py`): how the server writes a cell value and groups the
  selected cells by position.
- `Slug`, `Sorting` and `Common` are helpers. `Slug` is the category-id
  derivation. `Sorting` holds the numeric sorts both sides use. `Common` holds
  sequence utilities such as JavaScript's `splice(i, 1)` and `indexOf`.

The DOM is modelled as data: a table is a sequence of rows, and a cell's CSS
classes and `data-categories` attribute are fields of a record. The image the
canvas shows is the image at an index of the application's image list, so a
change made through one reference is seen through the other.

## Model

| member | source | states |
|---|---|---|
| ImageProcessor.OrDefault | flask/static/scripts/models/image-processor.js:166 | a missing category id falls back to the default id; a present id is kept; the result is never empty |
| ImageProcessor.AddCell | flask/static/scripts/models/image-processor.js:12-23 | adds a cell exactly when it is absent, appending it at the end; reports whether it was added; keeps duplicate-freedom |
| ImageProcessor.RemoveCell | flask/static/scripts/models/image-processor.js:25-35 | removes the first occurrence of the cell exactly when present and reports it; without duplicates the cell is then gone |
| ImageProcessor.GetCategoryById | flask/static/scripts/models/image-processor.js:205-208 | the first category with that id, or the first category when none has it; nothing only for an empty list |
| ImageProcessor.GetCategoryByIdDistinct | flask/static/scripts/models/image-processor.js:205-208 | with distinct ids, looking up a category's own id finds that category |
| ImageProcessor.UpdateSelectedCells | flask/static/scripts/models/image-processor.js:157-173 | the category list, ids, names and colours are unchanged, and no category holds a cell twice |
| ImageProcessor.UpdateSelectedCellsMembers | flask/static/scripts/models/image-processor.js:157-173 | after an update a category holds a cell exactly when some given entry at that cell resolves to that category |
| ImageProcessor.GetSelectedCells | flask/static/scripts/models/image-processor.js:189-202 | every listed entry is a cell held by a category with the entry's id |
| ImageProcessor.GetSelectedCellsMembers | flask/static/scripts/models/image-processor.js:189-202 | an entry is listed exactly when the category with its id holds its cell |
| ImageProcessor.UpdateWithOwnSelections | flask/static/scripts/models/image-processor.js:157-202 | updating with the image's own list of selections gives back the same categories, cells in order |
| ImageProcessor.ToggleCell | flask/static/scripts/models/image-processor.js:176-186 | the cell is held afterwards exactly when it was not before; every other cell, the id, name and colour are kept, and so is duplicate-freedom |
| ImageProcessor.AddSelectedCell | flask/static/scripts/models/image-processor.js:176-186 | toggles the cell in the category the id resolves to; every other category is unchanged; nothing happens without categories |
| ImageProcessor.ToggleTwiceAbsent | flask/static/scripts/models/image-processor.js:176-186 | toggling an absent cell twice restores the categories exactly |
| ImageProcessor.ToggleTwicePresent | flask/static/scripts/models/image-processor.js:176-186 | toggling a present cell twice moves it to the end of its category's list; all other categories are unchanged |
| ImageProcessor.AddSelectionCategory | flask/static/scripts/models/image-processor.js:211-220 | appends an empty category under the slug of the name exactly when no category has that id; keeps ids distinct |
| ImageProcessor.RemoveSelectionCategory | flask/static/scripts/models/image-processor.js:223-240 | removes the category exactly when it exists, is not the only one and holds no cells; never empties the list |
| ImageProcessor.RemoveInUseRefused | flask/static/scripts/models/image-processor.js:231-234 | a category that holds a cell is never removed |
| ImageProcessor.RemoveKeepsSelections | flask/static/scripts/models/image-processor.js:223-240 | a successful removal leaves the list of selected cells unchanged |
| ImageProcessor.DefaultLinesOf | flask/static/scripts/models/image-processor.js:138-154 | for a positive extent, two lines at one and two thirds of it, each strictly inside the image; none exactly for a zero extent |
| ImageProcessor.DefaultLines | flask/static/scripts/models/image-processor.js:138-154 | the loop yields exactly DefaultLinesOf: for a positive dimension the interior lines at equal thirds, none for a zero dimension |
| ImageProcessor.Create | flask/static/scripts/models/image-processor.js:50-89 | copies the options, defaults missing lines to empty and missing categories to the two defaults, and stores an empty blurred URL as absent |
| ImageProcessor.CreateMembers | flask/static/scripts/models/image-processor.js:50-89 | with given entries, a created category holds exactly the cells the entries send to it, each once |
| ImageProcessor.SelectedCells | flask/static/scripts/models/image-processor.js:260-262 | the getter lists an entry for exactly each cell some category holds, under that category's id |
| ImageProcessor.FinishLoading | flask/static/scripts/models/image-processor.js:117-136 | once loaded with its natural size, an axis without lines receives two default lines strictly inside that extent (none for a zero extent); an axis with lines and everything else are unchanged |
| ImageProcessor.FinishLoadingIdempotent | flask/static/scripts/models/image-processor.js:117-136 | loading a second time at the same size changes nothing |
| ImageProcessor.CreateLoaded | flask/static/scripts/models/image-processor.js:94-136 | rejects exactly when the element fails to load, or a blur is needed and its request fails; a blur is asked for only when no non-empty blurred copy is given, and its answer becomes a base64 PNG data URL; fields and categories are the constructor's, and each axis without lines receives the default lines for the loaded size |
| Slug.Slugify | flask/static/scripts/models/image-processor.js:212 | the id contains no whitespace and is no longer than the name |
| Slug.SlugOfRun | flask/static/scripts/models/image-processor.js:212 | a whitespace-free stretch is lower-cased, the maximal whitespace run after it becomes one `-`, and the rest is derived the same way |
| Slug.SlugOfSpaceFreeName | flask/static/scripts/models/image-processor.js:212 | a name without whitespace only gets lower-cased |
| Slug.SlugIdempotent | flask/static/scripts/models/image-processor.js:212 | slugifying an id again changes nothing, so a category's id names itself |
| Sorting.SortReals | flask/static/scripts/views/context-menu-manager.js:268 | the result is sorted and is a permutation of the input |
| Sorting.SortInts | flask/wsgi.py:68 | the result is sorted and is a permutation of the input |
| Sorting.SortedRealsUnique | flask/static/scripts/views/context-menu-manager.js:268 | two sorted permutations of the same values are equal, so the sort is determined by the values alone |
| Common.SpliceOne | flask/static/scripts/views/context-menu-manager.js:253-255 | removes the element at an in-range index and leaves the list unchanged past its end |
| TableView.ToggleId | flask/static/scripts/views/table-view.js:660-684 | flips exactly the given id in a cell's category list, appending when it is new; selects the cell when adding and deselects it when the last id goes |
| TableView.ToggleIdTwice | flask/static/scripts/views/table-view.js:660-684 | toggling an id twice restores the cell's set of ids; an absent id leaves a consistent cell exactly as it was, a present id moves to the end of the list |
| TableView.MarkEntries | flask/static/scripts/views/table-view.js:367-389 | a selected cell yields one entry per category id, or one default entry when it has none; an unselected cell yields nothing |
| TableView.GetSelectedCellsAsWritten | flask/static/scripts/views/table-view.js:354-395 | the entries of every selected cell of the data rows up to, but not including, the last cell of each row; nothing without an image |
| TableView.GetSelectedCells | flask/static/scripts/views/table-view.js:354-395 | the entries of every selected cell in the data columns, stopping at the category columns; nothing without an image |
| TableView.ReadersAgree | flask/static/scripts/views/table-view.js:354-395 | with at least one category column and no selected mean cell, the reader as written and the corrected reader list the same entries |
| TableView.LastColumnDropped | flask/static/scripts/views/table-view.js:364 | a table whose only data cell is selected reads back as empty as written and as that cell when corrected |
| TableView.Distinct | flask/static/scripts/views/table-view.js:448-452 | the distinct ids in first-occurrence order; the same members, no duplicates |
| TableView.IdsAt | flask/static/scripts/views/table-view.js:428-452 | exactly the ids, with default fallback, of the entries at a position |
| TableView.RestoredCell | flask/static/scripts/views/table-view.js:411-461 | restoring a cell never changes its content |
| TableView.Restore | flask/static/scripts/views/table-view.js:397-466 | stores the list as pending when the table is not ready; otherwise clears every data cell and marks the listed ones |
| TableView.RestoreThenRead | flask/static/scripts/views/table-view.js:397-466 | after a restore the table reads back exactly the in-range entries of the list, each with its category id or the default |
| TableView.Sync | flask/static/scripts/views/table-view.js:921-930 | the image's categories end up holding exactly the cells the table lists for them; names, colours and ids are kept |
| TableView.ToggleCellSelection | flask/static/scripts/views/table-view.js:638-690 | out-of-range or image-less clicks change nothing; otherwise the cell is toggled in the table and the image is synchronised from it |
| TableView.ToggleInTable | flask/static/scripts/views/table-view.js:656-690 | the table keeps its shape, data, rendered flag and pending list |
| TableView.ToggleFlipsEntry | flask/static/scripts/views/table-view.js:660-690 | toggling flips the one entry at that cell and category and leaves every other entry of the table as it was |
| TableView.FlipSelected | flask/static/scripts/views/table-view.js:157-186 | without categories a click flips the cell's selected flag and synchronises the image when there is one |
| TableView.FlipCell | flask/static/scripts/views/table-view.js:157-186 | the selected flag flips; content and ids are kept |
| TableView.FlipEntries | flask/static/scripts/views/table-view.js:157-186 | after a flip the cell lists its categories exactly when it was unselected before; other cells are unchanged |
| TableView.DispatchClick | flask/static/scripts/views/table-view.js:152-196 | left click toggles the first category, right click the second, a menu opens for three or more; a left click flips the cell when there is no image or no category, a right click flips it when there is an image with at most one category and does nothing without an image |
| TableView.ClicksToggleDifferentCategories | flask/static/scripts/views/table-view.js:152-196 | when both buttons toggle a category they toggle different ones, which happens only with exactly two categories |
| TableView.MeanOf | flask/static/scripts/views/table-view.js:326-340 | a number exactly when there are values and all of them parse; otherwise the text NaN |
| TableView.MeanBounds | flask/static/scripts/views/table-view.js:326-340 | a mean lies between the smallest and largest bound of its values |
| TableView.RecomputeMeans | flask/static/scripts/views/table-view.js:274-352 | the table keeps its data and shape and gains at most the category-average row |
| TableView.RecomputeRowMeans | flask/static/scripts/views/table-view.js:274-352 | each data row's category cell holds the mean of the selected data cells of that row carrying that category |
| TableView.RowMeanDefined | flask/static/scripts/views/table-view.js:293-341 | a row's category mean is a number exactly when some selected cell of the row carries that category |
| TableView.RowMeanBounds | flask/static/scripts/views/table-view.js:293-341 | a row's category mean lies within any bounds that hold for its contributing cells |
| TableView.SummaryRow | flask/static/scripts/views/table-view.js:760-780 | the new bottom row has a cell for the label, each data column and each category, none selected or tagged |
| TableView.FillAverages | flask/static/scripts/views/table-view.js:786-812 | rows above the bottom row are unchanged; the bottom row keeps its label and data cells, and each category cell holds the mean of the non-NaN values above it |
| TableView.UpdateCategoryAverageRow | flask/static/scripts/views/table-view.js:756-821 | adds the category-average row when missing, leaves the rows above it alone, and does nothing without categories |
| TableView.CategoryAverageCell | flask/static/scripts/views/table-view.js:786-812 | each category column of the bottom row holds the mean of the non-NaN values above it |
| TableView.OverallCategoryAverage | flask/static/scripts/views/table-view.js:827-844 | a number exactly when some selected cell holds a number |
| TableView.OverallCategoryAverageBounds | flask/static/scripts/views/table-view.js:827-844 | the overall average lies within any bounds that hold for every selected numeric cell |
| TableView.ColumnBest | flask/static/scripts/views/table-view.js:612-632 | the first row with the largest value in the column, none when the column has no number |
| TableView.MaxCells | flask/static/scripts/views/table-view.js:604-635 | one cell per column that has a number, at that column's maximum, in column order |
| TableView.FindMaxValueCellsAsWritten | flask/static/scripts/views/table-view.js:604-635 | fails on empty luminance, is empty without data, and otherwise scans every row but the last |
| TableView.FindMaxValueCells | flask/static/scripts/views/table-view.js:604-635 | fails exactly on empty luminance and is empty without data |
| TableView.FindMaxValueCellsIsMax | flask/static/scripts/views/table-view.js:604-635 | every reported cell is a first maximum of its data column, and every column with a number reports one |
| TableView.LastRowMissed | flask/static/scripts/views/table-view.js:618 | on a two-row table whose maximum is in the last row, the scan as written reports the first row instead |
| TableView.InsertCell | flask/static/scripts/views/table-view.js:96 | the cell lands at the index with the cells before and after it kept in order; an index past the end raises |
| TableView.InsertAll | flask/static/scripts/views/table-view.js:93-101 | inserting a non-empty list raises exactly when the first index is past the end, and otherwise adds one cell per header |
| TableView.InsertAllSpliced | flask/static/scripts/views/table-view.js:93-101 | insertions at successive positions splice the whole list in at the first position |
| TableView.HeaderRow | flask/static/scripts/views/table-view.js:57-101 | the header row exists exactly when there is no category or position one past the data columns exists; category header i then sits at that position plus i, after the corner cell and the column headers |
| TableView.HeaderRowAppended | flask/static/scripts/views/table-view.js:57-101 | the intended header row: the corner cell and column headers, then one header per category in order |
| TableView.HeaderRowAgrees | flask/static/scripts/views/table-view.js:57-101 | when the column headers number exactly the data columns, the header row as written is the intended one |
| TableView.HeaderRowRaises | flask/static/scripts/views/table-view.js:96 | one data column, no column bound and one category: the header row as written raises, while the intended row holds the category header |
| TableView.Render | flask/static/scripts/views/table-view.js:15-101 | empty data gives the placeholder table; when the category headers raise, only the corner and column headers remain and nothing is marked rendered or restored; otherwise a rendered table with no pending list, shaped for the data and categories, with one row per luminance row below the header (plus the category-average row a restore may add) |
| TableView.RenderCell | flask/static/scripts/views/table-view.js:108-146 | with nothing pending and headers that fit, every luminance value appears unselected at its position past the header row and column |
| TableView.RenderRestoresPending | flask/static/scripts/views/table-view.js:236-251 | when the headers fit, a pending selection list is restored by the render: the table lists exactly its in-range entries |
| TableView.RenderUnselected | flask/static/scripts/views/table-view.js:108-198 | a freshly rendered table has no selected cell |
| CanvasView.Initial | flask/static/scripts/views/canvas-view.js:5-17 | a canvas with no image, scale 1 and no drag in progress |
| CanvasView.NearIndex | flask/static/scripts/views/canvas-view.js:33-47 | the first line within the pick radius of the pointer, or -1 exactly when there is none |
| CanvasView.AddLine | flask/static/scripts/views/canvas-view.js:137-149 | appends one line at the middle of the shown image on the given axis; the other axis is unchanged |
| CanvasView.RemoveLine | flask/static/scripts/views/canvas-view.js:151-163 | drops the last line of the axis when there is one; the other axis is unchanged |
| CanvasView.AddThenRemove | flask/static/scripts/views/canvas-view.js:137-163 | adding then removing a line restores the canvas |
| CanvasView.MouseDown | flask/static/scripts/views/canvas-view.js:26-55 | a press changes only the drag state, and a drag it starts points into the list it drags; without an image it changes nothing |
| CanvasView.MouseMove | flask/static/scripts/views/canvas-view.js:57-67 | a move without an active drag changes nothing; a move keeps the scale, drag, size and an in-range drag in range |
| CanvasView.MouseUp | flask/static/scripts/views/canvas-view.js:69-71 | a release ends the drag and changes nothing else the model tracks |
| CanvasView.MouseDownPicks | flask/static/scripts/views/canvas-view.js:26-55 | a press near a vertical line drags the first such line; otherwise near a horizontal line drags the first of those; otherwise nothing changes |
| CanvasView.MouseMoveOverwritesDragged | flask/static/scripts/views/canvas-view.js:57-64 | while dragging, a move sets only the dragged line to the pointer position in image coordinates |
| CanvasView.MoveAfterUpChangesNothing | flask/static/scripts/views/canvas-view.js:57-71 | after release a move changes nothing |
| CanvasView.PressThenMove | flask/static/scripts/views/canvas-view.js:26-64 | a press on a vertical line followed by a move replaces exactly that line's position |
| CanvasView.Wheel | flask/static/scripts/views/canvas-view.js:73-85 | scrolling down zooms out by 0.9 and up zooms in by 1.1, resizing the canvas to the whole-pixel part of the scaled image |
| CanvasView.ZoomOutThenIn | flask/static/scripts/views/canvas-view.js:73-85 | zooming out then in does not return to the old scale but, in exact arithmetic, to 0.99 of it |
| CanvasView.NewLineAtImageMiddle | flask/static/scripts/views/canvas-view.js:137-149 | when the canvas size is the truncated scaled image size, a new line lands at most half an image pixel per screen pixel short of the image's middle |
| CanvasView.AddAfterZoomAtMiddle | flask/static/scripts/views/canvas-view.js:73-149 | after any zoom a new line is appended at the middle of the image, up to the truncation of the canvas size |
| ContextMenu.Place | flask/static/scripts/views/context-menu-manager.js:43-69 | each coordinate is placed on its own axis by the same rule |
| ContextMenu.PlaceAxis | flask/static/scripts/views/context-menu-manager.js:49-64 | a menu that fits stays; one that overflows flips to the other side of the pointer; the offset never goes below the margin |
| ContextMenu.PlaceWithinMargins | flask/static/scripts/views/context-menu-manager.js:49-64 | a placed menu is never left of or above the margin and never further out than the pointer |
| ContextMenu.ToImage | flask/static/scripts/views/context-menu-manager.js:236-242 | page coordinates map to image coordinates by undoing the canvas origin and scale |
| ContextMenu.CategoryItems | flask/static/scripts/views/context-menu-manager.js:286-307 | one toggle item per category for the clicked cell, then the manage item |
| ContextMenu.LineMenu | flask/static/scripts/views/context-menu-manager.js:233-324 | on a line only a remove item; elsewhere add-vertical and add-horizontal, plus the category submenu exactly when the point is inside a cell |
| ContextMenu.CellMenu | flask/static/scripts/views/context-menu-manager.js:326-351 | a single submenu with one toggle of the clicked cell per category, in order, then the manage item |
| ContextMenu.MenusAddressCells | flask/static/scripts/views/context-menu-manager.js:286-351 | every category toggle in either menu addresses the clicked cell and an existing category |
| ContextMenu.Run | flask/static/scripts/views/context-menu-manager.js:246-279 | a remove splices the line out; an add inserts the point and keeps the axis sorted; the other axis is unchanged |
| ContextMenu.AddThenRemoveLine | flask/static/scripts/views/context-menu-manager.js:246-279 | adding a line to a sorted axis and removing it at its index restores the axis |
| ContextMenu.RemoveLineExact | flask/static/scripts/views/context-menu-manager.js:246-256 | removing at an in-range index drops exactly that line |
| ContextMenu.Hide | flask/static/scripts/views/context-menu-manager.js:89-100 | no menu is shown and no listener stays registered |
| ContextMenu.Show | flask/static/scripts/views/context-menu-manager.js:23-84 | the given entries are shown, with no listener left from before |
| ContextMenu.ClickItem | flask/static/scripts/views/context-menu-manager.js:140-143 | clicking an item hides the menu and runs the item's action |
| ContextMenu.DocumentClick | flask/static/scripts/views/context-menu-manager.js:10-15 | a click other than the right button hides an open menu; otherwise nothing changes |
| ContextMenu.ShownMenuDismissed | flask/static/scripts/views/context-menu-manager.js:10-100 | a shown menu stays open on a right click and is dismissed, with no listener left, by any other click or by clicking one of its items, which runs the item's action |
| ContextMenu.MenuLineEdit | flask/static/scripts/views/context-menu-manager.js:246-281 | a line item leaves the current image with the lines its handler computes and then recomputes the luminance |
| ContextMenu.MenuLineEditSettles | flask/static/scripts/views/context-menu-manager.js:246-281 | a line item touches no other image, settles as its request does unless the answer's table raises, and stores the answer's luminance |
| ImageService.ValidateFileType | flask/static/scripts/services/image-service.js:13-16 | accepted exactly when the name ends in one of the four extensions, in any case |
| ImageService.ValidateIgnoresCase | flask/static/scripts/services/image-service.js:13-16 | lower-casing a name does not change whether it is accepted |
| ImageService.ValidateRejectsJson | flask/static/scripts/services/image-service.js:13-16 | a `.json` file is never taken for an image |
| ImageService.AddImages | flask/static/scripts/services/image-service.js:9-11 | the new images follow the old ones, both in order |
| ImageService.DownloadName | flask/static/scripts/services/image-service.js:98-100 | the name before its first dot plus `_data.json`, or `image_data.json` when there is no name |
| ImageService.DownloadNameDropsExtension | flask/static/scripts/services/image-service.js:98-100 | a name with one extension keeps its stem |
| ImageService.Save | flask/static/scripts/services/image-service.js:74-105 | nothing without an image; given selections replace the image's first; the document carries the image's fields and its selected cells |
| ImageService.SaveWritesGivenSelections | flask/static/scripts/services/image-service.js:74-105 | the saved entries are exactly the given entries that land in a category |
| ImageService.Load | flask/static/scripts/services/image-service.js:47-72 | an unreadable document or a failed load yields no image; otherwise the image the constructor builds and loads from the document's fields |
| ImageService.CreateFromSaved | flask/static/scripts/services/image-service.js:47-105 | the constructor rebuilds the saved image from its document, categories and cell order included |
| ImageService.SaveThenLoadLoaded | flask/static/scripts/services/image-service.js:47-105 | loading a saved image that has a blurred copy gives back the saved image with the default lines added to each axis saved without lines, whatever the blur server would answer |
| ImageService.SaveThenLoad | flask/static/scripts/services/image-service.js:47-105 | an image with a blurred copy and lines on both axes comes back exactly, categories and cell order included |
| ImageService.SaveThenLoadEmptyAxis | flask/static/scripts/services/image-service.js:47-105 | an image saved without vertical lines comes back with the default lines at thirds of the loaded width, so it differs from the saved image |
| ExcelExporter.ExportCell | flask/static/scripts/services/excel-exporter.js:62-84 | a data cell's number is sent as a number; headers and text are sent as text |
| ExcelExporter.ExtractTableData | flask/static/scripts/services/excel-exporter.js:62-84 | the exported grid has the table's shape and each value comes from its cell |
| ExcelExporter.CellRecords | flask/static/scripts/services/excel-exporter.js:114-145 | a selected cell yields one record per category, or one default record, each with the cell's value |
| ExcelExporter.RecordsAreTableSelections | flask/static/scripts/services/excel-exporter.js:92-154 | the exported records are, in order, the table's selections as `getSelectedCells` reads them as written |
| ExcelExporter.RecordValues | flask/static/scripts/services/excel-exporter.js:114-145 | every record's value is the parsed content of the cell it names |
| ExcelExporter.AverageFor | flask/static/scripts/services/excel-exporter.js:161-191 | a category's count is the number of its records, and its average is their mean or not available when there are none |
| ExcelExporter.CategoryAverages | flask/static/scripts/services/excel-exporter.js:161-191 | one average per distinct category id, using the last category of that id |
| ExcelExporter.AveragesFollowCategories | flask/static/scripts/services/excel-exporter.js:161-191 | with distinct ids the averages follow the image's categories one to one |
| ExcelExporter.CountsAddUp | flask/static/scripts/services/excel-exporter.js:161-191 | the category counts add up to the number of records whose category is known |
| ExcelExporter.ExportTableData | flask/static/scripts/services/excel-exporter.js:18-55 | refuses without data or rows, then without an image; otherwise sends the grid, the records and the averages |
| ExcelExporter.ExportSendsTableSelections | flask/static/scripts/services/excel-exporter.js:18-191 | a successful export sends the table's selections and one average per category, with counts that add up |
| Boundaries.RemoveSimilarValues | flask/wsgi.py:54-58 | the survivors of deleting, from the back, every value equal to its predecessor |
| Boundaries.RemoveSimilarSameValues | flask/wsgi.py:54-58 | the same values remain |
| Boundaries.SurvivorsNoAdjacentEqual | flask/wsgi.py:54-58 | no two neighbours of the result are equal |
| Boundaries.RemoveSimilarStrict | flask/wsgi.py:54-58 | a sorted input becomes strictly increasing |
| Boundaries.RemoveSimilarKeepsStrict | flask/wsgi.py:54-58 | a strictly increasing input is unchanged |
| Boundaries.Trunc | flask/wsgi.py:67 | truncation toward zero, as Python's `int` of a float |
| Boundaries.Normalized | flask/wsgi.py:61-79 | strictly increasing boundaries from 0 to the dimension, holding exactly the truncated in-range lines and the two ends |
| Boundaries.NormalizeAxis | flask/wsgi.py:63-69 | gives the normalised boundaries, and the caller's list ends up padded with 0 and the dimension |
| Boundaries.ComputeGrid | flask/wsgi.py:61-79 | both axes normalised against the image's height and width |
| Boundaries.CleanLinesOnlyPadded | flask/consumer.py:93-111 | clean interior lines come back padded with 0 and the dimension and otherwise unchanged |
| ExcelServer.NumericStringShape | flask/wsgi.py:190 | a string counts as numeric exactly when it is digits with at most one dot and at least one digit |
| ExcelServer.SignsAndExponentsStayText | flask/wsgi.py:190 | signed numbers and exponents are not numeric strings |
| ExcelServer.WriteCell | flask/wsgi.py:185-199 | numbers are written as floats; a string becomes a float exactly when numeric, and stays text otherwise; null is empty |
| ExcelServer.LeadingDotExample | flask/wsgi.py:190-192 | the string .5 is written as the number 0.5 |
| ExcelServer.FindGroup | flask/wsgi.py:242-244 | the index of the group for a position, or -1 exactly when there is none |
| ExcelServer.GroupByPosition | flask/wsgi.py:234-247 | one group per position that occurs, holding the non-empty ids given for it in order |
| ExcelServer.IdsAtAbsent | flask/wsgi.py:234-247 | a position that never occurs has no ids |
| App.PadStart | flask/static/scripts/app.js:59-78 | prepends 0 to a non-empty list that does not start at 0 and otherwise leaves it unchanged |
| App.PadEnd | flask/static/scripts/app.js:59-78 | appends the dimension when it is known, non-zero and not already last; the original lines stay a prefix |
| App.PadBounds | flask/static/scripts/app.js:59-78 | padded bounds start at 0 when there are lines and end at the dimension |
| App.PaddingAgreesWithServer | flask/static/scripts/app.js:59-78 | for clean interior lines the browser's padding equals the server's boundaries |
| App.EmptyLinesDisagree | flask/static/scripts/app.js:59-78 | for an axis without lines the browser pads to the dimension alone while the server has 0 and the dimension |
| App.SaveTableSelections | flask/static/scripts/app.js:47-51 | the current image takes the table's selections; other images and the table are unchanged |
| App.ShownData | flask/static/scripts/app.js:56-82 | the image's matrix with the padded bounds: they start at 0 when there are lines and end at the width when it is known |
| App.ShowImage | flask/static/scripts/app.js:53-95 | an image with luminance is rendered with padded bounds, and reports a raise exactly when its category headers do not fit, leaving only the header cells and restoring nothing; one without luminance is rendered as an empty table |
| App.SelectImage | flask/static/scripts/app.js:44-97 | saves the table into the old image, makes the chosen image current and shows it, reporting whether showing it raised |
| App.SelectImageShowsItsSelections | flask/static/scripts/app.js:44-97 | after a switch to an image whose headers fit, nothing raises and the table lists exactly the in-range selections of the chosen image |
| App.NoVerticalLinesNotShown | flask/static/scripts/app.js:53-89 | an image with luminance, no vertical line and a category cannot be shown: the switch raises and the table holds only the corner cell |
| App.Recompute | flask/static/scripts/app.js:205-224 | without highlighting the table's selections are saved into the current image first; an answer's luminance is stored in that image and the table is rebuilt from it; a failed request stores nothing and keeps the table; the promise rejects exactly when the new table's category headers raise; other images are untouched; the highlight path leaves every image's categories alone |
| App.CalculateLuminanceAsWritten | flask/static/scripts/app.js:205-237 | changes the images only as the common part does, and throws exactly on a result with a highlight or with category headers that raise |
| App.HighlightAlwaysThrows | flask/static/scripts/app.js:229 | as written, every highlight with a result throws |
| App.NormalPathAsWritten | flask/static/scripts/app.js:205-237 | without highlight the corrected and as-written requests agree |
| App.CalculateLuminance | flask/static/scripts/app.js:205-237 | changes the images only as the common part does; without highlighting it settles as the request does; with a result, the highlight fails exactly on empty luminance or category headers that raise, and never changes categories |
| App.NormalPathShowsSavedSelections | flask/static/scripts/app.js:205-237 | without highlighting and with headers that fit, the table's selections are saved, the luminance stored, and the new table lists exactly the saved selections inside the new matrix |
| App.HighlightShowsMaxCells | flask/static/scripts/app.js:220-232 | after a highlight whose table renders, it lists exactly the column maxima of the new data, under the default category |
| App.Send | flask/static/scripts/app.js:205-218 | nothing is sent without a current image; otherwise the request remembers the current image, and the table's selections are saved into it unless highlighting; no other image changes |
| App.Answer | flask/static/scripts/app.js:219-236 | on the state at arrival: a failed request changes nothing; an answer's luminance goes to the image the request was sent for, the table is rebuilt from the answer, and the promise rejects exactly on a highlight or on category headers of the shown image that raise |
| App.SendThenAnswer | flask/static/scripts/app.js:205-237 | with nothing in between, the two halves are the handler as written |
| App.AnswerAfterSwitch | flask/static/scripts/app.js:205-237 | after a switch (the selection handler, app.js lines 44-97) while the request is pending, the luminance goes to the image left behind, the image shown keeps its own, and the table shows the answer's matrix |
| App.LateAnswerWins | flask/static/scripts/app.js:205-237 | of two answers for one image arriving out of order, the one arriving last sets the luminance |

## Left out

- Drawing, styling, colours, fonts, scrolling and every other DOM or canvas
  effect are not modelled. A cell's text content is modelled as a number, a
  label or the text NaN.
- Number formatting with `toFixed(3)` and the parsing of that text back are
  not modelled. Means are exact reals.
- ImageProcessor.DefaultLinesOf, ImageProcessor.DefaultLines: place lines at
  exact thirds, without the rounding of floating-point division.
- The network is left out. Server responses, such as the luminance result
  and the blurred image, and failures are parameters. So is the natural size
  an image element reports once loaded. `setTimeout`, the blurring itself,
  EXIF reading, file reading, JSON text encoding, the save timestamp and the
  download itself are left out too.
- CanvasView.ZoomOutThenIn, CanvasView.Wheel, CanvasView.AddLine: the
  canvas arithmetic uses exact reals. JavaScript's doubles round the scale
  factors and the products, so zooming out then in gives 0.9900000000000001
  of the old scale there, not exactly 0.99, and the truncated canvas size can
  differ by one pixel near a whole number.
- The luminance computation itself (`calculateMeanRelativeToLines` and the
  Python image processor) is not part of this model. Its result is a parameter.
- The `data-categories` attribute is a comma-joined string that the table
  splits on `,`. The model keeps the list of ids itself. This is exact for
  non-empty ids without a comma.
- TableView.ToggleId: keeps the id list instead of the comma-joined text, so
  it is exact only for non-empty ids without a comma. An id derived from a name
  with a comma would split into two ids when read back.
- TableView.ToggleIdTwice: states the round trip on the id list. It holds for
  the attribute text only when the ids are non-empty and comma-free.
- Slug.Slugify: lower-cases only the Latin, Latin-1 and Cyrillic capitals.
  JavaScript's `toLowerCase` covers all of Unicode, including characters that
  lower-case to more than one character. Names in other scripts are kept as
  they are.
- Slug.SlugOfSpaceFreeName: "lower-cased" means the restricted mapping above.
- Slug.SlugOfRun: "lower-cased" means the restricted mapping above.
- CanvasView.MouseMove: an index just past the end appends, as JavaScript
  does. An index further out leaves the list unchanged, whereas JavaScript
  pads the array with holes and then writes. The model's line lists hold only
  numbers. Such an index can arise: a release outside the canvas is never seen
  by it, so the drag stays active while toolbar clicks remove lines.
- The canvas's `setImage`, whose image-load handler sizes the canvas, is left
  out. The canvas size and the cached image size are fields of the state.
- The grid-index lookup used for the context menus (`findGridIndex`) is left
  out. Its results arrive as parameters.
- TableView.Sync, TableView.ToggleCellSelection, App.SaveTableSelections,
  App.SelectImage, App.Recompute, App.CalculateLuminance: these read the table
  with the corrected `getSelectedCells` (TableView.GetSelectedCells), not the
  reader as written. TableView.ReadersAgree shows that the two agree on
  tables with at least one category column whose mean cells carry no
  selection. They differ on a table without categories, where the reader as
  written misses the last data column. They also differ when a mean cell was
  toggled: a canvas cell index past the data columns reaches a mean cell,
  whose entries the reader as written lists.
- ContextMenu.Run: yields only the edited lines. The luminance recomputation
  each line item starts afterwards is ContextMenu.MenuLineEdit.
- App.Recompute, App.CalculateLuminanceAsWritten, App.CalculateLuminance,
  ContextMenu.MenuLineEdit: treat the request and its answer as one step on
  one state. In the source the answer arrives later. It stores the luminance
  in the image captured when the request was sent, but `updateTable` and the
  restore read the image the canvas shows at arrival. If the user switches
  images in between, the table is built for the new image's categories, the
  old image's selections are restored into it, and the next switch saves them
  into the new image. Two overlapping requests can also resolve out of order.
  App.Send and App.Answer model the two halves on separate states,
  App.SendThenAnswer shows that they compose to the handler as written, and
  App.AnswerAfterSwitch and App.LateAnswerWins show the two interleavings.
- App.NormalPathShowsSavedSelections: holds only when no switch and no
  other request happens between the request and its answer; see
  App.AnswerAfterSwitch for what a switch does.
- App.HighlightShowsMaxCells: holds only when no switch and no other request
  happens between the request and its answer.
- ContextMenu.MenuLineEditSettles: names the outcomes for an answer applied
  to the state the line item left, that is with nothing happening before the
  answer arrives.
- TableView.Render, App.ShowImage, App.Recompute: these require a rectangular
  luminance matrix, which the server always returns. Ragged matrices are left
  out.
- ExcelExporter.CategoryAverages: JavaScript object keys that look like array
  indices are iterated in numeric order, not insertion order. This model
  keeps first-insertion order, so it is exact only for ids that are not
  canonical non-negative integers.
- ExcelServer.NumericStringShape: Python's `isdigit` accepts non-ASCII digits.
  This model accepts only ASCII digits.
- ExcelServer.GroupByPosition: row and column values that are not integers or
  are missing are not distinguished from integers. The server's formatting of
  the grouping key is left out.
- The spreadsheet styling in `wsgi.py` and the workbook file are left out.
- The category statistics panel and the category manager dialog are left out.
  They only display and forward what this model computes.
- ExcelExporter.RecordsAreTableSelections: the exporter scans the cells of a
  row with the same bound as `getSelectedCells`, skipping the last cell of each
  row. It is modelled as written, so in a table without category columns an
  export misses the last data column too.

## Findings

| source | as written | input that shows it | evidently intended | confidence | as-written member | corrected member |
|---|---|---|---|---|---|---|
| flask/static/scripts/views/table-view.js:364 | the column loop always stops before the last cell of a row; when the table has no category columns that cell is data | an image with an empty category list, whose one-column table has its only cell selected by a click, reads back as no selection | every data column is read, with the scan ending where the category columns begin, as the row means at line 300 do | not executed | TableView.GetSelectedCellsAsWritten, TableView.LastColumnDropped | TableView.GetSelectedCells |
| flask/static/scripts/views/table-view.js:618 | the row loop stops before the last row, as if a summary row were always present | a freshly rendered two-row table whose column maximum is in the second row reports the first row | every data row is scanned | not executed | TableView.FindMaxValueCellsAsWritten, TableView.LastRowMissed | TableView.FindMaxValueCells, TableView.FindMaxValueCellsIsMax |
| flask/static/scripts/app.js:229 | the highlight path assigns to `selectedCells`, which has only a getter, inside a class module, so the assignment throws | any highlight request that returns a result | the table marks the column maxima | not executed | App.CalculateLuminanceAsWritten, App.HighlightAlwaysThrows | App.CalculateLuminance, App.HighlightShowsMaxCells |
| flask/static/scripts/views/table-view.js:96 | category header i is inserted at `luminance[0].length + 1 + i`, a position counted in data columns, into a header row whose length is set by the column bounds; `insertCell` raises when that position is past the end, and a shorter data width puts the headers among the column headers | an image with luminance, every vertical line removed and at least one category: switching to it pads the column bounds to at most the width, so `insertCell(2)` meets a one-cell row and the table stops after the corner cell | the category headers follow the column headers | not executed | TableView.HeaderRow, TableView.HeaderRowRaises, App.NoVerticalLinesNotShown | TableView.HeaderRowAppended, TableView.HeaderRowAgrees |

The first three rows are corrected in the rest of the model. The header row
of the last one is not: TableView.Render, App.ShowImage, App.SelectImage and
App.Recompute use TableView.HeaderRow as written, so the raise and the steps
it skips are part of the model. TableView.HeaderRowAgrees shows that the
written and the intended header rows coincide whenever the column bounds hold
one more entry than the data has columns, which is the shape of the grid the
luminance request answers with.

=== FILE: app.dfy ===
/** The coordinator of `app.js`: switching the current image (saving the
    table's selections into the image left behind, padding the grid lines and
    rebuilding the table) and recomputing the luminance, including the
    max-cell highlight that follows an adaptive grid. Network calls are
    parameters: their result, or None for a failed request. */
module App {
  import opened Common
  import IP = ImageProcessor
  import TV = TableView
  import B = Boundaries
  import Sorting

  // ---------------------------------------------------------------------------
  // Padding the grid lines (app.js:58-78)

  /** Prepend 0 to a non-empty list that does not start with 0. */
  function PadStart(lines: seq<real>): (r: seq<real>)
    ensures |r| == |lines| || |r| == |lines| + 1
    ensures |lines| == 0 ==> r == []
    ensures |lines| > 0 ==> r[0] == 0.0
    ensures r[|r| - |lines|..] == lines
    ensures |r| == |lines| + 1 ==> r[0] == 0.0 && lines[0] != 0.0
  {
    if |lines| > 0 && lines[0] != 0.0 then [0.0] + lines else lines
  }

  /** Append the dimension when it is truthy (present and non-zero) and the
      list is empty or does not end with it. */
  function PadEnd(lines: seq<real>, dim: Option<nat>): (r: seq<real>)
    ensures dim.None? || dim.value == 0 ==> r == lines
    ensures dim.Some? && dim.value > 0 ==> |r| > 0 && r[|r| - 1] == dim.value as real
    ensures |r| == |lines| || |r| == |lines| + 1
    ensures r[..|lines|] == lines
  {
    if dim.Some? && dim.value > 0 && (|lines| == 0 || lines[|lines| - 1] != dim.value as real)
    then lines + [dim.value as real]
    else lines
  }

  /** Both paddings, on a copy: the image's own list is not touched. */
  function PadBounds(lines: seq<real>, dim: Option<nat>): (r: seq<real>)
    ensures |lines| <= |r| <= |lines| + 2
    ensures |lines| > 0 ==> r[0] == 0.0
    ensures dim.Some? && dim.value > 0 ==> |r| > 0 && r[|r| - 1] == dim.value as real
  {
    PadEnd(PadStart(lines), dim)
  }

  /** On clean lines (integers strictly inside `(0, dim)`, strictly
      increasing, at least one) the browser's padding agrees with the
      server's boundaries, which the browser does not see when it switches
      images. */
  lemma PaddingAgreesWithServer(lines: seq<int>, dim: nat)
    requires |lines| > 0 && dim > 0 && Sorting.StrictlyIncreasing(lines)
    requires forall k :: 0 <= k < |lines| ==> 0 < lines[k] < dim
    ensures PadBounds(B.AsReals(lines), Some(dim)) == B.AsReals(B.Normalized(B.AsReals(lines), dim))
  {
    B.CleanLinesOnlyPadded(lines, dim);
    var r := B.AsReals(lines);
    assert r[0] != 0.0 && r[|r| - 1] != dim as real;
    assert B.AsReals([0] + lines + [dim]) == [0.0] + r + [dim as real];
  }

  /** Without lines the two sides disagree: the browser gets `[dim]`, as the
      leading 0 is only added to a non-empty list, and the server `[0, dim]`. */
  lemma EmptyLinesDisagree(dim: nat)
    requires dim > 0
    ensures PadBounds([], Some(dim)) == [dim as real]
    ensures B.Normalized([], dim) == [0, dim]
  {
    var r := B.Normalized([], dim);
    assert forall x :: x in r <==> x == 0 || x == dim;
    B.StrictSameMembers(r, [0, dim]);
  }

  // ---------------------------------------------------------------------------
  // The application state

  /** The loaded images, the index of the canvas's current image, and the
      table. The images are shared objects: the current image is one of the
      list, so an update through the canvas shows in the list. */
  datatype State = State(images: seq<IP.Image>, current: Option<nat>, view: TV.View)

  predicate Valid(st: State) {
    st.current.Some? ==> st.current.value < |st.images|
  }

  /** The luminance matrices the table can be built from. */
  predicate LuminanceOk(lum: Option<seq<seq<real>>>) {
    lum.Some? ==> TV.Rectangular(lum.value)
  }

  /** The current image's categories, if there is a current image. */
  function CurrentCategories(st: State): (r: Option<seq<IP.Category>>)
    requires Valid(st)
    ensures r.Some? <==> st.current.Some?
  {
    if st.current.Some? then Some(st.images[st.current.value].categories) else None
  }

  /** `currentImage.updateSelectedCells(tableView.getSelectedCells())`: the
      current image's categories replaced by the table's selections. */
  function SaveTableSelections(st: State): (r: State)
    requires Valid(st)
    ensures Valid(r) && r.current == st.current && r.view == st.view && |r.images| == |st.images|
    ensures forall k :: 0 <= k < |st.images| && Some(k) != st.current ==> r.images[k] == st.images[k]
    ensures st.current.Some? ==>
              var cur := st.current.value;
              var cats := st.images[cur].categories;
              r.images[cur] == st.images[cur].(categories := IP.UpdateSelectedCells(cats, TV.GetSelectedCells(st.view.rows, |cats|, true)))
  {
    if st.current.None? then st
    else
      var cur := st.current.value;
      var img := st.images[cur];
      var sel := TV.GetSelectedCells(st.view.rows, |img.categories|, true);
      st.(images := st.images[cur := img.(categories := IP.UpdateSelectedCells(img.categories, sel))])
  }

  /** The data the `image-selected` handler gives `updateTable` for an image
      with luminance: the matrix and the padded grid ordered `[horizontal,
      vertical]` (row bounds, then column bounds). */
  function ShownData(img: IP.Image, size: Option<Size>): (r: TV.Data)
    requires img.luminance.Some?
    ensures r.luminance == img.luminance.value
    ensures |img.horizontal| <= |r.rowBounds| && |img.vertical| <= |r.colBounds|
    ensures img.horizontal != [] ==> r.rowBounds[0] == 0.0
    ensures img.vertical != [] ==> r.colBounds[0] == 0.0
    ensures size.Some? && size.value.width > 0 ==> |r.colBounds| > 0 && r.colBounds[|r.colBounds| - 1] == size.value.width as real
  {
    TV.Data(img.luminance.value,
            PadBounds(img.horizontal, if size.Some? then Some(size.value.height) else None),
            PadBounds(img.vertical, if size.Some? then Some(size.value.width) else None))
  }

  /** The table an image is shown with, and whether `updateTable` raised: for
      an image with luminance, the table of `ShownData` and then its selections
      restored when it has any, unless the render raised, which ends the
      handler before the restore; otherwise an empty table. */
  function ShowImage(v: TV.View, img: IP.Image, size: Option<Size>): (r: (TV.View, bool))
    requires LuminanceOk(img.luminance)
    ensures img.luminance.Some? ==> r.0.data == Some(ShownData(img, size))
    ensures r.1 <==> img.luminance.Some? && TV.RenderThrows(Some(ShownData(img, size)), |img.categories|)
    ensures r.1 ==> r.0 == TV.View([TV.Row(false, TV.HeaderBase(ShownData(img, size)))], Some(ShownData(img, size)),
                                   v.rendered, v.pending)
    ensures img.luminance.None? ==> r.0 == TV.Render(v, Some(TV.Data([], [], [])), Some(img.categories))
    ensures img.luminance.None? ==> |r.0.rows| == 1 && r.0.data == Some(TV.Data([], [], []))
  {
    if img.luminance.Some? then
      var data := ShownData(img, size);
      var v1 := TV.Render(v, Some(data), Some(img.categories));
      var sel := IP.GetSelectedCells(img.categories);
      if TV.RenderThrows(Some(data), |img.categories|) then (v1, true)
      else if |sel| > 0 then (TV.Restore(v1, sel, Some(img.categories)), false)
      else (v1, false)
    else (TV.Render(v, Some(TV.Data([], [], [])), Some(img.categories)), false)
  }

  /** The `image-selected` handler: the table's selections are saved into the
      image being left, the chosen image becomes current, and the table is
      rebuilt for it; the flag tells whether the rebuild raised. Everything
      else in the image list is left alone. */
  function SelectImage(st: State, index: nat, size: Option<Size>): (r: (State, bool))
    requires Valid(st) && index < |st.images| && LuminanceOk(st.images[index].luminance)
    ensures Valid(r.0) && r.0.current == Some(index)
    ensures r.0.images == SaveTableSelections(st).images
    ensures (r.0.view, r.1) == ShowImage(st.view, SaveTableSelections(st).images[index], size)
  {
    var saved := SaveTableSelections(st);
    var (view, threw) := ShowImage(st.view, saved.images[index], size);
    (State(saved.images, Some(index), view), threw)
  }

  /** An image with luminance, no vertical line and a category cannot be
      shown: the padded column bounds hold at most the image width, so the
      header row has one cell and the first category header, inserted at
      position `|luminance[0]| + 1 >= 2`, raises. The table keeps only the
      corner cell, and neither data rows nor selections appear. */
  lemma NoVerticalLinesNotShown(v: TV.View, img: IP.Image, size: Option<Size>)
    requires LuminanceOk(img.luminance) && img.luminance.Some?
    requires |img.luminance.value| > 0 && |img.luminance.value[0]| >= 1
    requires img.vertical == [] && |img.categories| >= 1
    ensures ShowImage(v, img, size).1
    ensures ShowImage(v, img, size).0.rows == [TV.Row(false, [TV.TCell(TV.Label("Y\\X"), false, [])])]
  {
    var d := ShownData(img, size);
    assert |d.colBounds| <= 1;
    assert TV.HeaderWidth(d) == 1;
    assert TV.HeaderBase(d) == [TV.TCell(TV.Label("Y\\X"), false, [])];
  }

  /** Some entry of `sel` sits at the position of `s` and, with a missing id
      read as `'default'`, carries its category id. */
  predicate Lists(sel: seq<IP.Selection>, s: IP.Selection) {
    exists k :: && 0 <= k < |sel| && sel[k].row == s.row && sel[k].col == s.col
                && IP.OrDefault(sel[k].categoryId) == s.categoryId
  }

  /** Switching to an image with luminance and categories, with nothing
      pending in the table, shows exactly its stored selections that fall
      inside the luminance matrix. */
  lemma SelectImageShowsItsSelections(v: TV.View, img: IP.Image, size: Option<Size>, s: IP.Selection)
    requires LuminanceOk(img.luminance) && img.luminance.Some? && |img.luminance.value| > 0
    requires |img.categories| >= 1 && v.pending.None?
    requires TV.HeadersFit(ShownData(img, size), |img.categories|)
    ensures !ShowImage(v, img, size).1
    ensures s in TV.GetSelectedCells(ShowImage(v, img, size).0.rows, |img.categories|, true)
            <==> && 0 <= s.row < |img.luminance.value| && 0 <= s.col < |img.luminance.value[0]|
                 && Lists(IP.GetSelectedCells(img.categories), s)
  {
    var cats := img.categories;
    var data := ShownData(img, size);
    var v1 := TV.Render(v, Some(data), Some(cats));
    FreshTable(v, data, cats);
    var sel := IP.GetSelectedCells(cats);
    var r := ShowImage(v, img, size).0;
    if |sel| > 0 {
      assert r == TV.Restore(v1, sel, Some(cats));
      TV.RestoreThenRead(v1, sel, cats, s);
    } else {
      assert r == v1;
      TV.RenderUnselected(v, Some(data), Some(cats), s);
      assert s !in TV.GetSelectedCells(r.rows, |cats|, true);
    }
  }

  /** A table rendered from a non-empty rectangular matrix with nothing
      pending: one row per matrix row below the header, one data column per
      matrix column, laid out for the categories. */
  lemma FreshTable(v: TV.View, data: TV.Data, cats: seq<IP.Category>)
    requires TV.Rectangular(data.luminance) && |data.luminance| > 0 && v.pending.None?
    requires TV.HeadersFit(data, |cats|)
    ensures var r := TV.Render(v, Some(data), Some(cats));
            && r.rendered && TV.Shaped(r, |cats|) && r.pending.None?
            && |r.rows| == 1 + |data.luminance| && TV.DataCols(r) == |data.luminance[0]|
  {
  }

  // ---------------------------------------------------------------------------
  // Recomputing the luminance (app.js:205-237)

  /** The server's answer: the luminance matrix and the grid `(horizontal,
      vertical)`. */
  datatype LuminanceResult = LuminanceResult(luminance: seq<seq<real>>, rowBounds: seq<real>, colBounds: seq<real>)

  /** How the returned promise settles: resolved, rejected by the request, or
      rejected by an exception in the handler. */
  datatype Settled = Resolved | RequestFailed | Threw

  /** `updateTable` raises on the server's answer for the current image: its
      category headers do not fit the header row the answer's column bounds
      give. */
  predicate AnswerThrows(st: State, res: LuminanceResult)
    requires Valid(st) && st.current.Some?
  {
    TV.RenderThrows(Some(TV.Data(res.luminance, res.rowBounds, res.colBounds)),
                    |st.images[st.current.value].categories|)
  }

  /** The common part: without a current image nothing happens; otherwise,
      unless highlighting, the table's selections are saved first; a failed
      request stops there; a result is stored in the image and rendered, and
      a render that raises rejects the promise. */
  function Recompute(st: State, highlight: bool, result: Option<LuminanceResult>): (r: (State, Settled))
    requires Valid(st)
    requires result.Some? ==> TV.Rectangular(result.value.luminance)
    ensures Valid(r.0) && r.0.current == st.current && |r.0.images| == |st.images|
    ensures st.current.None? ==> r == (st, Resolved)
    ensures st.current.Some? && result.None? ==> r.1 == RequestFailed
    ensures st.current.Some? && result.Some? ==> r.1 == (if AnswerThrows(st, result.value) then Threw else Resolved)
    ensures highlight ==> forall k :: 0 <= k < |st.images| ==> r.0.images[k].categories == st.images[k].categories
    ensures st.current.Some? ==>
              forall k :: 0 <= k < |st.images| && k != st.current.value ==> r.0.images[k] == st.images[k]
    ensures st.current.Some? && !highlight ==>
              var cats := st.images[st.current.value].categories;
              r.0.images[st.current.value].categories
                == IP.UpdateSelectedCells(cats, TV.GetSelectedCells(st.view.rows, |cats|, true))
    ensures st.current.Some? && result.None? ==>
              && r.0.view == st.view
              && r.0.images[st.current.value] == (if highlight then st else SaveTableSelections(st)).images[st.current.value]
    ensures st.current.Some? && result.Some? ==>
              && r.0.images[st.current.value]
                 == (if highlight then st else SaveTableSelections(st)).images[st.current.value].(luminance := Some(result.value.luminance))
              && r.0.view.data == Some(TV.Data(result.value.luminance, result.value.rowBounds, result.value.colBounds))
  {
    if st.current.None? then (st, Resolved)
    else
      var st1 := if highlight then st else SaveTableSelections(st);
      var cur := st.current.value;
      if result.None? then (st1, RequestFailed)
      else
        var res := result.value;
        var img := st1.images[cur].(luminance := Some(res.luminance));
        var data := TV.Data(res.luminance, res.rowBounds, res.colBounds);
        var v := TV.Render(st1.view, Some(data), Some(img.categories));
        (st1.(images := st1.images[cur := img], view := v),
         if TV.RenderThrows(Some(data), |img.categories|) then Threw else Resolved)
  }

  /** `calculateLuminance` as written: after rendering, the highlight path
      assigns to the getter-only `selectedCells` of the image, which throws in
      class code, so the restore step never runs; the normal path restores
      the image's selections into the new table. */
  function CalculateLuminanceAsWritten(st: State, highlight: bool, result: Option<LuminanceResult>): (r: (State, Settled))
    requires Valid(st)
    requires result.Some? ==> TV.Rectangular(result.value.luminance)
    ensures Valid(r.0) && r.0.images == Recompute(st, highlight, result).0.images
    ensures r.1 == Threw <==> st.current.Some? && result.Some? && (highlight || AnswerThrows(st, result.value))
  {
    var (st2, settled) := Recompute(st, highlight, result);
    if settled != Resolved || st.current.None? then (st2, settled)
    else if highlight then (st2, Threw)
    else
      var cats := st2.images[st2.current.value].categories;
      (st2.(view := TV.Restore(st2.view, IP.GetSelectedCells(cats), Some(cats))), Resolved)
  }

  /** Every highlight with a result fails: the max cells never reach the table. */
  lemma HighlightAlwaysThrows(st: State, result: LuminanceResult)
    requires Valid(st) && st.current.Some? && TV.Rectangular(result.luminance)
    ensures CalculateLuminanceAsWritten(st, true, Some(result)).1 == Threw
  {
  }

  /** Without highlighting the corrected handler is the handler as written:
      the two differ only on the highlight path. */
  lemma NormalPathAsWritten(st: State, result: Option<LuminanceResult>)
    requires Valid(st)
    requires result.Some? ==> TV.Rectangular(result.value.luminance)
    ensures CalculateLuminance(st, false, result) == CalculateLuminanceAsWritten(st, false, result)
  {
  }

  /** The max cells as restorable entries, without a category id. */
  function MaxEntries(cells: seq<IP.Cell>): (r: seq<IP.Selection>)
    ensures |r| == |cells|
    ensures forall k :: 0 <= k < |r| ==> r[k] == IP.Selection(cells[k].row, cells[k].col, "")
  {
    seq(|cells|, k requires 0 <= k < |cells| => IP.Selection(cells[k].row, cells[k].col, ""))
  }

  /** `calculateLuminance` as evidently intended: the highlight path restores
      the max cells of the new table (found by the full scan over every data
      row) instead of writing them into the image, whose stored selections it
      leaves alone; an empty luminance, on which the scan throws, still
      rejects. */
  function CalculateLuminance(st: State, highlight: bool, result: Option<LuminanceResult>): (r: (State, Settled))
    requires Valid(st)
    requires result.Some? ==> TV.Rectangular(result.value.luminance)
    ensures Valid(r.0) && r.0.current == st.current && |r.0.images| == |st.images|
    ensures highlight ==> forall k :: 0 <= k < |st.images| ==> r.0.images[k].categories == st.images[k].categories
    ensures highlight && st.current.Some? && result.Some? ==>
              (r.1 == Threw <==> |result.value.luminance| == 0 || AnswerThrows(st, result.value))
    ensures r.0.images == Recompute(st, highlight, result).0.images
    ensures !highlight ==> r.1 == Recompute(st, highlight, result).1
  {
    var (st2, settled) := Recompute(st, highlight, result);
    if settled != Resolved || st.current.None? then (st2, settled)
    else
      var cats := st2.images[st2.current.value].categories;
      if highlight then
        match TV.FindMaxValueCells(st2.view)
        case None => (st2, Threw)
        case Some(cells) => (st2.(view := TV.Restore(st2.view, MaxEntries(cells), Some(cats))), Resolved)
      else (st2.(view := TV.Restore(st2.view, IP.GetSelectedCells(cats), Some(cats))), Resolved)
  }

  /** The normal path on a table with nothing pending: the table's selections
      are saved into the image first, the new luminance is stored, and the new
      table lists exactly the saved selections that fall inside the new
      matrix. */
  lemma NormalPathShowsSavedSelections(st: State, result: LuminanceResult, s: IP.Selection)
    requires Valid(st) && st.current.Some? && TV.Rectangular(result.luminance) && |result.luminance| > 0
    requires |st.images[st.current.value].categories| >= 1 && st.view.pending.None?
    requires !AnswerThrows(st, result)
    ensures var cur := st.current.value;
            var cats := st.images[cur].categories;
            var saved := IP.UpdateSelectedCells(cats, TV.GetSelectedCells(st.view.rows, |cats|, true));
            var r := CalculateLuminance(st, false, Some(result));
            && r.1 == Resolved
            && r.0.images[cur] == st.images[cur].(categories := saved, luminance := Some(result.luminance))
            && (s in TV.GetSelectedCells(r.0.view.rows, |cats|, true)
                <==> && 0 <= s.row < |result.luminance| && 0 <= s.col < |result.luminance[0]|
                     && Lists(IP.GetSelectedCells(saved), s))
  {
    var cur := st.current.value;
    var cats := st.images[cur].categories;
    var st1 := SaveTableSelections(st);
    var saved := st1.images[cur].categories;
    assert |saved| == |cats|;
    var data := TV.Data(result.luminance, result.rowBounds, result.colBounds);
    var v1 := Rerendered(st1, result);
    assert v1 == TV.Render(st.view, Some(data), Some(saved));
    FreshTable(st.view, data, saved);
    var (mid, _) := Recompute(st, false, Some(result));
    assert mid.view == v1 && mid.images[cur].categories == saved;
    var sel := IP.GetSelectedCells(saved);
    assert CalculateLuminance(st, false, Some(result)).0.view == TV.Restore(v1, sel, Some(saved));
    TV.RestoreThenRead(v1, sel, saved, s);
  }

  /** The table `calculateLuminance` renders for the current image from the
      server's answer. */
  function Rerendered(st: State, result: LuminanceResult): (r: TV.View)
    requires Valid(st) && st.current.Some? && TV.Rectangular(result.luminance)
    ensures r.data == Some(TV.Data(result.luminance, result.rowBounds, result.colBounds))
  {
    TV.Render(st.view, Some(TV.Data(result.luminance, result.rowBounds, result.colBounds)),
              Some(st.images[st.current.value].categories))
  }

  /** After a corrected highlight on a table with nothing pending, the
      table's selections are exactly the max cells of the new table, each
      under `'default'`; the image's categories are as before. */
  lemma HighlightShowsMaxCells(st: State, result: LuminanceResult, s: IP.Selection)
    requires Valid(st) && st.current.Some? && TV.Rectangular(result.luminance) && |result.luminance| > 0
    requires |st.images[st.current.value].categories| >= 1 && st.view.pending.None?
    requires !AnswerThrows(st, result)
    ensures CalculateLuminance(st, true, Some(result)).1 == Resolved
    ensures s in TV.GetSelectedCells(CalculateLuminance(st, true, Some(result)).0.view.rows,
                                     |st.images[st.current.value].categories|, true)
            <==> s.categoryId == IP.DefaultId && IP.Cell(s.row, s.col) in TV.FindMaxValueCells(Rerendered(st, result)).value
  {
    var cur := st.current.value;
    var cats := st.images[cur].categories;
    var v1 := Rerendered(st, result);
    FreshTable(st.view, TV.Data(result.luminance, result.rowBounds, result.colBounds), cats);
    var (mid, _) := Recompute(st, true, Some(result));
    assert mid.view == v1 && mid.images[cur].categories == cats;
    var cells := TV.FindMaxValueCells(v1).value;
    var sel := MaxEntries(cells);
    assert CalculateLuminance(st, true, Some(result)).0.view == TV.Restore(v1, sel, Some(cats));
    TV.RestoreThenRead(v1, sel, cats, s);
    MaxEntriesList(cells, s);
    if IP.Cell(s.row, s.col) in cells {
      MaxCellInRange(v1, s.row, s.col);
    }
  }

  /** The restorable max entries list a position exactly when it is a max
      cell, and only under `'default'`. */
  lemma MaxEntriesList(cells: seq<IP.Cell>, s: IP.Selection)
    ensures Lists(MaxEntries(cells), s) <==> s.categoryId == IP.DefaultId && IP.Cell(s.row, s.col) in cells
  {
    var sel := MaxEntries(cells);
    if IP.Cell(s.row, s.col) in cells && s.categoryId == IP.DefaultId {
      var k :| 0 <= k < |cells| && cells[k] == IP.Cell(s.row, s.col);
      assert sel[k].row == s.row && sel[k].col == s.col && IP.OrDefault(sel[k].categoryId) == s.categoryId;
    }
    if Lists(sel, s) {
      var k :| && 0 <= k < |sel| && sel[k].row == s.row && sel[k].col == s.col
               && IP.OrDefault(sel[k].categoryId) == s.categoryId;
      assert cells[k] == IP.Cell(s.row, s.col);
    }
  }

  /** A reported max cell lies inside the data area of the table. */
  lemma MaxCellInRange(v: TV.View, row: int, col: int)
    requires TV.FindMaxValueCells(v).Some? && IP.Cell(row, col) in TV.FindMaxValueCells(v).value
    ensures 0 <= row < |v.rows| - 1 && 0 <= col < TV.DataCols(v)
  {
    TV.FindMaxValueCellsIsMax(v, row, col + 1);
  }

  // ---------------------------------------------------------------------------
  // The request and its answer as two steps (app.js:205-237)

  /** A luminance request in flight: the image `calculateLuminance` captured
      when it sent the request, and whether it highlights. */
  datatype Pending = Pending(image: nat, highlight: bool)

  /** The synchronous half of `calculateLuminance`: without a current image
      nothing is sent; otherwise, unless highlighting, the table's selections
      are saved into the current image, and the request remembers that image. */
  function Send(st: State, highlight: bool): (r: (State, Option<Pending>))
    requires Valid(st)
    ensures Valid(r.0) && r.0.current == st.current && r.0.view == st.view && |r.0.images| == |st.images|
    ensures r.1.Some? <==> st.current.Some?
    ensures r.1.Some? ==> r.1.value == Pending(st.current.value, highlight) && r.1.value.image < |r.0.images|
    ensures highlight ==> r.0 == st
    ensures forall k :: 0 <= k < |st.images| && Some(k) != st.current ==> r.0.images[k] == st.images[k]
  {
    if st.current.None? then (st, None)
    else (if highlight then st else SaveTableSelections(st), Some(Pending(st.current.value, highlight)))
  }

  /** The `.then` half as written, applied to the state at the time the answer
      arrives: the luminance is stored in the captured image, while the table
      is rebuilt for the categories of whatever image the canvas shows then,
      and the captured image's selections are restored into it; a render that
      raises, or a highlight with its getter-only assignment, throws. A failed
      request changes nothing. */
  function Answer(st: State, p: Pending, result: Option<LuminanceResult>): (r: (State, Settled))
    requires Valid(st) && p.image < |st.images|
    requires result.Some? ==> TV.Rectangular(result.value.luminance)
    ensures Valid(r.0) && r.0.current == st.current && |r.0.images| == |st.images|
    ensures result.None? ==> r == (st, RequestFailed)
    ensures result.Some? ==> r.0.images == st.images[p.image := st.images[p.image].(luminance := Some(result.value.luminance))]
    ensures result.Some? ==> r.0.view.data == Some(TV.Data(result.value.luminance, result.value.rowBounds, result.value.colBounds))
    ensures result.Some? && st.current.Some? ==>
              (r.1 == Threw <==> p.highlight || TV.RenderThrows(Some(TV.Data(result.value.luminance, result.value.rowBounds, result.value.colBounds)),
                                                                |st.images[st.current.value].categories|))
    ensures result.Some? ==> r.1 != RequestFailed
  {
    if result.None? then (st, RequestFailed)
    else
      var res := result.value;
      var images := st.images[p.image := st.images[p.image].(luminance := Some(res.luminance))];
      var cats := if st.current.Some? then Some(images[st.current.value].categories) else None;
      var data := TV.Data(res.luminance, res.rowBounds, res.colBounds);
      var v := TV.Render(st.view, Some(data), cats);
      var st1 := st.(images := images, view := v);
      if p.highlight || TV.RenderThrows(Some(data), if cats.Some? then |cats.value| else 0) then (st1, Threw)
      else (st1.(view := TV.Restore(v, IP.GetSelectedCells(images[p.image].categories), cats)), Resolved)
  }

  /** With nothing happening between the request and its answer, the two
      halves are the handler as written. */
  lemma SendThenAnswer(st: State, highlight: bool, result: Option<LuminanceResult>)
    requires Valid(st) && st.current.Some?
    requires result.Some? ==> TV.Rectangular(result.value.luminance)
    ensures var (s1, p) := Send(st, highlight);
            Answer(s1, p.value, result) == CalculateLuminanceAsWritten(st, highlight, result)
  {
    var (s1, p) := Send(st, highlight);
    var cur := st.current.value;
    var (s2, settled) := Recompute(st, highlight, result);
    if result.Some? {
      var res := result.value;
      var img := s1.images[cur].(luminance := Some(res.luminance));
      var data := TV.Data(res.luminance, res.rowBounds, res.colBounds);
      assert s2 == s1.(images := s1.images[cur := img], view := TV.Render(s1.view, Some(data), Some(img.categories)));
      assert s2.images[cur] == img;
    }
  }

  /** A switch to another image while the request is pending: the answer's
      luminance goes to the image the request was sent for, the image now
      shown keeps its own luminance although the table shows the answer's
      matrix. */
  lemma AnswerAfterSwitch(st: State, index: nat, size: Option<Size>, result: LuminanceResult)
    requires Valid(st) && st.current.Some? && index < |st.images| && index != st.current.value
    requires LuminanceOk(st.images[index].luminance) && TV.Rectangular(result.luminance)
    ensures var (s1, p) := Send(st, false);
            var s2 := SelectImage(s1, index, size).0;
            var s3 := Answer(s2, p.value, Some(result)).0;
            && s3.current == Some(index)
            && s3.images[st.current.value].luminance == Some(result.luminance)
            && s3.images[index] == s2.images[index]
            && s3.view.data == Some(TV.Data(result.luminance, result.rowBounds, result.colBounds))
  {
    var (s1, p) := Send(st, false);
    assert s1.images[index] == st.images[index];
  }

  /** Two requests for one image whose answers arrive out of order: the
      older answer, arriving last, overwrites the newer luminance. */
  lemma LateAnswerWins(st: State, newer: Pending, older: Pending, rNewer: LuminanceResult, rOlder: LuminanceResult)
    requires Valid(st) && newer.image == older.image < |st.images|
    requires TV.Rectangular(rNewer.luminance) && TV.Rectangular(rOlder.luminance)
    ensures Answer(Answer(st, newer, Some(rNewer)).0, older, Some(rOlder)).0.images[older.image].luminance
            == Some(rOlder.luminance)
  {
  }
}

=== FILE: boundaries.dfy ===
/** The server's normalisation of grid lines before it averages luminance
    (`remove_similar_values` and the boundary part of
    `compute_luminance_relative_to_lines`, written identically in `wsgi.py`
    and `consumer.py`). Lines arrive as JSON numbers (reals here) and leave as
    strictly increasing integer boundaries from 0 to the image dimension. The
    averaging itself lives in a module that is not part of this model. */
module Boundaries {
  import opened Sorting

  // ---------------------------------------------------------------------------
  // remove_similar_values (wsgi.py:54-58, consumer.py:86-90)

  /** Position `k` survives: it is the first element or differs from the one
      before it in the input. */
  predicate Kept(s: seq<int>, k: nat)
    requires k < |s|
  {
    k == 0 || s[k] != s[k - 1]
  }

  /** Reference definition, read front to back: the surviving elements of
      positions `i..` in their original order. */
  function Survivors(s: seq<int>, i: nat): (r: seq<int>)
    requires i <= |s|
    ensures |r| <= |s| - i
    decreases |s| - i
  {
    if i == |s| then [] else (if Kept(s, i) then [s[i]] else []) + Survivors(s, i + 1)
  }

  /** `remove_similar_values`: walks from the last index down to 1 and pops
      every element equal to its left neighbour. The neighbour is never popped
      before it is compared, so the result is the reference filter. Python
      mutates the list in place and returns it; here the returned value is
      that list's final contents. */
  method RemoveSimilarValues(lines: seq<int>) returns (r: seq<int>)
    ensures r == Survivors(lines, 0)
  {
    r := lines;
    var i := |lines| - 1;
    while i > 0
      invariant -1 <= i < |lines|
      invariant |lines| > 0 ==> 0 <= i
      invariant r == lines[..i + 1] + Survivors(lines, i + 1)
    {
      assert r[i] == lines[i] && r[i - 1] == lines[i - 1];
      if r[i] == r[i - 1] {
        assert lines[..i + 1] == lines[..i] + [lines[i]];
        r := r[..i] + r[i + 1..];
      } else {
        assert lines[..i + 1] == lines[..i] + [lines[i]];
      }
      i := i - 1;
    }
    if |lines| > 0 {
      assert lines[..1] == [lines[0]];
    }
  }

  /** No two neighbours of the result are equal. */
  predicate NoAdjacentEqual(s: seq<int>) {
    forall k :: 0 < k < |s| ==> s[k] != s[k - 1]
  }

  /** The first survivor after position `i - 1` differs from `s[i - 1]`: either
      it is `s[i]`, kept because it differs, or `s[i]` equals `s[i - 1]` and was
      skipped. */
  lemma {:induction false} SurvivorsHeadDiffers(s: seq<int>, i: nat)
    requires 0 < i <= |s|
    ensures |Survivors(s, i)| > 0 ==> Survivors(s, i)[0] != s[i - 1]
    decreases |s| - i
  {
    if i < |s| && !Kept(s, i) {
      SurvivorsHeadDiffers(s, i + 1);
    }
  }

  /** Every survivor comes from positions `i..`. */
  lemma {:induction false} SurvivorsFrom(s: seq<int>, i: nat, x: int)
    requires i <= |s|
    ensures x in Survivors(s, i) ==> x in s[i..]
    decreases |s| - i
  {
    if i < |s| {
      SurvivorsFrom(s, i + 1, x);
      assert s[i + 1..] == s[i..][1..];
    }
  }

  /** A kept position at or after `i` is among the survivors of `i..`. */
  lemma {:induction false} KeptSurvives(s: seq<int>, i: nat, k: nat)
    requires i <= k < |s| && Kept(s, k)
    ensures s[k] in Survivors(s, i)
    decreases k - i
  {
    if i < k {
      KeptSurvives(s, i + 1, k);
    }
  }

  /** Every value of the input survives through the first position of its run. */
  lemma {:induction false} RunStartSurvives(s: seq<int>, k: nat)
    requires k < |s|
    ensures s[k] in Survivors(s, 0)
  {
    if Kept(s, k) {
      KeptSurvives(s, 0, k);
    } else {
      RunStartSurvives(s, k - 1);
    }
  }

  /** The result holds exactly the input's values. */
  lemma RemoveSimilarSameValues(s: seq<int>, x: int)
    ensures x in Survivors(s, 0) <==> x in s
  {
    SurvivorsFrom(s, 0, x);
    assert s[0..] == s;
    if x in s {
      var k :| 0 <= k < |s| && s[k] == x;
      RunStartSurvives(s, k);
    }
  }

  /** The result never has two equal neighbours. */
  lemma {:induction false} SurvivorsNoAdjacentEqual(s: seq<int>, i: nat)
    requires i <= |s|
    ensures NoAdjacentEqual(Survivors(s, i))
    decreases |s| - i
  {
    if i < |s| {
      SurvivorsNoAdjacentEqual(s, i + 1);
      if Kept(s, i) {
        SurvivorsHeadDiffers(s, i + 1);
        var r := Survivors(s, i);
        assert r == [s[i]] + Survivors(s, i + 1);
        forall k | 0 < k < |r| ensures r[k] != r[k - 1] {
          if k > 1 {
            assert r[k] == Survivors(s, i + 1)[k - 1] && r[k - 1] == Survivors(s, i + 1)[k - 2];
          }
        }
      }
    }
  }

  /** The survivors of a sorted input are sorted. */
  lemma {:induction false} SurvivorsSorted(s: seq<int>, i: nat)
    requires SortedInts(s) && i <= |s|
    ensures SortedInts(Survivors(s, i))
    decreases |s| - i
  {
    if i < |s| {
      SurvivorsSorted(s, i + 1);
      if Kept(s, i) {
        var rest := Survivors(s, i + 1);
        var r := Survivors(s, i);
        assert r == [s[i]] + rest;
        forall k | 0 <= k < |rest| ensures s[i] <= rest[k] {
          SurvivorsFrom(s, i + 1, rest[k]);
        }
        forall a, b | 0 <= a < b < |r| ensures r[a] <= r[b] {
          assert r[b] == rest[b - 1];
          if a > 0 {
            assert r[a] == rest[a - 1];
          }
        }
      }
    }
  }

  /** On sorted input the result is strictly increasing. */
  lemma RemoveSimilarStrict(s: seq<int>)
    requires SortedInts(s)
    ensures StrictlyIncreasing(Survivors(s, 0))
  {
    var r := Survivors(s, 0);
    SurvivorsSorted(s, 0);
    SurvivorsNoAdjacentEqual(s, 0);
    forall a, b | 0 <= a < b < |r| ensures r[a] < r[b] {
      assert r[a] <= r[b - 1] && r[b - 1] != r[b];
    }
  }

  /** Input that is already strictly increasing comes back unchanged. */
  lemma {:induction false} RemoveSimilarKeepsStrict(s: seq<int>, i: nat)
    requires StrictlyIncreasing(s) && i <= |s|
    ensures Survivors(s, i) == s[i..]
    decreases |s| - i
  {
    if i < |s| {
      RemoveSimilarKeepsStrict(s, i + 1);
      assert Kept(s, i) by {
        if i > 0 {
          assert s[i - 1] < s[i];
        }
      }
      assert s[i..] == [s[i]] + s[i + 1..];
    }
  }

  // ---------------------------------------------------------------------------
  // Boundary normalisation (wsgi.py:61-78, consumer.py:93-110)

  /** Python's `int()` on a float: truncation toward zero. */
  function Trunc(x: real): (n: int)
    ensures x >= 0.0 ==> n as real <= x < n as real + 1.0
    ensures x < 0.0 ==> n as real - 1.0 < x <= n as real
  {
    if x >= 0.0 then x.Floor else -((-x).Floor)
  }

  /** `filter(lambda x: x >= 0 and x <= dim, …)`, keeping order. */
  function WithinDim(m: seq<real>, dim: nat): (r: seq<real>)
    ensures forall x :: x in r <==> x in m && 0.0 <= x <= dim as real
  {
    if |m| == 0 then []
    else (if 0.0 <= m[0] <= dim as real then [m[0]] else []) + WithinDim(m[1..], dim)
  }

  /** `list(map(int, …))`. */
  function Truncs(m: seq<real>): (r: seq<int>)
    ensures |r| == |m|
    ensures forall k :: 0 <= k < |m| ==> r[k] == Trunc(m[k])
  {
    seq(|m|, k requires 0 <= k < |m| => Trunc(m[k]))
  }

  /** A value comes out of the boundary pipeline: 0, the dimension, or the
      truncation of a given line within `[0, dim]`. */
  predicate FromLines(lines: seq<real>, dim: nat, x: int) {
    x == 0 || x == dim || exists y :: y in lines && 0.0 <= y <= dim as real && Trunc(y) == x
  }

  /** The boundaries of one axis: the padded list filtered to `[0, dim]`,
      truncated, sorted and de-duplicated. They run strictly upwards from 0
      to `dim` and hold exactly the pipeline's values. */
  function Normalized(lines: seq<real>, dim: nat): (r: seq<int>)
    ensures StrictlyIncreasing(r)
    ensures |r| > 0 && r[0] == 0 && r[|r| - 1] == dim
    ensures forall k :: 0 <= k < |r| ==> 0 <= r[k] <= dim
    ensures forall x :: x in r <==> FromLines(lines, dim, x)
  {
    var r := Survivors(SortInts(Truncs(WithinDim([0.0] + lines + [dim as real], dim))), 0);
    NormalizedFacts(lines, dim, r);
    r
  }

  lemma NormalizedFacts(lines: seq<real>, dim: nat, r: seq<int>)
    requires r == Survivors(SortInts(Truncs(WithinDim([0.0] + lines + [dim as real], dim))), 0)
    ensures StrictlyIncreasing(r)
    ensures |r| > 0 && r[0] == 0 && r[|r| - 1] == dim
    ensures forall k :: 0 <= k < |r| ==> 0 <= r[k] <= dim
    ensures forall x :: x in r <==> FromLines(lines, dim, x)
  {
    var kept := WithinDim([0.0] + lines + [dim as real], dim);
    var ints := Truncs(kept);
    var sorted := SortInts(ints);
    RemoveSimilarStrict(sorted);
    forall x ensures x in r <==> FromLines(lines, dim, x) {
      RemoveSimilarSameValues(sorted, x);
      assert x in sorted <==> x in multiset(ints);
      TruncsMembers(kept, x);
      PaddedMembers(lines, dim, x);
    }
    assert 0 in r && dim in r by {
      assert FromLines(lines, dim, 0) && FromLines(lines, dim, dim);
    }
    forall k | 0 <= k < |r| ensures 0 <= r[k] <= dim {
      BoundedValue(lines, dim, r[k]);
    }
    EndsOfStrict(r, dim);
  }

  /** One axis as the server computes it: the boundaries, and the caller's
      list after the in-place `insert(0, 0)` and `append(dim)`. */
  method NormalizeAxis(lines: seq<real>, dim: nat) returns (r: seq<int>, mutated: seq<real>)
    ensures mutated == [0.0] + lines + [dim as real]
    ensures r == Normalized(lines, dim)
  {
    mutated := [0.0] + lines + [dim as real];
    var kept := WithinDim(mutated, dim);
    var ints := Truncs(kept);
    var sorted := SortInts(ints);
    r := RemoveSimilarValues(sorted);
  }

  lemma TruncsMembers(m: seq<real>, x: int)
    ensures x in Truncs(m) <==> exists y :: y in m && Trunc(y) == x
  {
    if x in Truncs(m) {
      var k :| 0 <= k < |m| && Truncs(m)[k] == x;
      assert m[k] in m;
    }
  }

  /** The truncated, filtered, padded list holds exactly the pipeline's values. */
  lemma PaddedMembers(lines: seq<real>, dim: nat, x: int)
    ensures (exists y :: y in WithinDim([0.0] + lines + [dim as real], dim) && Trunc(y) == x)
            <==> FromLines(lines, dim, x)
  {
    var m := [0.0] + lines + [dim as real];
    assert 0.0 in m && dim as real in m;
    assert Trunc(0.0) == 0 && Trunc(dim as real) == dim;
    assert forall y :: y in m <==> y == 0.0 || y in lines || y == dim as real;
  }

  /** Every value of the pipeline lies in `[0, dim]`. */
  lemma BoundedValue(lines: seq<real>, dim: nat, x: int)
    requires FromLines(lines, dim, x)
    ensures 0 <= x <= dim
  {
    if x != 0 && x != dim {
      var y :| y in lines && 0.0 <= y <= dim as real && Trunc(y) == x;
      assert y.Floor <= (dim as real).Floor;
    }
  }

  /** A strictly increasing list within `[0, dim]` that holds 0 and `dim`
      starts at 0 and ends at `dim`. */
  lemma EndsOfStrict(r: seq<int>, dim: nat)
    requires StrictlyIncreasing(r) && 0 in r && dim in r
    requires forall k :: 0 <= k < |r| ==> 0 <= r[k] <= dim
    ensures |r| > 0 && r[0] == 0 && r[|r| - 1] == dim
  {
    var a :| 0 <= a < |r| && r[a] == 0;
    var b :| 0 <= b < |r| && r[b] == dim;
    assert r[0] <= r[a] && r[b] <= r[|r| - 1];
  }

  /** The grid handed to the averaging code and returned to the client: row
      boundaries (horizontal lines, against the image height) first, then
      column boundaries (vertical lines, against the width). */
  datatype Grid = Grid(rows: seq<int>, cols: seq<int>)

  /** The boundary part of `compute_luminance_relative_to_lines`, with the
      caller's two lists as they are left by the in-place padding. */
  method ComputeGrid(horizontal: seq<real>, vertical: seq<real>, height: nat, width: nat)
    returns (grid: Grid, horizontalAfter: seq<real>, verticalAfter: seq<real>)
    ensures horizontalAfter == [0.0] + horizontal + [height as real]
    ensures verticalAfter == [0.0] + vertical + [width as real]
    ensures grid.rows == Normalized(horizontal, height) && grid.cols == Normalized(vertical, width)
  {
    var rows, cols;
    rows, horizontalAfter := NormalizeAxis(horizontal, height);
    cols, verticalAfter := NormalizeAxis(vertical, width);
    grid := Grid(rows, cols);
  }

  /** Lines that are already integers strictly inside `(0, dim)` and strictly
      increasing only get 0 and `dim` added around them. */
  lemma CleanLinesOnlyPadded(lines: seq<int>, dim: nat)
    requires StrictlyIncreasing(lines)
    requires dim > 0 && forall k :: 0 <= k < |lines| ==> 0 < lines[k] < dim
    ensures Normalized(AsReals(lines), dim) == [0] + lines + [dim]
  {
    var r := Normalized(AsReals(lines), dim);
    var p := [0] + lines + [dim];
    forall i, j | 0 <= i < j < |p| ensures p[i] < p[j] {
      if 0 < i {
        assert p[i] == lines[i - 1];
      }
      if j < |p| - 1 {
        assert p[j] == lines[j - 1];
      }
    }
    forall x ensures x in r <==> x in p {
      if x in r && x != 0 && x != dim {
        var y :| y in AsReals(lines) && 0.0 <= y <= dim as real && Trunc(y) == x;
        var k :| 0 <= k < |lines| && AsReals(lines)[k] == y;
        assert x == lines[k];
      }
      if x in lines {
        var k :| 0 <= k < |lines| && lines[k] == x;
        assert AsReals(lines)[k] in AsReals(lines);
      }
    }
    StrictSameMembers(r, p);
  }

  function AsReals(s: seq<int>): (r: seq<real>)
    ensures |r| == |s| && forall k :: 0 <= k < |s| ==> r[k] == s[k] as real
  {
    seq(|s|, k requires 0 <= k < |s| => s[k] as real)
  }

  /** Two strictly increasing lists with the same values are equal. */
  lemma {:induction false} StrictSameMembers(a: seq<int>, b: seq<int>)
    requires StrictlyIncreasing(a) && StrictlyIncreasing(b)
    requires forall x :: x in a <==> x in b
    ensures a == b
    decreases |a| + |b|
  {
    assert |a| > 0 ==> a[0] in a;
    assert |b| > 0 ==> b[0] in b;
    if |a| > 0 && |b| > 0 {
      assert a[0] in a && b[0] in b;
      assert a[0] == b[0] by {
        var i :| 0 <= i < |b| && b[i] == a[0];
        var j :| 0 <= j < |a| && a[j] == b[0];
        assert b[0] <= b[i] && a[0] <= a[j];
      }
      forall x ensures x in a[1..] <==> x in b[1..] {
        assert a == [a[0]] + a[1..] && b == [b[0]] + b[1..];
        if x in a[1..] {
          var k :| 0 <= k < |a[1..]| && a[1..][k] == x;
          assert a[0] < a[k + 1] && x in a;
        }
        if x in b[1..] {
          var k :| 0 <= k < |b[1..]| && b[1..][k] == x;
          assert b[0] < b[k + 1] && x in b;
        }
      }
      StrictSameMembers(a[1..], b[1..]);
      assert a == [a[0]] + a[1..] && b == [b[0]] + b[1..];
    }
  }
}

=== FILE: canvas_view.dfy ===
/** The grid-line editing of `canvas-view.js`: the toolbar's add and remove
    actions, the drag state machine driven by mouse events, and the wheel zoom.
    Positions are in image coordinates; a mouse offset becomes one by dividing
    by the scale factor. Drawing is not modelled. */
module CanvasView {
  import opened Common

  /** The grid lines of the current image: x positions of the vertical lines
      and y positions of the horizontal ones. */
  datatype Lines = Lines(vertical: seq<real>, horizontal: seq<real>)

  datatype Axis = Vertical | Horizontal

  /** The cached image's extent along the axis a line of that kind crosses:
      its width for vertical lines, its height for horizontal ones. */
  function Extent(s: Size, a: Axis): real {
    if a == Vertical then s.width as real else s.height as real
  }

  /** Assigning a non-negative number to `canvas.width` or `canvas.height`
      (attributes of type `unsigned long`) keeps its whole part. */
  function CanvasDim(x: real): (n: real)
    requires x >= 0.0
    ensures 0.0 <= n <= x < n + 1.0 && n == n.Floor as real
  {
    x.Floor as real
  }

  /** `isDraggingLine`, `dragLineType` (None for the initial empty type) and
      `dragLineIndex`. */
  datatype Drag = Drag(active: bool, axis: Option<Axis>, index: int)

  /** The view: the current image's lines, the cached image, `scaleFactor`,
      the canvas size and the drag state. */
  datatype Canvas = Canvas(image: Option<Lines>, cached: Option<Size>, scale: real,
                           width: real, height: real, drag: Drag)

  /** The pick radius of a line, in image pixels. */
  const PickRadius: real := 5.0

  /** The wheel's zoom factors. */
  const ZoomOut: real := 0.9
  const ZoomIn: real := 1.1

  /** The state right after construction: no image, scale 1, no drag. */
  function Initial(width: real, height: real): (c: Canvas)
    ensures Valid(c) && c.image.None? && !c.drag.active && c.drag.index == -1
  {
    Canvas(None, None, 1.0, width, height, Drag(false, None, -1))
  }

  /** The scale factor starts at 1 and is only ever multiplied by a positive
      factor, so it stays positive. */
  predicate Valid(c: Canvas) {
    c.scale > 0.0
  }

  function Abs(x: real): real {
    if x < 0.0 then -x else x
  }

  /** `lines.findIndex(l => Math.abs(l - p) < 5)`. */
  function NearIndex(lines: seq<real>, p: real): (i: int)
    ensures i == -1 <==> forall k :: 0 <= k < |lines| ==> Abs(lines[k] - p) >= PickRadius
    ensures i != -1 ==> 0 <= i < |lines| && Abs(lines[i] - p) < PickRadius
    ensures i != -1 ==> forall k :: 0 <= k < i ==> Abs(lines[k] - p) >= PickRadius
  {
    if |lines| == 0 then -1
    else if Abs(lines[0] - p) < PickRadius then 0
    else
      var k := NearIndex(lines[1..], p);
      assert forall m :: 1 <= m < |lines| ==> lines[1..][m - 1] == lines[m];
      if k == -1 then -1 else k + 1
  }

  function Get(l: Lines, a: Axis): seq<real> {
    if a == Vertical then l.vertical else l.horizontal
  }

  function Put(l: Lines, a: Axis, s: seq<real>): (r: Lines)
    ensures Get(r, a) == s
    ensures forall b :: b != a ==> Get(r, b) == Get(l, b)
  {
    if a == Vertical then l.(vertical := s) else l.(horizontal := s)
  }

  // ---------------------------------------------------------------------------
  // Toolbar actions (canvas-view.js:137-163)

  /** Where a new line goes: the middle of the canvas, in image coordinates. */
  function NewLinePosition(c: Canvas, a: Axis): real
    requires Valid(c)
  {
    (if a == Vertical then c.width else c.height) / (2.0 * c.scale)
  }

  /** `addVerticalLine` / `addHorizontalLine`: append the canvas midpoint to
      the end of the list, unsorted; nothing without an image. */
  function AddLine(c: Canvas, a: Axis): (r: Canvas)
    requires Valid(c)
    ensures Valid(r) && r.scale == c.scale && r.drag == c.drag && r.cached == c.cached
    ensures c.image.None? ==> r == c
    ensures c.image.Some? ==> r.image.Some?
                              && Get(r.image.value, a) == Get(c.image.value, a) + [NewLinePosition(c, a)]
                              && forall b :: b != a ==> Get(r.image.value, b) == Get(c.image.value, b)
  {
    if c.image.None? then c
    else
      var l := c.image.value;
      c.(image := Some(Put(l, a, Get(l, a) + [NewLinePosition(c, a)])))
  }

  /** `removeVerticalLine` / `removeHorizontalLine`: drop the last line of the
      list; nothing without an image or when the list is empty. */
  function RemoveLine(c: Canvas, a: Axis): (r: Canvas)
    ensures r.scale == c.scale && r.drag == c.drag && r.cached == c.cached
    ensures c.image.None? || Get(c.image.value, a) == [] ==> r == c
    ensures c.image.Some? && Get(c.image.value, a) != [] ==>
              && r.image.Some?
              && (var s := Get(c.image.value, a); Get(r.image.value, a) == s[..|s| - 1])
              && forall b :: b != a ==> Get(r.image.value, b) == Get(c.image.value, b)
  {
    if c.image.None? then c
    else
      var l := c.image.value;
      var s := Get(l, a);
      if |s| == 0 then c else c.(image := Some(Put(l, a, s[..|s| - 1])))
  }

  /** Removing a line right after adding one gives the lines back. */
  lemma AddThenRemove(c: Canvas, a: Axis)
    requires Valid(c)
    ensures RemoveLine(AddLine(c, a), a) == c
  {
    if c.image.Some? {
      var l := c.image.value;
      var s := Get(l, a);
      var added := AddLine(c, a).image.value;
      assert (s + [NewLinePosition(c, a)])[..|s|] == s;
      assert Put(added, a, s) == l by {
        assert Get(Put(added, a, s), Vertical) == l.vertical;
        assert Get(Put(added, a, s), Horizontal) == l.horizontal;
      }
    }
  }

  /** Once the canvas size follows the cached image (as after a zoom), a new
      line lands at the middle of the image, short of it by less than half an
      image pixel per screen pixel the canvas size lost to truncation. */
  lemma NewLineAtImageMiddle(c: Canvas, a: Axis)
    requires Valid(c) && c.cached.Some?
    requires c.width <= Extent(c.cached.value, Vertical) * c.scale < c.width + 1.0
    requires c.height <= Extent(c.cached.value, Horizontal) * c.scale < c.height + 1.0
    ensures var size := Extent(c.cached.value, a);
            size / 2.0 - 1.0 / (2.0 * c.scale) < NewLinePosition(c, a) <= size / 2.0
  {
    var size := Extent(c.cached.value, a);
    var n := if a == Vertical then c.width else c.height;
    assert NewLinePosition(c, a) == n / (2.0 * c.scale);
    HalfOfTruncated(n, size, c.scale);
  }

  /** A whole-pixel size `n` of `size * scale`, halved and taken back to image
      units, falls short of `size / 2` by less than `1 / (2 * scale)`. */
  lemma HalfOfTruncated(n: real, size: real, scale: real)
    requires scale > 0.0 && n <= size * scale < n + 1.0
    ensures size / 2.0 - 1.0 / (2.0 * scale) < n / (2.0 * scale) <= size / 2.0
  {
    var k := 2.0 * scale;
    assert size / 2.0 == (size * scale) / k;
    assert size / 2.0 - 1.0 / k == (size * scale - 1.0) / k;
    DivMonotone(n, size * scale, k);
    DivStrict(size * scale - 1.0, n, k);
  }

  lemma DivMonotone(x: real, y: real, k: real)
    requires k > 0.0 && x <= y
    ensures x / k <= y / k
  {
  }

  lemma DivStrict(x: real, y: real, k: real)
    requires k > 0.0 && x < y
    ensures x / k < y / k
  {
  }

  // ---------------------------------------------------------------------------
  // Dragging (canvas-view.js:26-71)

  /** `handleMouseDown`: convert the offset to image coordinates, then start
      dragging the first vertical line within 5 px of x, or failing that the
      first horizontal line within 5 px of y; otherwise nothing changes. */
  function MouseDown(c: Canvas, offsetX: real, offsetY: real): (r: Canvas)
    requires Valid(c)
    ensures r.image == c.image && r.scale == c.scale && r.cached == c.cached
    ensures r.width == c.width && r.height == c.height
    ensures r.drag != c.drag ==> r.drag.active && r.drag.axis.Some? && DragInRange(r)
    ensures c.image.None? ==> r == c
  {
    if c.image.None? then c
    else
      var x, y := offsetX / c.scale, offsetY / c.scale;
      var vi := NearIndex(c.image.value.vertical, x);
      if vi != -1 then c.(drag := Drag(true, Some(Vertical), vi))
      else
        var hi := NearIndex(c.image.value.horizontal, y);
        if hi != -1 then c.(drag := Drag(true, Some(Horizontal), hi))
        else c
  }

  /** The drag, if any, points into the list it drags. */
  predicate DragInRange(c: Canvas) {
    c.drag.active && c.drag.axis.Some? && c.image.Some? ==> 0 <= c.drag.index < |Get(c.image.value, c.drag.axis.value)|
  }

  /** What a mouse-down picks: a vertical line near x has priority; a
      horizontal line is picked only when no vertical line is near; the picked
      line is the first near one of its list. */
  lemma MouseDownPicks(c: Canvas, offsetX: real, offsetY: real)
    requires Valid(c) && c.image.Some?
    ensures var r := MouseDown(c, offsetX, offsetY);
            var x, y := offsetX / c.scale, offsetY / c.scale;
            var l := c.image.value;
            && (DragInRange(c) ==> DragInRange(r))
            && ((exists k :: 0 <= k < |l.vertical| && Abs(l.vertical[k] - x) < PickRadius) ==>
                  && r.drag.active && r.drag.axis == Some(Vertical)
                  && Abs(l.vertical[r.drag.index] - x) < PickRadius
                  && forall k :: 0 <= k < r.drag.index ==> Abs(l.vertical[k] - x) >= PickRadius)
            && ((forall k :: 0 <= k < |l.vertical| ==> Abs(l.vertical[k] - x) >= PickRadius)
                && (exists k :: 0 <= k < |l.horizontal| && Abs(l.horizontal[k] - y) < PickRadius) ==>
                  && r.drag.active && r.drag.axis == Some(Horizontal)
                  && Abs(l.horizontal[r.drag.index] - y) < PickRadius
                  && forall k :: 0 <= k < r.drag.index ==> Abs(l.horizontal[k] - y) >= PickRadius)
            && ((forall k :: 0 <= k < |l.vertical| ==> Abs(l.vertical[k] - x) >= PickRadius)
                && (forall k :: 0 <= k < |l.horizontal| ==> Abs(l.horizontal[k] - y) >= PickRadius) ==>
                  r == c)
  {
  }

  /** JavaScript's `lines[i] = v` on a list: an in-range index overwrites one
      entry and the index just past the end appends. */
  function Assign(s: seq<real>, i: int, v: real): (r: seq<real>)
    ensures 0 <= i < |s| ==> |r| == |s| && r[i] == v && forall k :: 0 <= k < |s| && k != i ==> r[k] == s[k]
    ensures i == |s| ==> r == s + [v]
    ensures i < 0 || i > |s| ==> r == s
  {
    if 0 <= i < |s| then s[i := v]
    else if i == |s| then s + [v]
    else s
  }

  /** `handleMouseMove`: while dragging, the dragged entry takes the pointer's
      image coordinate; nothing else changes and nothing is re-sorted. */
  function MouseMove(c: Canvas, offsetX: real, offsetY: real): (r: Canvas)
    requires Valid(c)
    ensures r.scale == c.scale && r.drag == c.drag && r.cached == c.cached
    ensures r.width == c.width && r.height == c.height
    ensures !c.drag.active || c.image.None? || c.drag.axis.None? ==> r == c
    ensures c.image.Some? ==> r.image.Some?
    ensures DragInRange(c) ==> DragInRange(r)
  {
    if !c.drag.active || c.image.None? || c.drag.axis.None? then c
    else
      var a := c.drag.axis.value;
      var l := c.image.value;
      var p := (if a == Vertical then offsetX else offsetY) / c.scale;
      c.(image := Some(Put(l, a, Assign(Get(l, a), c.drag.index, p))))
  }

  /** A move during an in-range drag overwrites exactly the dragged entry:
      the list keeps its length and every other entry of both lists. */
  lemma MouseMoveOverwritesDragged(c: Canvas, offsetX: real, offsetY: real)
    requires Valid(c) && DragInRange(c) && c.drag.active && c.drag.axis.Some? && c.image.Some?
    ensures var r := MouseMove(c, offsetX, offsetY);
            var a := c.drag.axis.value;
            var s, t := Get(c.image.value, a), Get(r.image.value, a);
            && r.image.Some? && DragInRange(r)
            && |t| == |s|
            && t[c.drag.index] == (if a == Vertical then offsetX else offsetY) / c.scale
            && (forall k :: 0 <= k < |s| && k != c.drag.index ==> t[k] == s[k])
            && (forall b :: b != a ==> Get(r.image.value, b) == Get(c.image.value, b))
  {
  }

  /** `handleMouseUp`: dragging always ends. */
  function MouseUp(c: Canvas): (r: Canvas)
    ensures !r.drag.active
    ensures r.image == c.image && r.scale == c.scale && r.drag.axis == c.drag.axis && r.drag.index == c.drag.index
  {
    c.(drag := c.drag.(active := false))
  }

  /** After a mouse-up, moving the mouse edits no line. */
  lemma MoveAfterUpChangesNothing(c: Canvas, offsetX: real, offsetY: real)
    requires Valid(c)
    ensures MouseMove(MouseUp(c), offsetX, offsetY) == MouseUp(c)
  {
  }

  /** A press on a line followed by a move drags that line to the pointer. */
  lemma PressThenMove(c: Canvas, x0: real, y0: real, x1: real, y1: real)
    requires Valid(c) && c.image.Some?
    requires NearIndex(c.image.value.vertical, x0 / c.scale) != -1
    ensures var k := NearIndex(c.image.value.vertical, x0 / c.scale);
            var r := MouseMove(MouseDown(c, x0, y0), x1, y1);
            && r.image.Some?
            && r.image.value.vertical == c.image.value.vertical[k := x1 / c.scale]
            && r.image.value.horizontal == c.image.value.horizontal
  {
  }

  // ---------------------------------------------------------------------------
  // Zoom (canvas-view.js:73-85)

  /** `handleWheel`: with an image and its cached copy, scroll down zooms out by
      0.9 and any other scroll zooms in by 1.1; the canvas is resized to the
      cached image at the new scale, in whole pixels. The lines are untouched. */
  function Wheel(c: Canvas, deltaY: real): (r: Canvas)
    requires Valid(c)
    ensures Valid(r) && r.image == c.image && r.drag == c.drag && r.cached == c.cached
    ensures c.image.None? || c.cached.None? ==> r == c
    ensures c.image.Some? && c.cached.Some? ==>
              && r.scale == c.scale * (if deltaY > 0.0 then ZoomOut else ZoomIn)
              && r.width == r.width.Floor as real && r.height == r.height.Floor as real
              && r.width <= Extent(c.cached.value, Vertical) * r.scale < r.width + 1.0
              && r.height <= Extent(c.cached.value, Horizontal) * r.scale < r.height + 1.0
  {
    if c.image.None? || c.cached.None? then c
    else
      var s := c.scale * (if deltaY > 0.0 then ZoomOut else ZoomIn);
      ScaledExtents(c.cached.value, s);
      c.(scale := s, width := CanvasDim(Extent(c.cached.value, Vertical) * s),
         height := CanvasDim(Extent(c.cached.value, Horizontal) * s))
  }

  /** An image size at a positive scale is never negative. */
  lemma ScaledExtents(size: Size, k: real)
    requires k > 0.0
    ensures Extent(size, Vertical) * k >= 0.0 && Extent(size, Horizontal) * k >= 0.0
  {
  }

  /** Zoom steps are not inverse to each other: one step out and one step in
      leave 99% of the scale. */
  lemma ZoomOutThenIn(c: Canvas)
    requires Valid(c) && c.image.Some? && c.cached.Some?
    ensures Wheel(Wheel(c, 1.0), -1.0).scale == c.scale * 0.99
  {
  }

  /** After a zoom the canvas follows the cached image, so the toolbar adds
      a line at the middle of the image, up to the truncation of the canvas
      size. */
  lemma AddAfterZoomAtMiddle(c: Canvas, deltaY: real, a: Axis)
    requires Valid(c) && c.image.Some? && c.cached.Some?
    ensures var z := Wheel(c, deltaY);
            var s := Get(AddLine(z, a).image.value, a);
            var size := Extent(c.cached.value, a);
            && |s| == |Get(c.image.value, a)| + 1 && s[..|s| - 1] == Get(c.image.value, a)
            && size / 2.0 - 1.0 / (2.0 * z.scale) < s[|s| - 1] <= size / 2.0
  {
    var z := Wheel(c, deltaY);
    NewLineAtImageMiddle(z, a);
    var s0 := Get(c.image.value, a);
    assert Get(AddLine(z, a).image.value, a) == s0 + [NewLinePosition(z, a)];
  }
}

=== FILE: common.dfy ===
/** Small shared vocabulary: an optional value and the sequence operations
    the browser code performs with `findIndex`, `filter`, `includes` and `splice`. */
module Common {

  datatype Option<+T> = None | Some(value: T)

  /** The natural size of a loaded image element, in whole pixels. */
  datatype Size = Size(width: nat, height: nat)

  /** Every element occurs at most once. */
  predicate NoDup<T(==)>(s: seq<T>) {
    forall i, j :: 0 <= i < j < |s| ==> s[i] != s[j]
  }

  /** Number of occurrences of `x` in `s`. */
  function Count<T(==)>(s: seq<T>, x: T): (n: nat)
    ensures n <= |s|
    ensures n == 0 <==> x !in s
  {
    if |s| == 0 then 0
    else (if s[|s| - 1] == x then 1 else 0) + Count(s[..|s| - 1], x)
  }

  /** `s.findIndex(e => e === x)`: the first position holding `x`, or -1. */
  function IndexOf<T(==)>(s: seq<T>, x: T): (i: int)
    ensures i == -1 <==> x !in s
    ensures i != -1 ==> 0 <= i < |s| && s[i] == x && x !in s[..i]
  {
    if |s| == 0 then -1
    else if s[0] == x then 0
    else
      var k := IndexOf(s[1..], x);
      assert s[1..][..if k == -1 then 0 else k] == s[1..1 + (if k == -1 then 0 else k)];
      if k == -1 then -1 else k + 1
  }

  /** `s.filter(e => e !== x)`: every occurrence of `x` dropped, the rest in order. */
  function RemoveAll<T(==)>(s: seq<T>, x: T): (r: seq<T>)
    ensures x !in r
    ensures forall k :: 0 <= k < |r| ==> r[k] in s
    ensures forall k :: 0 <= k < |s| && s[k] != x ==> s[k] in r
    ensures |r| == |s| - Count(s, x)
    ensures x !in s ==> r == s
  {
    if |s| == 0 then []
    else
      var init, last := s[..|s| - 1], s[|s| - 1];
      assert s == init + [last];
      var rest := RemoveAll(init, x);
      if last == x then rest else rest + [last]
  }

  /** Filtering keeps a duplicate-free sequence duplicate-free. */
  lemma {:induction false} RemoveAllNoDup<T>(s: seq<T>, x: T)
    ensures NoDup(s) ==> NoDup(RemoveAll(s, x))
  {
    if |s| > 0 && NoDup(s) {
      var init, last := s[..|s| - 1], s[|s| - 1];
      assert s == init + [last];
      assert NoDup(init) by {
        forall i, j | 0 <= i < j < |init| ensures init[i] != init[j] {
          assert init[i] == s[i] && init[j] == s[j];
        }
      }
      assert last !in init by {
        forall k | 0 <= k < |init| ensures init[k] != last {
          assert init[k] == s[k];
        }
      }
      RemoveAllNoDup(init, x);
    }
  }

  /** The sequence without its element at position `i`; the others keep their order. */
  function RemoveAt<T>(s: seq<T>, i: nat): (r: seq<T>)
    requires i < |s|
    ensures |r| == |s| - 1
    ensures forall k :: 0 <= k < i ==> r[k] == s[k]
    ensures forall k :: i <= k < |r| ==> r[k] == s[k + 1]
  {
    s[..i] + s[i + 1..]
  }

  /** Removing one element keeps a duplicate-free sequence duplicate-free
      and removes exactly that value from it. */
  lemma RemoveAtNoDup<T>(s: seq<T>, i: nat)
    requires i < |s|
    ensures NoDup(s) ==> NoDup(RemoveAt(s, i)) && s[i] !in RemoveAt(s, i)
    ensures forall k :: 0 <= k < |s| && k != i ==> s[k] in RemoveAt(s, i)
  {
    var r := RemoveAt(s, i);
    if NoDup(s) {
      forall k | 0 <= k < |r| ensures r[k] != s[i] {
        if k < i { assert r[k] == s[k]; } else { assert r[k] == s[k + 1]; }
      }
    }
    forall k | 0 <= k < |s| && k != i ensures s[k] in r {
      if k < i { assert r[k] == s[k]; } else { assert r[k - 1] == s[k]; }
    }
  }

  /** `Array.prototype.splice(start, 1)`: a negative start counts from the end
      (clamped at 0), and a start at or past the end removes nothing. */
  function SpliceOne<T>(s: seq<T>, start: int): (r: seq<T>)
    ensures 0 <= start < |s| ==> r == RemoveAt(s, start)
    ensures start >= |s| ==> r == s
    ensures |r| == if |s| == 0 || start >= |s| then |s| else |s| - 1
  {
    var k := if start < 0 then (if |s| + start < 0 then 0 else |s| + start) else start;
    if k < |s| then RemoveAt(s, k) else s
  }

  /** Slicing facts, stated once so that proofs about richer sequences need
      not rediscover them. */
  lemma PrefixSnoc<T>(s: seq<T>, t: nat)
    requires 0 < t <= |s|
    ensures s[..t - 1] + [s[t - 1]] == s[..t]
  {
  }

  lemma PrefixOfPrefix<T>(s: seq<T>, t: nat, k: nat)
    requires k <= t <= |s|
    ensures s[..t][..k] == s[..k]
  {
  }

  /** In a duplicate-free sequence, an element does not occur before its position. */
  lemma NoDupLastFresh<T>(s: seq<T>, t: nat)
    requires NoDup(s) && 0 < t <= |s|
    ensures s[t - 1] !in s[..t - 1]
  {
  }

  lemma NoDupPrefix<T>(s: seq<T>, t: nat)
    requires NoDup(s) && t <= |s|
    ensures NoDup(s[..t])
  {
    forall i, j | 0 <= i < j < t ensures s[..t][i] != s[..t][j] {
      assert s[..t][i] == s[i] && s[..t][j] == s[j];
    }
  }

  /** Removing the element at `i` removes one copy of it from the multiset. */
  lemma RemoveAtMultiset<T>(s: seq<T>, i: nat)
    requires i < |s|
    ensures multiset(RemoveAt(s, i)) == multiset(s) - multiset{s[i]}
  {
    assert s == s[..i] + [s[i]] + s[i + 1..];
  }
}

=== FILE: context_menu.dfy ===
/** The context menus of `context-menu-manager.js`: where a menu is placed,
    which items the line menu and the cell menu offer, what each item does to
    the grid lines and the luminance recomputation a line item starts, and
    how the menu is dismissed. Element creation and
    styling are not modelled; a menu is the list of its entries. */
module ContextMenu {
  import opened Common
  import opened Sorting
  import CV = CanvasView
  import IP = ImageProcessor
  import TV = TableView
  import App

  /** What a menu item does when clicked. Line edits act on the current image's
      lines; a toggle is handed to the table (`toggleCellSelection(row, col, id)`);
      the last item opens the category manager. */
  datatype Action = RemoveLineAt(axis: CV.Axis, index: int)
                  | AddLineAt(axis: CV.Axis, pos: real)
                  | ToggleCell(row: int, col: int, categoryId: string)
                  | ManageCategories

  /** A menu item: its text, its action and its optional colour swatch. */
  datatype Item = Item(text: string, action: Action, color: Option<string>)

  /** A top-level menu entry: a plain item or a submenu of items. */
  datatype Entry = Plain(item: Item) | Submenu(text: string, items: seq<Item>)

  /** `this.menu` (the open menu's entries) and `this.eventListeners`. */
  datatype Manager = Manager(menu: Option<seq<Entry>>, listeners: seq<string>)

  // ---------------------------------------------------------------------------
  // Placement (context-menu-manager.js:43-69)

  /** The margin kept to the window's right and bottom edges. */
  const EdgeMargin: real := 20.0
  /** The least distance kept to the window's left and top edges. */
  const MinOffset: real := 10.0

  function Max(a: real, b: real): real {
    if a >= b then a else b
  }

  /** One coordinate of the menu: flipped to the other side of the pointer
      when it would come within 20 px of the far edge, then kept at least 10. */
  function PlaceAxis(p: real, size: real, window: real): (r: real)
    ensures r >= MinOffset
    ensures p + size <= window - EdgeMargin && p >= MinOffset ==> r == p
    ensures p + size > window - EdgeMargin && p - size >= MinOffset ==> r + size == p
    ensures r == p || r == p - size || r == MinOffset
  {
    Max(MinOffset, if p + size > window - EdgeMargin then p - size else p)
  }

  /** The position `showMenu` gives a menu of the measured size. */
  function Place(x: real, y: real, width: real, height: real, winWidth: real, winHeight: real): (r: (real, real))
    ensures r.0 == PlaceAxis(x, width, winWidth) && r.1 == PlaceAxis(y, height, winHeight)
  {
    (PlaceAxis(x, width, winWidth), PlaceAxis(y, height, winHeight))
  }

  /** A placed menu never starts left of or above the 10 px margin, and a
      menu that fits is placed at the pointer. */
  lemma PlaceWithinMargins(x: real, y: real, width: real, height: real, winWidth: real, winHeight: real)
    requires width >= 0.0 && height >= 0.0
    ensures var (px, py) := Place(x, y, width, height, winWidth, winHeight);
            && px >= MinOffset && py >= MinOffset
            && px <= Max(MinOffset, x) && py <= Max(MinOffset, y)
  {
  }

  // ---------------------------------------------------------------------------
  // Coordinates (context-menu-manager.js:236-242)

  /** Page coordinates to image coordinates: subtract the canvas origin, then
      divide by the scale factor. */
  function ToImage(page: real, origin: real, scale: real): (r: real)
    requires scale > 0.0
    ensures origin + r * scale == page
  {
    (page - origin) / scale
  }

  // ---------------------------------------------------------------------------
  // Menu contents (context-menu-manager.js:244-351)

  const ManageText: string := "Управление категориями..."
  const CellMenuText: string := "Выделить ячейку как..."

  function RemoveText(a: CV.Axis): string {
    if a == CV.Vertical then "Удалить вертикальную линию" else "Удалить горизонтальную линию"
  }

  /** The cell submenu's items: one per category, in category order, toggling
      that category at `(row, col)` and showing its name and colour, then the
      item that opens the category manager. */
  function CategoryItems(infos: seq<IP.CategoryInfo>, row: int, col: int): (r: seq<Item>)
    ensures |r| == |infos| + 1
    ensures forall k :: 0 <= k < |infos| ==>
              r[k] == Item(infos[k].name, ToggleCell(row, col, infos[k].id), Some(infos[k].color))
    ensures r[|infos|] == Item(ManageText, ManageCategories, None)
  {
    seq(|infos|, k requires 0 <= k < |infos| => Item(infos[k].name, ToggleCell(row, col, infos[k].id), Some(infos[k].color)))
      + [Item(ManageText, ManageCategories, None)]
  }

  /** `showLineMenu`, given the clicked image point, the index of the line under
      the pointer (-1 for none) and `findGridIndex`'s answers for the vertical
      and horizontal lines: a line under the pointer is offered for removal;
      otherwise both kinds of line can be added there, and when the point is in
      a grid cell the cell submenu follows. */
  function LineMenu(imageX: real, imageY: real, lineIndex: int, lineAxis: CV.Axis,
                    vIndex: int, hIndex: int, infos: seq<IP.CategoryInfo>): (r: seq<Entry>)
    ensures lineIndex != -1 ==> r == [Plain(Item(RemoveText(lineAxis), RemoveLineAt(lineAxis, lineIndex), None))]
    ensures lineIndex == -1 ==> |r| >= 2
                                && r[0].Plain? && r[0].item.action == AddLineAt(CV.Vertical, imageX)
                                && r[1].Plain? && r[1].item.action == AddLineAt(CV.Horizontal, imageY)
    ensures lineIndex == -1 ==> (|r| == 3 <==> vIndex != -1 && hIndex != -1) && |r| <= 3
    ensures |r| == 3 ==> r[2] == Submenu(CellMenuText, CategoryItems(infos, hIndex, vIndex))
  {
    if lineIndex != -1 then [Plain(Item(RemoveText(lineAxis), RemoveLineAt(lineAxis, lineIndex), None))]
    else
      var adds := [Plain(Item("Добавить вертикальную линию", AddLineAt(CV.Vertical, imageX), None)),
                   Plain(Item("Добавить горизонтальную линию", AddLineAt(CV.Horizontal, imageY), None))];
      if vIndex != -1 && hIndex != -1 then adds + [Submenu(CellMenuText, CategoryItems(infos, hIndex, vIndex))]
      else adds
  }

  /** `showCellMenu`: only the cell submenu, for grid cell `(hIndex, vIndex)`. */
  function CellMenu(hIndex: int, vIndex: int, infos: seq<IP.CategoryInfo>): (r: seq<Entry>)
    ensures |r| == 1 && r[0].Submenu? && |r[0].items| == |infos| + 1
    ensures forall k :: 0 <= k < |infos| ==>
              r[0].items[k].text == infos[k].name && r[0].items[k].action == ToggleCell(hIndex, vIndex, infos[k].id)
    ensures r[0].items[|infos|].action == ManageCategories
  {
    [Submenu(CellMenuText, CategoryItems(infos, hIndex, vIndex))]
  }

  /** Every toggle the menus offer addresses the table with the horizontal
      line index as row and the vertical line index as column, and names a
      category of the image. */
  lemma MenusAddressCells(imageX: real, imageY: real, vIndex: int, hIndex: int,
                          infos: seq<IP.CategoryInfo>, e: Entry, item: Item)
    requires e in LineMenu(imageX, imageY, -1, CV.Vertical, vIndex, hIndex, infos) || e in CellMenu(hIndex, vIndex, infos)
    requires e.Submenu? && item in e.items && item.action.ToggleCell?
    ensures item.action.row == hIndex && item.action.col == vIndex
    ensures exists k :: 0 <= k < |infos| && item.action.categoryId == infos[k].id
  {
    var items := CategoryItems(infos, hIndex, vIndex);
    assert e.items == items;
    var k :| 0 <= k < |items| && items[k] == item;
  }

  // ---------------------------------------------------------------------------
  // Running an item (context-menu-manager.js:89-100, 140-143, 246-283)

  /** What a clicked item changes: the lines, or a request handed elsewhere. */
  datatype Effect = LinesChanged(lines: CV.Lines) | ToggleRequest(row: int, col: int, categoryId: string) | OpenManager

  /** An item's handler. Removal splices one element out of the list; adding
      pushes the point and sorts the list ascending. */
  function Run(a: Action, lines: CV.Lines): (r: Effect)
    ensures a.RemoveLineAt? ==> r == LinesChanged(CV.Put(lines, a.axis, SpliceOne(CV.Get(lines, a.axis), a.index)))
    ensures a.AddLineAt? ==> r.LinesChanged?
                             && var s, t := CV.Get(lines, a.axis), CV.Get(r.lines, a.axis);
                                SortedReals(t) && multiset(t) == multiset(s) + multiset{a.pos}
    ensures a.AddLineAt? || a.RemoveLineAt? ==> forall b :: b != a.axis ==> CV.Get(r.lines, b) == CV.Get(lines, b)
    ensures a.ToggleCell? ==> r == ToggleRequest(a.row, a.col, a.categoryId)
    ensures a.ManageCategories? ==> r == OpenManager
  {
    match a
    case RemoveLineAt(axis, i) => LinesChanged(CV.Put(lines, axis, SpliceOne(CV.Get(lines, axis), i)))
    case AddLineAt(axis, p) => LinesChanged(CV.Put(lines, axis, SortReals(CV.Get(lines, axis) + [p])))
    case ToggleCell(row, col, id) => ToggleRequest(row, col, id)
    case ManageCategories => OpenManager
  }

  /** Adding a line through the menu to a sorted list inserts it in order:
      removing that value again gives the list back. */
  lemma AddThenRemoveLine(lines: CV.Lines, a: CV.Axis, p: real)
    requires SortedReals(CV.Get(lines, a))
    ensures var t := CV.Get(Run(AddLineAt(a, p), lines).lines, a);
            var i := IndexOf(t, p);
            && 0 <= i < |t|
            && CV.Get(Run(RemoveLineAt(a, i), CV.Put(lines, a, t)).lines, a) == CV.Get(lines, a)
  {
    var s := CV.Get(lines, a);
    var t := SortReals(s + [p]);
    assert CV.Get(Run(AddLineAt(a, p), lines).lines, a) == t;
    assert p in multiset(t);
    var i := IndexOf(t, p);
    RemovePointBack(s, t, p, i);
    assert CV.Get(Run(RemoveLineAt(a, i), CV.Put(lines, a, t)).lines, a) == RemoveAt(t, i);
  }

  lemma RemovePointBack(s: seq<real>, t: seq<real>, p: real, i: nat)
    requires SortedReals(s) && SortedReals(t) && multiset(t) == multiset(s) + multiset{p}
    requires i < |t| && t[i] == p
    ensures RemoveAt(t, i) == s
  {
    var u := RemoveAt(t, i);
    RemoveAtMultiset(t, i);
    SortedRemoveAt(t, i);
    SortedRealsUnique(u, s);
  }

  /** Removing an element keeps a sorted list sorted. */
  lemma SortedRemoveAt(t: seq<real>, i: nat)
    requires SortedReals(t) && i < |t|
    ensures SortedReals(RemoveAt(t, i))
  {
    var u := RemoveAt(t, i);
    forall m, n | 0 <= m < n < |u| ensures u[m] <= u[n] {
      var m', n' := if m < i then m else m + 1, if n < i then n else n + 1;
      assert u[m] == t[m'] && u[n] == t[n'];
    }
  }

  /** A removal through the menu deletes exactly the chosen line; the others
      keep their order. */
  lemma RemoveLineExact(lines: CV.Lines, a: CV.Axis, i: int)
    requires 0 <= i < |CV.Get(lines, a)|
    ensures var s := CV.Get(lines, a);
            CV.Get(Run(RemoveLineAt(a, i), lines).lines, a) == s[..i] + s[i + 1..]
  {
  }

  /** `hideMenu`: the menu is removed and every registered listener dropped. */
  function Hide(m: Manager): (r: Manager)
    ensures r.menu.None? && r.listeners == []
  {
    Manager(None, [])
  }

  /** `showMenu` hides the open menu first, then opens the new one. */
  function Show(m: Manager, entries: seq<Entry>): (r: Manager)
    ensures r.menu == Some(entries) && r.listeners == []
  {
    Hide(m).(menu := Some(entries))
  }

  /** A click on an item runs its handler, then hides the menu. */
  function ClickItem(m: Manager, item: Item, lines: CV.Lines): (r: (Manager, Effect))
    ensures r.0.menu.None? && r.0.listeners == []
    ensures r.1 == Run(item.action, lines)
  {
    (Hide(m), Run(item.action, lines))
  }

  /** The document click handler: any click but a right click hides an open menu. */
  function DocumentClick(m: Manager, button: int): (r: Manager)
    ensures m.menu.Some? && button != 2 ==> r.menu.None? && r.listeners == []
    ensures m.menu.None? || button == 2 ==> r == m
  {
    if m.menu.Some? && button != 2 then Hide(m) else m
  }

  /** The life of one menu: once shown, a right click on the document leaves
      it open, any other click dismisses it, and so does clicking one of its
      items, which also runs that item's handler. Either way the manager ends
      as if no menu had ever been shown. */
  lemma ShownMenuDismissed(m: Manager, entries: seq<Entry>, button: int, item: Item, lines: CV.Lines)
    ensures DocumentClick(Show(m, entries), button) == (if button == 2 then Show(m, entries) else Manager(None, []))
    ensures ClickItem(Show(m, entries), item, lines) == (Manager(None, []), Run(item.action, lines))
    ensures DocumentClick(DocumentClick(Show(m, entries), button), button) == DocumentClick(Show(m, entries), button)
  {
  }

  // ---------------------------------------------------------------------------
  // Line items of the context menu (context-menu-manager.js:244-281)

  /** The current image's grid lines. */
  function LinesOf(img: IP.Image): CV.Lines {
    CV.Lines(img.vertical, img.horizontal)
  }

  /** A line item of the context menu: its handler edits the current image's
      lines in place, then `calculateLuminance()` runs, without highlighting,
      on the edited image. */
  function MenuLineEdit(st: App.State, a: Action, result: Option<App.LuminanceResult>): (r: (App.State, App.Settled))
    requires App.Valid(st) && st.current.Some? && (a.RemoveLineAt? || a.AddLineAt?)
    requires result.Some? ==> TV.Rectangular(result.value.luminance)
    ensures App.Valid(r.0) && r.0.current == st.current && |r.0.images| == |st.images|
    ensures LinesOf(r.0.images[st.current.value]) == Run(a, LinesOf(st.images[st.current.value])).lines
  {
    var cur := st.current.value;
    var edited := EditLines(st, Run(a, LinesOf(st.images[cur])).lines);
    App.CalculateLuminance(edited, false, result)
  }

  /** The state with the current image's lines replaced. */
  function EditLines(st: App.State, lines: CV.Lines): (r: App.State)
    requires App.Valid(st) && st.current.Some?
    ensures App.Valid(r) && r.current == st.current && r.view == st.view && |r.images| == |st.images|
    ensures r.images[st.current.value] == st.images[st.current.value].(vertical := lines.vertical, horizontal := lines.horizontal)
    ensures forall k :: 0 <= k < |st.images| && k != st.current.value ==> r.images[k] == st.images[k]
  {
    var cur := st.current.value;
    st.(images := st.images[cur := st.images[cur].(vertical := lines.vertical, horizontal := lines.horizontal)])
  }

  /** A line item touches no other image, settles as the request does (or
      rejects when the answer's table raises), and stores the answer's
      luminance for the edited image. */
  lemma MenuLineEditSettles(st: App.State, a: Action, result: Option<App.LuminanceResult>)
    requires App.Valid(st) && st.current.Some? && (a.RemoveLineAt? || a.AddLineAt?)
    requires result.Some? ==> TV.Rectangular(result.value.luminance)
    ensures var r := MenuLineEdit(st, a, result);
            && (forall k :: 0 <= k < |st.images| && k != st.current.value ==> r.0.images[k] == st.images[k])
            && r.1 == (if result.None? then App.RequestFailed
                       else if App.AnswerThrows(st, result.value) then App.Threw
                       else App.Resolved)
            && r.0.images[st.current.value].luminance
               == (if result.Some? then Some(result.value.luminance) else st.images[st.current.value].luminance)
  {
    var cur := st.current.value;
    var edited := EditLines(st, Run(a, LinesOf(st.images[cur])).lines);
    assert MenuLineEdit(st, a, result) == App.CalculateLuminance(edited, false, result);
  }
}

=== FILE: excel_exporter.dfy ===
/** The browser half of the spreadsheet export (`excel-exporter.js`): the
    guards, the table values, the selected-cell records and the per-category
    counts and averages sent to the server. The request and the download are
    not modelled. */
module ExcelExporter {
  import opened Common
  import IP = ImageProcessor
  import TV = TableView

  // ---------------------------------------------------------------------------
  // Table values (excel-exporter.js:62-84)

  /** An exported table value: a number, or the cell's text as it is. */
  datatype Value = Number(v: real) | Text(c: TV.Content)

  /** One cell: a number outside the header row and column when the text is
      not "NaN" and parses; the text otherwise. */
  function ExportCell(i: nat, j: nat, c: TV.Content): (r: Value)
    ensures r.Number? <==> i > 0 && j > 0 && c.Num?
    ensures r.Number? ==> r.v == c.v
    ensures r.Text? ==> r.c == c
  {
    if i > 0 && j > 0 && c != TV.NaNText && TV.Parse(c).Some? then Number(TV.Parse(c).value) else Text(c)
  }

  /** `extractTableData`: every row and cell of the table, in place. */
  function ExtractTableData(rows: seq<TV.Row>): (r: seq<seq<Value>>)
    ensures |r| == |rows|
    ensures forall i :: 0 <= i < |rows| ==> |r[i]| == |rows[i].cells|
    ensures forall i, j :: 0 <= i < |rows| && 0 <= j < |rows[i].cells| ==>
              r[i][j] == ExportCell(i, j, rows[i].cells[j].content)
  {
    seq(|rows|, i requires 0 <= i < |rows| =>
      seq(|rows[i].cells|, j requires 0 <= j < |rows[i].cells| => ExportCell(i, j, rows[i].cells[j].content)))
  }

  // ---------------------------------------------------------------------------
  // Selected-cell records (excel-exporter.js:92-148)

  /** `{row, col, categoryId, value}`, the value `parseFloat` of the cell text
      (None for NaN). */
  datatype Record = Record(row: int, col: int, categoryId: string, value: Option<real>)

  /** The records of one table cell: none unless selected, one per listed id,
      or one `'default'` record when the cell lists none. */
  function CellRecords(c: TV.TCell, i: int, j: int): (r: seq<Record>)
    ensures !c.selected ==> r == []
    ensures forall k :: 0 <= k < |r| ==> r[k].row == i - 1 && r[k].col == j - 1 && r[k].value == TV.Parse(c.content)
    ensures c.selected && c.cats == [] ==> r == [Record(i - 1, j - 1, IP.DefaultId, TV.Parse(c.content))]
    ensures c.selected && c.cats != [] ==> |r| == |c.cats| && forall k :: 0 <= k < |r| ==> r[k].categoryId == c.cats[k]
  {
    var v := TV.Parse(c.content);
    if !c.selected then []
    else if c.cats == [] then [Record(i - 1, j - 1, IP.DefaultId, v)]
    else seq(|c.cats|, k requires 0 <= k < |c.cats| => Record(i - 1, j - 1, c.cats[k], v))
  }

  /** The records of cells `1 .. hi - 1` of table row `i`. */
  function RowRecords(cells: seq<TV.TCell>, i: int, hi: int): seq<Record>
    requires hi <= |cells|
    decreases hi
  {
    if hi <= 1 then [] else RowRecords(cells, i, hi - 1) + CellRecords(cells[hi - 1], i, hi - 1)
  }

  /** The records of table rows `1 .. n - 1`: each row is scanned up to its
      second-to-last cell. */
  function TableRecords(rows: seq<TV.Row>, n: nat): seq<Record>
    requires n <= |rows|
    decreases n
  {
    if n <= 1 then [] else TableRecords(rows, n - 1) + RowRecords(rows[n - 1].cells, n - 1, TV.ScanEnd(rows, n - 1, 1))
  }

  /** A record without its value. */
  function AsSelection(r: Record): IP.Selection {
    IP.Selection(r.row, r.col, r.categoryId)
  }

  function Selections(recs: seq<Record>): (r: seq<IP.Selection>)
    ensures |r| == |recs| && forall k :: 0 <= k < |recs| ==> r[k] == AsSelection(recs[k])
  {
    seq(|recs|, k requires 0 <= k < |recs| => AsSelection(recs[k]))
  }

  lemma SelectionsConcat(a: seq<Record>, b: seq<Record>)
    ensures Selections(a + b) == Selections(a) + Selections(b)
  {
  }

  lemma CellSelections(c: TV.TCell, i: int, j: int)
    ensures Selections(CellRecords(c, i, j)) == TV.CellEntries(c, i - 1, j - 1)
  {
    var a, b := Selections(CellRecords(c, i, j)), TV.CellEntries(c, i - 1, j - 1);
    if c.selected && c.cats != [] {
      assert |b| == |c.cats|;
      forall k | 0 <= k < |a| ensures a[k] == b[k] {
        assert b[k] in b;
      }
    }
  }

  lemma {:induction false} RowSelections(cells: seq<TV.TCell>, i: int, hi: int)
    requires hi <= |cells|
    ensures Selections(RowRecords(cells, i, hi)) == TV.RowEntries(cells, i, hi)
    decreases hi
  {
    if hi > 1 {
      RowSelections(cells, i, hi - 1);
      SelectionsConcat(RowRecords(cells, i, hi - 1), CellRecords(cells[hi - 1], i, hi - 1));
      CellSelections(cells[hi - 1], i, hi - 1);
    }
  }

  /** The records, without their values, are exactly the entries
      `getSelectedCells` reads from the same table with the same scan bound:
      the export sends the table's selections, in the same order. */
  lemma {:induction false} RecordsAreTableSelections(rows: seq<TV.Row>, n: nat)
    requires n <= |rows|
    ensures Selections(TableRecords(rows, n)) == TV.TableEntries(rows, n, 1)
    decreases n
  {
    if n > 1 {
      RecordsAreTableSelections(rows, n - 1);
      var hi := TV.ScanEnd(rows, n - 1, 1);
      SelectionsConcat(TableRecords(rows, n - 1), RowRecords(rows[n - 1].cells, n - 1, hi));
      RowSelections(rows[n - 1].cells, n - 1, hi);
    }
  }

  /** `r` comes from a data cell of the table and carries its parsed text. */
  predicate OfCell(rows: seq<TV.Row>, r: Record) {
    && 0 <= r.row && r.row + 1 < |rows|
    && 0 <= r.col && r.col + 1 < |rows[r.row + 1].cells|
    && r.value == TV.Parse(rows[r.row + 1].cells[r.col + 1].content)
  }

  /** Every record carries the parsed text of the cell it comes from. */
  lemma {:induction false} RecordValues(rows: seq<TV.Row>, n: nat, k: nat)
    requires n <= |rows| && k < |TableRecords(rows, n)|
    ensures OfCell(rows, TableRecords(rows, n)[k]) && TableRecords(rows, n)[k].row < n - 1
    decreases n
  {
    assert n > 1;
    var prev := TableRecords(rows, n - 1);
    var cells := rows[n - 1].cells;
    var row := RowRecords(cells, n - 1, TV.ScanEnd(rows, n - 1, 1));
    assert TableRecords(rows, n) == prev + row;
    if k < |prev| {
      RecordValues(rows, n - 1, k);
      assert TableRecords(rows, n)[k] == prev[k];
    } else {
      RowRecordValues(cells, n - 1, TV.ScanEnd(rows, n - 1, 1), k - |prev|);
      assert TableRecords(rows, n)[k] == row[k - |prev|];
    }
  }

  lemma {:induction false} RowRecordValues(cells: seq<TV.TCell>, i: int, hi: int, k: nat)
    requires hi <= |cells| && k < |RowRecords(cells, i, hi)|
    ensures var r := RowRecords(cells, i, hi)[k];
            && r.row == i - 1 && 0 <= r.col && r.col + 1 < hi
            && r.value == TV.Parse(cells[r.col + 1].content)
    decreases hi
  {
    assert hi > 1;
    var prev := RowRecords(cells, i, hi - 1);
    var last := CellRecords(cells[hi - 1], i, hi - 1);
    assert RowRecords(cells, i, hi) == prev + last;
    if k < |prev| {
      RowRecordValues(cells, i, hi - 1, k);
      assert RowRecords(cells, i, hi)[k] == prev[k];
    } else {
      assert RowRecords(cells, i, hi)[k] == last[k - |prev|];
    }
  }

  // ---------------------------------------------------------------------------
  // Per-category counts and averages (excel-exporter.js:96-103, 150-191)

  /** The average field: `'N/A'` without records, otherwise the mean as the
      cell would show it ("NaN" when a value is NaN). */
  datatype Average = NotAvailable | Mean(shown: TV.Content)

  datatype CategoryAverage = CategoryAverage(id: string, name: string, color: string, count: nat, average: Average)

  /** The values of the records of category `id`, in order. */
  function ValuesOf(recs: seq<Record>, id: string): (r: seq<Option<real>>)
    ensures |r| <= |recs|
    decreases |recs|
  {
    if |recs| == 0 then []
    else
      var last := recs[|recs| - 1];
      ValuesOf(recs[..|recs| - 1], id) + (if last.categoryId == id then [last.value] else [])
  }

  /** The last category carrying `id`: a repeated key of the tracking object
      keeps the name and colour assigned last. */
  function LastInfo(infos: seq<IP.CategoryInfo>, id: string): (r: IP.CategoryInfo)
    requires id in InfoIds(infos)
    ensures r in infos && r.id == id
    decreases |infos|
  {
    var last := infos[|infos| - 1];
    if last.id == id then last
    else
      assert InfoIds(infos) == InfoIds(infos[..|infos| - 1]) + [last.id];
      LastInfo(infos[..|infos| - 1], id)
  }

  function InfoIds(infos: seq<IP.CategoryInfo>): (r: seq<string>)
    ensures |r| == |infos| && forall k :: 0 <= k < |infos| ==> r[k] == infos[k].id
  {
    seq(|infos|, k requires 0 <= k < |infos| => infos[k].id)
  }

  /** The record of one category. */
  function AverageFor(info: IP.CategoryInfo, recs: seq<Record>): (r: CategoryAverage)
    ensures r.id == info.id && r.name == info.name && r.color == info.color
    ensures r.count == |ValuesOf(recs, info.id)|
    ensures r.average.NotAvailable? <==> r.count == 0
    ensures r.count > 0 ==> r.average == Mean(TV.MeanOf(ValuesOf(recs, info.id)))
  {
    var vals := ValuesOf(recs, info.id);
    if |vals| > 0 then CategoryAverage(info.id, info.name, info.color, |vals|, Mean(TV.MeanOf(vals)))
    else CategoryAverage(info.id, info.name, info.color, 0, NotAvailable)
  }

  /** `calculateCategoryAverages` over the tracking object: one record per
      distinct category id, in order of first appearance. */
  function CategoryAverages(infos: seq<IP.CategoryInfo>, recs: seq<Record>): (r: seq<CategoryAverage>)
    ensures var keys := TV.Distinct(InfoIds(infos));
            && |r| == |keys|
            && forall k :: 0 <= k < |r| ==> r[k] == AverageFor(LastInfo(infos, keys[k]), recs)
  {
    var keys := TV.Distinct(InfoIds(infos));
    seq(|keys|, k requires 0 <= k < |keys| => AverageFor(LastInfo(infos, keys[k]), recs))
  }

  /** With distinct ids (every image's categories have them), there is one
      record per category, in the categories' order, carrying its own name and
      colour. */
  lemma AveragesFollowCategories(cats: seq<IP.Category>, recs: seq<Record>)
    requires IP.WellFormed(cats)
    ensures var infos := IP.Infos(cats);
            var r := CategoryAverages(infos, recs);
            && |r| == |cats|
            && forall k :: 0 <= k < |cats| ==> r[k] == AverageFor(infos[k], recs)
  {
    var infos := IP.Infos(cats);
    var ids := InfoIds(infos);
    assert ids == IP.Ids(cats);
    TV.DistinctOfNoDup(ids);
    forall k | 0 <= k < |cats| ensures LastInfo(infos, ids[k]) == infos[k] {
      LastInfoUnique(infos, k);
    }
  }

  lemma {:induction false} LastInfoUnique(infos: seq<IP.CategoryInfo>, k: nat)
    requires k < |infos| && NoDup(InfoIds(infos))
    ensures LastInfo(infos, infos[k].id) == infos[k]
    decreases |infos|
  {
    var n := |infos| - 1;
    if k < n {
      assert InfoIds(infos)[k] != InfoIds(infos)[n];
      var init := infos[..n];
      assert InfoIds(init) == InfoIds(infos)[..n];
      assert NoDup(InfoIds(init)) by {
        forall a, b | 0 <= a < b < |init| ensures InfoIds(init)[a] != InfoIds(init)[b] {
          assert InfoIds(infos)[a] != InfoIds(infos)[b];
        }
      }
      LastInfoUnique(init, k);
    }
  }

  /** The number of records whose id is one of `ids`. */
  function KnownCount(recs: seq<Record>, ids: seq<string>): (n: nat)
    ensures n <= |recs|
    decreases |recs|
  {
    if |recs| == 0 then 0
    else KnownCount(recs[..|recs| - 1], ids) + (if recs[|recs| - 1].categoryId in ids then 1 else 0)
  }

  function TotalCount(avgs: seq<CategoryAverage>): nat
    decreases |avgs|
  {
    if |avgs| == 0 then 0 else TotalCount(avgs[..|avgs| - 1]) + avgs[|avgs| - 1].count
  }

  /** Every record is counted in at most one category: the counts add up to
      the number of records whose id is a current category. A record with an
      unknown id (the `'default'` record of a cell without ids, when no
      category is called that) is sent but counted nowhere. */
  lemma CountsAddUp(infos: seq<IP.CategoryInfo>, recs: seq<Record>)
    ensures TotalCount(CategoryAverages(infos, recs)) == KnownCount(recs, InfoIds(infos))
  {
    var keys := TV.Distinct(InfoIds(infos));
    var avgs := CategoryAverages(infos, recs);
    CountsOverKeys(avgs, keys, recs);
    KeyCountsAddUp(keys, recs);
    KnownCountSameIds(recs, keys, InfoIds(infos));
  }

  /** The sum of `|ValuesOf(recs, keys[k])|` over the keys. */
  function KeyCounts(keys: seq<string>, recs: seq<Record>): nat
    decreases |keys|
  {
    if |keys| == 0 then 0 else KeyCounts(keys[..|keys| - 1], recs) + |ValuesOf(recs, keys[|keys| - 1])|
  }

  lemma {:induction false} CountsOverKeys(avgs: seq<CategoryAverage>, keys: seq<string>, recs: seq<Record>)
    requires |avgs| == |keys| && forall k :: 0 <= k < |avgs| ==> avgs[k].count == |ValuesOf(recs, keys[k])|
    ensures TotalCount(avgs) == KeyCounts(keys, recs)
    decreases |keys|
  {
    if |keys| > 0 {
      var n := |keys| - 1;
      CountsOverKeys(avgs[..n], keys[..n], recs);
    }
  }

  lemma {:induction false} KeyCountsAddUp(keys: seq<string>, recs: seq<Record>)
    requires NoDup(keys)
    ensures KeyCounts(keys, recs) == KnownCount(recs, keys)
    decreases |recs|
  {
    if |recs| > 0 {
      var init, x := recs[..|recs| - 1], recs[|recs| - 1];
      KeyCountsAddUp(keys, init);
      KeyCountsSnoc(keys, recs);
      NoDupCount(keys, x.categoryId);
      assert KnownCount(recs, keys) == KnownCount(init, keys) + (if x.categoryId in keys then 1 else 0);
    } else {
      KeyCountsNone(keys, recs);
    }
  }

  lemma {:induction false} KeyCountsNone(keys: seq<string>, recs: seq<Record>)
    requires |recs| == 0
    ensures KeyCounts(keys, recs) == 0
    decreases |keys|
  {
    if |keys| > 0 {
      KeyCountsNone(keys[..|keys| - 1], recs);
    }
  }

  /** Adding one record adds one to each key equal to its id. */
  lemma {:induction false} KeyCountsSnoc(keys: seq<string>, recs: seq<Record>)
    requires |recs| > 0
    ensures KeyCounts(keys, recs) == KeyCounts(keys, recs[..|recs| - 1]) + Count(keys, recs[|recs| - 1].categoryId)
    decreases |keys|
  {
    if |keys| > 0 {
      KeyCountsSnoc(keys[..|keys| - 1], recs);
    }
  }

  lemma {:induction false} NoDupCount(keys: seq<string>, x: string)
    requires NoDup(keys)
    ensures Count(keys, x) == if x in keys then 1 else 0
    decreases |keys|
  {
    if |keys| > 0 {
      var n := |keys| - 1;
      NoDupPrefix(keys, n);
      NoDupCount(keys[..n], x);
      if keys[n] == x {
        NoDupLastFresh(keys, |keys|);
      }
      assert keys == keys[..n] + [keys[n]];
    }
  }

  lemma {:induction false} KnownCountSameIds(recs: seq<Record>, a: seq<string>, b: seq<string>)
    requires forall x :: x in a <==> x in b
    ensures KnownCount(recs, a) == KnownCount(recs, b)
    decreases |recs|
  {
    if |recs| > 0 {
      KnownCountSameIds(recs[..|recs| - 1], a, b);
    }
  }

  // ---------------------------------------------------------------------------
  // The export request (excel-exporter.js:18-55)

  datatype ExportData = ExportData(tableData: seq<seq<Value>>, selectedCells: seq<Record>,
                                   categoryAverages: seq<CategoryAverage>)

  /** The outcome: a rejection for a missing table or image, or the data sent. */
  datatype Outcome = NoData | NoImage | Send(data: ExportData)

  /** `exportTableData`, given the current image's categories (None without an
      image): nothing is sent without table data, without rows or without an
      image; otherwise the table values, the records and the averages. */
  function ExportTableData(v: TV.View, img: Option<seq<IP.Category>>): (r: Outcome)
    ensures r == NoData <==> v.data.None? || |v.rows| == 0
    ensures r == NoImage <==> v.data.Some? && |v.rows| > 0 && img.None?
    ensures r.Send? ==> && r.data.tableData == ExtractTableData(v.rows)
                        && r.data.selectedCells == TableRecords(v.rows, |v.rows|)
                        && r.data.categoryAverages == CategoryAverages(IP.Infos(img.value), r.data.selectedCells)
  {
    if v.data.None? || |v.rows| == 0 then NoData
    else if img.None? then NoImage
    else
      var recs := TableRecords(v.rows, |v.rows|);
      Send(ExportData(ExtractTableData(v.rows), recs, CategoryAverages(IP.Infos(img.value), recs)))
  }

  /** What is sent carries the selections `getSelectedCells` reads from the
      table (as written, with the same scan bound), one average record per
      category of the image, and counts that add up to the records of current
      categories. */
  lemma ExportSendsTableSelections(v: TV.View, cats: seq<IP.Category>)
    requires v.data.Some? && |v.rows| > 0 && IP.WellFormed(cats)
    ensures var r := ExportTableData(v, Some(cats));
            && r.Send?
            && Selections(r.data.selectedCells) == TV.GetSelectedCellsAsWritten(v.rows, true)
            && |r.data.categoryAverages| == |cats|
            && (forall k :: 0 <= k < |cats| ==> r.data.categoryAverages[k] == AverageFor(IP.Infos(cats)[k], r.data.selectedCells))
            && TotalCount(r.data.categoryAverages) == KnownCount(r.data.selectedCells, IP.Ids(cats))
  {
    var recs := TableRecords(v.rows, |v.rows|);
    RecordsAreTableSelections(v.rows, |v.rows|);
    AveragesFollowCategories(cats, recs);
    CountsAddUp(IP.Infos(cats), recs);
    assert InfoIds(IP.Infos(cats)) == IP.Ids(cats);
  }
}

=== FILE: excel_server.dfy ===
/** The server half of the spreadsheet export (`export_excel` in `wsgi.py`):
    which table values are written as numbers, and how the selected-cell
    records are grouped by position before the cells are coloured.
    Workbook styling, colours, comments and column widths are not modelled. */
module ExcelServer {
  import opened Common

  // ---------------------------------------------------------------------------
  // Numeric cells (wsgi.py:185-199)

  /** A JSON table value as Python sees it: a number, a string, or `null`. */
  datatype JsonValue = JNum(v: real) | JStr(s: string) | JNull

  /** What lands in the worksheet cell: a float, the string unchanged, or nothing. */
  datatype Written = Float(v: real) | Text(s: string) | Empty

  predicate IsDigit(c: char) {
    '0' <= c <= '9'
  }

  predicate AllDigits(s: string) {
    forall k :: 0 <= k < |s| ==> IsDigit(s[k])
  }

  /** `s.replace('.', '', 1)`: the first `.` removed, if there is one. */
  function DropFirstDot(s: string): (r: string)
    ensures '.' !in s ==> r == s
    ensures '.' in s ==> var i := IndexOf(s, '.'); r == s[..i] + s[i + 1..]
  {
    var i := IndexOf(s, '.');
    if i == -1 then s else s[..i] + s[i + 1..]
  }

  /** `cell_value.replace('.', '', 1).isdigit()`, with `isdigit` on ASCII
      digits: a non-empty string of digits once the first dot is removed. */
  predicate IsNumericString(s: string) {
    var t := DropFirstDot(s);
    |t| > 0 && AllDigits(t)
  }

  /** Digits and dots only, at most one dot, and at least one digit. */
  predicate DecimalShape(s: string) {
    && (forall k :: 0 <= k < |s| ==> IsDigit(s[k]) || s[k] == '.')
    && Count(s, '.') <= 1
    && exists k :: 0 <= k < |s| && IsDigit(s[k])
  }

  /** The test read directly: a numeric string is exactly a digits-and-dots
      string with at most one dot and at least one digit. */
  lemma NumericStringShape(s: string)
    ensures IsNumericString(s) <==> DecimalShape(s)
  {
    if IsNumericString(s) {
      NumericHasShape(s);
    }
    if DecimalShape(s) {
      ShapeIsNumeric(s);
    }
  }

  /** The dot count of `s` around its first dot `i`. */
  lemma DotSplit(s: string, i: nat)
    requires i < |s| && s[i] == '.' && '.' !in s[..i]
    ensures Count(s, '.') == 1 + Count(s[i + 1..], '.')
  {
    var a, p, b := s[..i], s[..i + 1], s[i + 1..];
    assert s == p + b;
    assert p == a + ['.'];
    CountConcat(p, b, '.');
    CountConcat(a, ['.'], '.');
    assert Count(a, '.') == 0;
    assert Count(['.'], '.') == 1;
  }

  lemma NumericHasShape(s: string)
    requires IsNumericString(s)
    ensures DecimalShape(s)
  {
    var i := IndexOf(s, '.');
    var t := DropFirstDot(s);
    if i == -1 {
      assert IsDigit(s[0]);
    } else {
      DotSplit(s, i);
      assert t == s[..i] + s[i + 1..];
      var b := s[i + 1..];
      forall k | 0 <= k < |b| ensures b[k] != '.' {
        assert b[k] == t[i + k];
      }
      forall k | 0 <= k < |s| ensures IsDigit(s[k]) || s[k] == '.' {
        if k < i {
          assert s[k] == t[k];
        } else if k > i {
          assert s[k] == t[k - 1];
        }
      }
      if i > 0 {
        assert IsDigit(s[0]) by { assert s[0] == t[0]; }
      } else {
        assert IsDigit(s[1]) by { assert s[1] == t[0]; }
      }
    }
  }

  lemma ShapeIsNumeric(s: string)
    requires DecimalShape(s)
    ensures IsNumericString(s)
  {
    var i := IndexOf(s, '.');
    var t := DropFirstDot(s);
    var d :| 0 <= d < |s| && IsDigit(s[d]);
    if i != -1 {
      DotSplit(s, i);
      assert t == s[..i] + s[i + 1..];
      assert '.' !in s[i + 1..];
      forall k | 0 <= k < |t| ensures IsDigit(t[k]) {
        if k < i {
          assert t[k] == s[k];
        } else {
          assert t[k] == s[i + 1..][k - i];
        }
      }
      assert d != i;
    }
  }

  lemma {:induction false} CountConcat<T>(a: seq<T>, b: seq<T>, x: T)
    ensures Count(a + b, x) == Count(a, x) + Count(b, x)
    decreases |b|
  {
    if |b| > 0 {
      CountConcat(a, b[..|b| - 1], x);
      assert a + b[..|b| - 1] == (a + b)[..|a + b| - 1];
      assert b[..|b| - 1] == b[..|b| - 1];
    } else {
      assert a + b == a;
    }
  }

  /** Negative numbers and exponent notation are not numeric strings. */
  lemma SignsAndExponentsStayText(s: string)
    ensures !IsNumericString("-" + s)
    ensures !IsNumericString(s + "e" + s) && !IsNumericString(s + "E" + s)
  {
    NumericStringShape("-" + s);
    assert ("-" + s)[0] == '-';
    var e, f := s + "e" + s, s + "E" + s;
    NumericStringShape(e);
    NumericStringShape(f);
    assert e[|s|] == 'e' && f[|s|] == 'E';
  }

  /** The value of a string of ASCII digits. */
  function DigitsValue(s: string): (n: nat)
    requires AllDigits(s)
    decreases |s|
  {
    if |s| == 0 then 0 else 10 * DigitsValue(s[..|s| - 1]) + (s[|s| - 1] as int - '0' as int)
  }

  function Pow10(n: nat): (p: nat)
    ensures p > 0
  {
    if n == 0 then 1 else 10 * Pow10(n - 1)
  }

  /** `float()` of a numeric string: the digits before the dot, plus the digits
      after it scaled down by their count. */
  function DecimalValue(s: string): (v: real)
    requires IsNumericString(s)
    ensures v >= 0.0
  {
    var i := IndexOf(s, '.');
    if i == -1 then DigitsValue(s) as real
    else
      var t := DropFirstDot(s);
      assert s[..i] == t[..i] && s[i + 1..] == t[i..];
      DigitsValue(s[..i]) as real + DigitsValue(s[i + 1..]) as real / Pow10(|s| - i - 1) as real
  }

  /** The value written for one table entry: numbers and numeric strings become
      floats, anything else is written as it came. */
  function WriteCell(v: JsonValue): (w: Written)
    ensures v.JNum? ==> w == Float(v.v)
    ensures v.JStr? ==> (w.Float? <==> IsNumericString(v.s))
    ensures v.JStr? && !IsNumericString(v.s) ==> w == Text(v.s)
    ensures v.JNull? ==> w == Empty
    ensures v.JStr? && w.Float? ==> w.v >= 0.0
  {
    match v
    case JNum(x) => Float(x)
    case JStr(s) => if IsNumericString(s) then Float(DecimalValue(s)) else Text(s)
    case JNull => Empty
  }

  /** A leading dot reads as a fraction: `".5"` is written as 0.5. */
  lemma LeadingDotExample()
    ensures WriteCell(JStr(".5")) == Float(0.5)
  {
    var h := ".5";
    assert IsNumericString(h) && IndexOf(h, '.') == 0 && h[..0] == "" && h[1..] == "5" by {
      assert h[0] == '.' && h[1] == '5';
      assert IndexOf(h, '.') == 0;
      assert h[..0] == "" && h[1..] == "5";
      assert DropFirstDot(h) == "5";
    }
    assert DecimalValue(h) == 0.5 by {
      assert DigitsValue("") == 0;
      assert DigitsValue("5") == 5 by { assert "5"[..0] == ""; }
      assert Pow10(1) == 10;
    }
  }

  // ---------------------------------------------------------------------------
  // Grouping the selected cells by position (wsgi.py:234-247)

  /** A selected-cell record as the server reads it: `row` and `col` default
      to 0 when missing, and `categoryId` is "" when missing or falsy. */
  datatype CellInfo = CellInfo(row: Option<int>, col: Option<int>, categoryId: string)

  /** The key `f"{row},{col}"`: integers print distinctly, so a pair stands
      for the key. */
  datatype Pos = Pos(row: int, col: int)

  /** One entry of `cell_categories`: a position and the ids listed there. */
  datatype Group = Group(pos: Pos, ids: seq<string>)

  function OrZero(x: Option<int>): int {
    if x.Some? then x.value else 0
  }

  function PosOf(c: CellInfo): Pos {
    Pos(OrZero(c.row), OrZero(c.col))
  }

  /** The ids a record adds to its group: its id when it is truthy. */
  function IdOf(c: CellInfo): (r: seq<string>)
    ensures r == [] <==> c.categoryId == ""
  {
    if c.categoryId != "" then [c.categoryId] else []
  }

  /** The index of the group at `p`, or -1. */
  function FindGroup(groups: seq<Group>, p: Pos): (k: int)
    ensures k == -1 <==> forall j :: 0 <= j < |groups| ==> groups[j].pos != p
    ensures k != -1 ==> 0 <= k < |groups| && groups[k].pos == p
    decreases |groups|
  {
    if |groups| == 0 then -1
    else if groups[|groups| - 1].pos == p then |groups| - 1
    else FindGroup(groups[..|groups| - 1], p)
  }

  /** One loop step: create the group on first sight of the position, then
      append the id if it is truthy. */
  function AddInfo(groups: seq<Group>, c: CellInfo): seq<Group> {
    var k := FindGroup(groups, PosOf(c));
    if k == -1 then groups + [Group(PosOf(c), IdOf(c))]
    else groups[k := groups[k].(ids := groups[k].ids + IdOf(c))]
  }

  /** `cell_categories`, in insertion order: one group per position that
      occurs, holding the ids given for it. */
  function GroupByPosition(cells: seq<CellInfo>): (r: seq<Group>)
    ensures GroupsMatch(r, cells)
    decreases |cells|
  {
    if |cells| == 0 then []
    else
      var init, c := cells[..|cells| - 1], cells[|cells| - 1];
      var groups := GroupByPosition(init);
      assert init + [c] == cells;
      AddInfoMatches(groups, init, c);
      AddInfo(groups, c)
  }

  /** Reference definition: the truthy ids of the records at `p`, in order. */
  function IdsAt(cells: seq<CellInfo>, p: Pos): (r: seq<string>)
    ensures forall x :: x in r ==> x != ""
    decreases |cells|
  {
    if |cells| == 0 then []
    else IdsAt(cells[..|cells| - 1], p) + (if PosOf(cells[|cells| - 1]) == p then IdOf(cells[|cells| - 1]) else [])
  }

  /** Some record sits at `p`. */
  predicate Occurs(cells: seq<CellInfo>, p: Pos) {
    exists k :: 0 <= k < |cells| && PosOf(cells[k]) == p
  }

  /** The grouping is right: one group per position, a group exactly for the
      positions that occur (even when no record there has an id), holding the
      truthy ids listed there in order. */
  ghost predicate GroupsMatch(groups: seq<Group>, cells: seq<CellInfo>) {
    && (forall i, j :: 0 <= i < j < |groups| ==> groups[i].pos != groups[j].pos)
    && (forall p :: FindGroup(groups, p) != -1 <==> Occurs(cells, p))
    && (forall k :: 0 <= k < |groups| ==> groups[k].ids == IdsAt(cells, groups[k].pos))
  }

  lemma AddInfoMatches(groups: seq<Group>, init: seq<CellInfo>, c: CellInfo)
    requires GroupsMatch(groups, init)
    ensures GroupsMatch(AddInfo(groups, c), init + [c])
  {
    var cells := init + [c];
    var r := AddInfo(groups, c);
    OccursSnoc(init, c);
    AddInfoFinds(groups, c);
    assert forall p :: FindGroup(r, p) != -1 <==> Occurs(cells, p);
    AddInfoIds(groups, init, c);
  }

  /** A position occurs after appending `c` exactly when it occurred before or
      is the position of `c`. */
  lemma OccursSnoc(init: seq<CellInfo>, c: CellInfo)
    ensures forall p :: Occurs(init + [c], p) <==> Occurs(init, p) || PosOf(c) == p
  {
    var cells := init + [c];
    forall p ensures Occurs(cells, p) <==> Occurs(init, p) || PosOf(c) == p {
      if PosOf(c) == p {
        assert PosOf(cells[|cells| - 1]) == p;
      }
      if Occurs(cells, p) && PosOf(c) != p {
        var j :| 0 <= j < |cells| && PosOf(cells[j]) == p;
        assert cells[j] == init[j];
      }
      if Occurs(init, p) {
        var j :| 0 <= j < |init| && PosOf(init[j]) == p;
        assert cells[j] == init[j];
      }
    }
  }

  /** A step finds a group exactly where one was found before and at the
      position of the new record. */
  lemma AddInfoFinds(groups: seq<Group>, c: CellInfo)
    ensures forall p :: FindGroup(AddInfo(groups, c), p) != -1 <==> FindGroup(groups, p) != -1 || PosOf(c) == p
  {
    var r := AddInfo(groups, c);
    var k := FindGroup(groups, PosOf(c));
    forall p ensures FindGroup(r, p) != -1 <==> FindGroup(groups, p) != -1 || PosOf(c) == p {
      if FindGroup(r, p) != -1 {
        var j := FindGroup(r, p);
        if j < |groups| {
          assert groups[j].pos == p;
        }
      }
      if FindGroup(groups, p) != -1 {
        var j := FindGroup(groups, p);
        assert r[j].pos == p;
      }
      if PosOf(c) == p {
        if k == -1 {
          assert r[|groups|].pos == p;
        } else {
          assert r[k].pos == p;
        }
      }
    }
  }

  /** A step keeps positions distinct and every group's ids those listed at
      its position. */
  lemma AddInfoIds(groups: seq<Group>, init: seq<CellInfo>, c: CellInfo)
    requires GroupsMatch(groups, init)
    ensures var r := AddInfo(groups, c);
            && (forall i, j :: 0 <= i < j < |r| ==> r[i].pos != r[j].pos)
            && (forall j :: 0 <= j < |r| ==> r[j].ids == IdsAt(init + [c], r[j].pos))
  {
    var cells := init + [c];
    assert cells[..|cells| - 1] == init;
    var r := AddInfo(groups, c);
    var k := FindGroup(groups, PosOf(c));
    forall p ensures IdsAt(cells, p) == IdsAt(init, p) + (if PosOf(c) == p then IdOf(c) else []) {
    }
    forall j | 0 <= j < |r| ensures r[j].ids == IdsAt(cells, r[j].pos) {
      if j < |groups| && j != k {
        assert r[j] == groups[j];
        assert groups[j].pos != PosOf(c);
      } else if j == k {
        assert r[j].pos == PosOf(c) && r[j].ids == groups[k].ids + IdOf(c);
      } else {
        assert r[j] == Group(PosOf(c), IdOf(c));
        assert IdsAt(init, PosOf(c)) == [] by {
          IdsAtAbsent(init, PosOf(c));
        }
      }
    }
  }

  /** A position with no record has no ids. */
  lemma {:induction false} IdsAtAbsent(cells: seq<CellInfo>, p: Pos)
    requires !Occurs(cells, p)
    ensures IdsAt(cells, p) == []
    decreases |cells|
  {
    if |cells| > 0 {
      var init := cells[..|cells| - 1];
      forall j | 0 <= j < |init| ensures PosOf(init[j]) != p {
        assert init[j] == cells[j];
      }
      IdsAtAbsent(init, p);
    }
  }
}

=== FILE: image_processor.dfy ===
/** The per-image annotation state of `image-processor.js`: an ordered list of
    categories, each holding a duplicate-free, insertion-ordered list of grid
    cells, plus the flattened `{row, col, categoryId}` view the rest of the
    application exchanges. */
module ImageProcessor {
  import opened Common
  import Slug

  /** A selected grid cell as a category stores it (`{row, col}`). */
  datatype Cell = Cell(row: int, col: int)

  /** One annotation category (`class Category`). */
  datatype Category = Category(id: string, name: string, color: string, cells: seq<Cell>)

  /** A flattened selection entry `{row, col, categoryId}`. The empty string
      stands for a missing, null or empty `categoryId`: every reader of these
      entries treats the three alike. The random `id` field is not modelled. */
  datatype Selection = Selection(row: int, col: int, categoryId: string)

  /** The `{id, name, color}` triple of the `selectionCategories` getter. */
  datatype CategoryInfo = CategoryInfo(id: string, name: string, color: string)

  /** The category id that legacy entries without a `categoryId` receive. */
  const DefaultId: string := "default"

  /** `cell.categoryId || 'default'`. */
  function OrDefault(id: string): (r: string)
    ensures r != ""
    ensures id != "" ==> r == id
  {
    if id == "" then DefaultId else id
  }

  // ---------------------------------------------------------------------------
  // Category (image-processor.js:4-44)

  predicate HasCell(c: Category, row: int, col: int) {
    Cell(row, col) in c.cells
  }

  /** Same id, name and colour; only the cell list may differ. */
  predicate SameInfo(a: Category, b: Category) {
    a.id == b.id && a.name == b.name && a.color == b.color
  }

  /** `addCell`: appends the cell when it is absent and reports whether it did. */
  function AddCell(c: Category, row: int, col: int): (r: (Category, bool))
    ensures r.1 <==> !HasCell(c, row, col)
    ensures SameInfo(r.0, c)
    ensures HasCell(r.0, row, col)
    ensures r.1 ==> r.0.cells == c.cells + [Cell(row, col)]
    ensures !r.1 ==> r.0 == c
    ensures NoDup(c.cells) ==> NoDup(r.0.cells)
  {
    if IndexOf(c.cells, Cell(row, col)) == -1 then (c.(cells := c.cells + [Cell(row, col)]), true)
    else (c, false)
  }

  /** `removeCell`: deletes the first matching cell and reports whether one was found;
      the remaining cells keep their order. */
  function RemoveCell(c: Category, row: int, col: int): (r: (Category, bool))
    ensures r.1 <==> HasCell(c, row, col)
    ensures SameInfo(r.0, c)
    ensures !r.1 ==> r.0 == c
    ensures r.1 ==> exists k :: 0 <= k < |c.cells| && c.cells[k] == Cell(row, col)
                                && Cell(row, col) !in c.cells[..k]
                                && r.0.cells == RemoveAt(c.cells, k)
    ensures NoDup(c.cells) ==> NoDup(r.0.cells) && !HasCell(r.0, row, col)
  {
    var k := IndexOf(c.cells, Cell(row, col));
    if k == -1 then (c, false)
    else
      RemoveAtNoDup(c.cells, k);
      (c.(cells := RemoveAt(c.cells, k)), true)
  }

  /** The `selectionCategories` getter: the `{id, name, color}` of every
      category, in order. */
  function Infos(cats: seq<Category>): (r: seq<CategoryInfo>)
    ensures |r| == |cats|
    ensures forall k :: 0 <= k < |cats| ==> r[k] == CategoryInfo(cats[k].id, cats[k].name, cats[k].color)
  {
    seq(|cats|, k requires 0 <= k < |cats| => CategoryInfo(cats[k].id, cats[k].name, cats[k].color))
  }

  // ---------------------------------------------------------------------------
  // Category lookup (image-processor.js:204-208)

  function Ids(cats: seq<Category>): (r: seq<string>)
    ensures |r| == |cats|
    ensures forall k :: 0 <= k < |cats| ==> r[k] == cats[k].id
  {
    seq(|cats|, k requires 0 <= k < |cats| => cats[k].id)
  }

  /** `getCategoryById`: the position of the first category with this id,
      otherwise the first category; nothing when there are no categories. */
  function GetCategoryById(cats: seq<Category>, id: string): (r: Option<nat>)
    ensures r.None? <==> |cats| == 0
    ensures r.Some? ==> r.value < |cats|
    ensures r.Some? && id in Ids(cats) ==> cats[r.value].id == id && id !in Ids(cats)[..r.value]
    ensures r.Some? && id !in Ids(cats) ==> r.value == 0
  {
    var k := IndexOf(Ids(cats), id);
    if k != -1 then Some(k)
    else if |cats| > 0 then Some(0)
    else None
  }

  /** With distinct ids, the category carrying an id is the one found for it. */
  lemma GetCategoryByIdDistinct(cats: seq<Category>, m: nat)
    requires m < |cats| && NoDup(Ids(cats))
    ensures GetCategoryById(cats, cats[m].id) == Some(m)
  {
    var ids := Ids(cats);
    assert ids[m] == cats[m].id;
    var r := GetCategoryById(cats, cats[m].id);
    var k := r.value;
    assert ids[k] == ids[m];
  }

  /** Lookup depends on the ids alone. */
  lemma GetCategoryByIdIds(a: seq<Category>, b: seq<Category>, id: string)
    requires Ids(a) == Ids(b)
    ensures GetCategoryById(a, id) == GetCategoryById(b, id)
  {
  }

  // ---------------------------------------------------------------------------
  // Bulk replacement and flattening (image-processor.js:75-89, 156-202)

  /** Two category lists that agree on everything but the cell lists. */
  predicate SameCategories(a: seq<Category>, b: seq<Category>) {
    |a| == |b| && forall k :: 0 <= k < |a| ==> SameInfo(a[k], b[k])
  }

  /** Every category's cell list is duplicate-free. */
  predicate CellsNoDup(cats: seq<Category>) {
    forall k :: 0 <= k < |cats| ==> NoDup(cats[k].cells)
  }

  /** The effect of one entry of `initializeSelectedCells` / `updateSelectedCells`:
      the cell is added (if absent) to the category its id resolves to. */
  function AddEntry(cats: seq<Category>, s: Selection): (r: seq<Category>)
    ensures SameCategories(r, cats) && Ids(r) == Ids(cats)
  {
    match GetCategoryById(cats, OrDefault(s.categoryId))
    case None => cats
    case Some(k) => cats[k := AddCell(cats[k], s.row, s.col).0]
  }

  /** `initializeSelectedCells`: the entries applied in order. */
  function AddEntries(cats: seq<Category>, sel: seq<Selection>): (r: seq<Category>)
    ensures SameCategories(r, cats) && Ids(r) == Ids(cats)
    decreases |sel|
  {
    if |sel| == 0 then cats
    else AddEntry(AddEntries(cats, sel[..|sel| - 1]), sel[|sel| - 1])
  }

  /** Every category with an empty cell list. */
  function ClearCells(cats: seq<Category>): (r: seq<Category>)
    ensures SameCategories(r, cats) && Ids(r) == Ids(cats)
    ensures forall k :: 0 <= k < |r| ==> r[k].cells == []
  {
    seq(|cats|, k requires 0 <= k < |cats| => cats[k].(cells := []))
  }

  /** `updateSelectedCells`: clear every category, then add the entries. */
  function UpdateSelectedCells(cats: seq<Category>, sel: seq<Selection>): (r: seq<Category>)
    ensures SameCategories(r, cats) && Ids(r) == Ids(cats)
    ensures CellsNoDup(r)
  {
    AddEntriesNoDup(ClearCells(cats), sel);
    AddEntries(ClearCells(cats), sel)
  }

  /** The entry `s` sends cell `(row, col)` to category `k`. */
  predicate SendsTo(cats: seq<Category>, s: Selection, k: nat, row: int, col: int) {
    s.row == row && s.col == col && GetCategoryById(cats, OrDefault(s.categoryId)) == Some(k)
  }

  lemma {:induction false} AddEntriesNoDup(cats: seq<Category>, sel: seq<Selection>)
    requires CellsNoDup(cats)
    ensures CellsNoDup(AddEntries(cats, sel))
    decreases |sel|
  {
    if |sel| > 0 {
      AddEntriesNoDup(cats, sel[..|sel| - 1]);
    }
  }

  /** Some entry of `sel` sends cell `(row, col)` to category `k`. */
  predicate SentBy(cats: seq<Category>, sel: seq<Selection>, k: nat, row: int, col: int) {
    exists i :: 0 <= i < |sel| && SendsTo(cats, sel[i], k, row, col)
  }

  lemma SentBySnoc(cats: seq<Category>, sel: seq<Selection>, k: nat, row: int, col: int)
    requires |sel| > 0
    ensures SentBy(cats, sel, k, row, col)
            <==> SentBy(cats, sel[..|sel| - 1], k, row, col) || SendsTo(cats, sel[|sel| - 1], k, row, col)
  {
    var n := |sel| - 1;
    if SentBy(cats, sel[..n], k, row, col) {
      var i :| 0 <= i < n && SendsTo(cats, sel[..n][i], k, row, col);
      assert sel[i] == sel[..n][i];
    }
    if SentBy(cats, sel, k, row, col) {
      var i :| 0 <= i < |sel| && SendsTo(cats, sel[i], k, row, col);
      if i < n { assert sel[..n][i] == sel[i]; }
    }
  }

  lemma AddEntryMembers(cats: seq<Category>, s: Selection, k: nat, row: int, col: int)
    requires k < |cats|
    ensures HasCell(AddEntry(cats, s)[k], row, col)
            <==> HasCell(cats[k], row, col) || SendsTo(cats, s, k, row, col)
  {
  }

  /** Where an entry sends a cell depends only on the category ids. */
  lemma SendsToSameIds(a: seq<Category>, b: seq<Category>, s: Selection, k: nat, row: int, col: int)
    requires Ids(a) == Ids(b)
    ensures SendsTo(a, s, k, row, col) == SendsTo(b, s, k, row, col)
  {
    GetCategoryByIdIds(a, b, OrDefault(s.categoryId));
  }

  /** After applying entries, a category holds a cell exactly when it held it
      before or some entry sends that cell to it. */
  lemma {:induction false} AddEntriesMembers(cats: seq<Category>, sel: seq<Selection>, k: nat, row: int, col: int)
    requires k < |cats|
    ensures HasCell(AddEntries(cats, sel)[k], row, col)
            <==> HasCell(cats[k], row, col) || SentBy(cats, sel, k, row, col)
    decreases |sel|
  {
    if |sel| > 0 {
      var n := |sel| - 1;
      var prev := AddEntries(cats, sel[..n]);
      assert AddEntries(cats, sel) == AddEntry(prev, sel[n]);
      AddEntriesMembers(cats, sel[..n], k, row, col);
      AddEntryMembers(prev, sel[n], k, row, col);
      SendsToSameIds(prev, cats, sel[n], k, row, col);
      SentBySnoc(cats, sel, k, row, col);
    }
  }

  /** `updateSelectedCells` leaves category `k` holding exactly the cells the
      entries send to it: the previous selections play no part. */
  lemma UpdateSelectedCellsMembers(cats: seq<Category>, sel: seq<Selection>, k: nat, row: int, col: int)
    requires k < |cats|
    ensures HasCell(UpdateSelectedCells(cats, sel)[k], row, col) <==> SentBy(cats, sel, k, row, col)
  {
    AddEntriesMembers(ClearCells(cats), sel, k, row, col);
    forall i | 0 <= i < |sel| ensures SendsTo(cats, sel[i], k, row, col) == SendsTo(ClearCells(cats), sel[i], k, row, col) {
      GetCategoryByIdIds(cats, ClearCells(cats), OrDefault(sel[i].categoryId));
    }
    assert SentBy(cats, sel, k, row, col) == SentBy(ClearCells(cats), sel, k, row, col);
  }

  /** The flattened entries of one category, in insertion order. */
  function Tag(c: Category): (r: seq<Selection>)
    ensures |r| == |c.cells|
    ensures forall i :: 0 <= i < |r| ==> r[i] == Selection(c.cells[i].row, c.cells[i].col, c.id)
  {
    seq(|c.cells|, i requires 0 <= i < |c.cells| => Selection(c.cells[i].row, c.cells[i].col, c.id))
  }

  /** `getSelectedCells`: categories in order, each category's cells in insertion
      order, tagged with the category id. */
  function GetSelectedCells(cats: seq<Category>): (r: seq<Selection>)
    ensures forall i :: 0 <= i < |r| ==> HeldBy(cats, r[i])
    decreases |cats|
  {
    if |cats| == 0 then []
    else GetSelectedCells(cats[..|cats| - 1]) + Tag(cats[|cats| - 1])
  }

  /** Some category with the entry's id holds the entry's cell. */
  predicate HeldBy(cats: seq<Category>, s: Selection) {
    exists k :: 0 <= k < |cats| && cats[k].id == s.categoryId && HasCell(cats[k], s.row, s.col)
  }

  /** An entry is produced exactly for each (category, cell) pair. */
  lemma {:induction false} GetSelectedCellsMembers(cats: seq<Category>, s: Selection)
    ensures s in GetSelectedCells(cats) <==> HeldBy(cats, s)
    decreases |cats|
  {
    if |cats| > 0 {
      var n := |cats| - 1;
      var init, last := cats[..n], cats[n];
      GetSelectedCellsMembers(init, s);
      assert GetSelectedCells(cats) == GetSelectedCells(init) + Tag(last);
      TagMembers(last, s);
      assert HeldBy(cats, s) <==> HeldBy(init, s) || (last.id == s.categoryId && HasCell(last, s.row, s.col)) by {
        if HeldBy(cats, s) {
          var k :| 0 <= k < |cats| && cats[k].id == s.categoryId && HasCell(cats[k], s.row, s.col);
          if k < n { assert init[k] == cats[k]; }
        }
        if HeldBy(init, s) {
          var k :| 0 <= k < n && init[k].id == s.categoryId && HasCell(init[k], s.row, s.col);
          assert cats[k] == init[k];
        }
      }
    }
  }

  /** One category's entries are its own cells under its own id. */
  lemma TagMembers(c: Category, s: Selection)
    ensures s in Tag(c) <==> c.id == s.categoryId && HasCell(c, s.row, s.col)
  {
    if s in Tag(c) {
      var i :| 0 <= i < |Tag(c)| && Tag(c)[i] == s;
      assert c.cells[i] == Cell(s.row, s.col);
    }
    if HasCell(c, s.row, s.col) && c.id == s.categoryId {
      var i :| 0 <= i < |c.cells| && c.cells[i] == Cell(s.row, s.col);
      assert Tag(c)[i] == s;
    }
  }


  /** The annotation state `getSelectedCells` can rebuild: ids are distinct and
      non-empty, and no category lists a cell twice. */
  predicate WellFormed(cats: seq<Category>) {
    NoDup(Ids(cats)) && (forall k :: 0 <= k < |cats| ==> cats[k].id != "") && CellsNoDup(cats)
  }

  lemma {:induction false} AddEntriesAppend(cats: seq<Category>, a: seq<Selection>, b: seq<Selection>)
    ensures AddEntries(cats, a + b) == AddEntries(AddEntries(cats, a), b)
    decreases |b|
  {
    if |b| == 0 {
      assert a + b == a;
    } else {
      var n := |b| - 1;
      assert (a + b)[..|a + b| - 1] == a + b[..n];
      AddEntriesAppend(cats, a, b[..n]);
    }
  }

  /** `state` with category `m` replaced by `c` holding its first `t` cells. */
  function Partial(state: seq<Category>, c: Category, m: nat, t: nat): seq<Category>
    requires m < |state| && t <= |c.cells|
  {
    state[m := c.(cells := c.cells[..t])]
  }

  /** The first `t` cells of category `m` re-added to a state holding that
      category with no cells. */
  lemma {:induction false} AddTagPrefix(state: seq<Category>, c: Category, m: nat, t: nat)
    requires m < |state| && t <= |c.cells| && NoDup(c.cells)
    requires NoDup(Ids(state)) && state[m].id == c.id && c.id != ""
    requires SameInfo(state[m], c) && state[m].cells == []
    ensures AddEntries(state, Tag(c)[..t]) == Partial(state, c, m, t)
    decreases t
  {
    if t == 0 {
      assert Partial(state, c, m, 0) == state;
    } else {
      AddTagPrefix(state, c, m, t - 1);
      AddTagStep(state, c, m, t);
      PrefixOfPrefix(Tag(c), t, t - 1);
    }
  }

  /** Re-adding cell `t - 1` extends the partial state by that cell. */
  lemma AddTagStep(state: seq<Category>, c: Category, m: nat, t: nat)
    requires m < |state| && 0 < t <= |c.cells| && NoDup(c.cells)
    requires NoDup(Ids(state)) && state[m].id == c.id && c.id != ""
    ensures AddEntry(Partial(state, c, m, t - 1), Tag(c)[t - 1]) == Partial(state, c, m, t)
  {
    var prev := Partial(state, c, m, t - 1);
    var x := c.cells[t - 1];
    assert Tag(c)[t - 1] == Selection(x.row, x.col, c.id);
    assert Ids(prev) == Ids(state);
    NoDupLastFresh(c.cells, t);
    AddEntryAppends(prev, m, x);
    PrefixSnoc(c.cells, t);
  }

  /** An entry for a category's own id and a cell it lacks appends the cell
      to that category. */
  lemma AddEntryAppends(cats: seq<Category>, m: nat, x: Cell)
    requires m < |cats| && NoDup(Ids(cats)) && cats[m].id != "" && x !in cats[m].cells
    ensures AddEntry(cats, Selection(x.row, x.col, cats[m].id)) == cats[m := cats[m].(cells := cats[m].cells + [x])]
  {
    GetCategoryByIdDistinct(cats, m);
  }

  /** The first `m` categories re-added to the cleared state. */
  function Restored(cats: seq<Category>, m: nat): seq<Category>
    requires m <= |cats|
  {
    seq(|cats|, k requires 0 <= k < |cats| => if k < m then cats[k] else cats[k].(cells := []))
  }

  lemma {:induction false} RebuildPrefix(cats: seq<Category>, m: nat)
    requires WellFormed(cats) && m <= |cats|
    ensures AddEntries(ClearCells(cats), GetSelectedCells(cats[..m])) == Restored(cats, m)
    decreases m
  {
    if m == 0 {
      assert Restored(cats, 0) == ClearCells(cats);
    } else {
      var n := m - 1;
      SelectedOfPrefix(cats, m);
      AddEntriesAppend(ClearCells(cats), GetSelectedCells(cats[..n]), Tag(cats[n]));
      RebuildPrefix(cats, n);
      AddRestoredTag(cats, n);
    }
  }

  lemma SelectedOfPrefix(cats: seq<Category>, m: nat)
    requires 0 < m <= |cats|
    ensures GetSelectedCells(cats[..m]) == GetSelectedCells(cats[..m - 1]) + Tag(cats[m - 1])
  {
    assert cats[..m][..m - 1] == cats[..m - 1];
  }

  /** Re-adding the entries of category `n` to the state restored up to `n`
      restores it up to `n + 1`. */
  lemma AddRestoredTag(cats: seq<Category>, n: nat)
    requires WellFormed(cats) && n < |cats|
    ensures AddEntries(Restored(cats, n), Tag(cats[n])) == Restored(cats, n + 1)
  {
    var c := cats[n];
    var state := Restored(cats, n);
    assert Ids(state) == Ids(cats);
    assert Tag(c)[..|c.cells|] == Tag(c);
    AddTagPrefix(state, c, n, |c.cells|);
    assert c.cells[..|c.cells|] == c.cells;
    assert Partial(state, c, n, |c.cells|) == Restored(cats, n + 1);
  }

  /** Feeding `getSelectedCells` back into `updateSelectedCells` leaves a
      well-formed annotation state unchanged. */
  lemma UpdateWithOwnSelections(cats: seq<Category>)
    requires WellFormed(cats)
    ensures UpdateSelectedCells(cats, GetSelectedCells(cats)) == cats
  {
    RebuildPrefix(cats, |cats|);
    assert cats[..|cats|] == cats;
    assert Restored(cats, |cats|) == cats;
  }

  // ---------------------------------------------------------------------------
  // Toggle (image-processor.js:175-186)

  /** The cell toggled in one category: removed when present, appended when absent. */
  function ToggleCell(c: Category, row: int, col: int): (r: Category)
    ensures SameInfo(r, c)
    ensures NoDup(c.cells) ==> (HasCell(r, row, col) <==> !HasCell(c, row, col))
    ensures forall x :: x != Cell(row, col) ==> (x in r.cells <==> x in c.cells)
    ensures NoDup(c.cells) ==> NoDup(r.cells)
  {
    var k := IndexOf(c.cells, Cell(row, col));
    if k != -1 then
      RemoveAtNoDup(c.cells, k);
      RemoveAtOthers(c.cells, k);
      c.(cells := RemoveAt(c.cells, k))
    else
      c.(cells := c.cells + [Cell(row, col)])
  }

  lemma RemoveAtOthers<T>(s: seq<T>, i: nat)
    requires i < |s|
    ensures forall k :: 0 <= k < |RemoveAt(s, i)| ==> RemoveAt(s, i)[k] in s
  {
    var r := RemoveAt(s, i);
    forall j | 0 <= j < |r| ensures r[j] in s {
      if j < i { assert s[j] == r[j]; } else { assert s[j + 1] == r[j]; }
    }
  }

  /** Category `k` of `after` is category `k` of `before` with cell `x` toggled;
      every other category is untouched. */
  ghost predicate Toggled(before: seq<Category>, after: seq<Category>, k: nat, x: Cell) {
    && k < |before| && |after| == |before|
    && (forall j :: 0 <= j < |before| && j != k ==> after[j] == before[j])
    && SameInfo(after[k], before[k])
    && (x in after[k].cells <==> x !in before[k].cells)
    && (forall y :: y != x ==> (y in after[k].cells <==> y in before[k].cells))
  }

  /** `addSelectedCell`: toggles the cell in the category the id resolves to;
      reports false only when there is no category at all. */
  function AddSelectedCell(cats: seq<Category>, row: int, col: int, id: string): (r: (seq<Category>, bool))
    ensures r.1 <==> |cats| > 0
    ensures SameCategories(r.0, cats) && Ids(r.0) == Ids(cats)
    ensures !r.1 ==> r.0 == cats
    ensures r.1 && CellsNoDup(cats) ==> Toggled(cats, r.0, GetCategoryById(cats, id).value, Cell(row, col))
    ensures CellsNoDup(cats) ==> CellsNoDup(r.0)
  {
    match GetCategoryById(cats, id)
    case None => (cats, false)
    case Some(k) => (cats[k := ToggleCell(cats[k], row, col)], true)
  }

  /** Toggling a cell that the category did not hold, twice, restores the
      category list exactly. */
  lemma {:induction false} ToggleTwiceAbsent(cats: seq<Category>, row: int, col: int, id: string)
    requires |cats| > 0 && CellsNoDup(cats)
    requires !HasCell(cats[GetCategoryById(cats, id).value], row, col)
    ensures AddSelectedCell(AddSelectedCell(cats, row, col, id).0, row, col, id).0 == cats
  {
    var k := GetCategoryById(cats, id).value;
    var once := AddSelectedCell(cats, row, col, id).0;
    GetCategoryByIdIds(once, cats, id);
    var c := once[k];
    assert c.cells == cats[k].cells + [Cell(row, col)];
    var j := IndexOf(c.cells, Cell(row, col));
    assert c.cells[|cats[k].cells|] == Cell(row, col);
    assert j == |cats[k].cells|;
    assert RemoveAt(c.cells, j) == cats[k].cells;
  }

  /** Toggling a cell the category held, twice, keeps the same cells but
      moves that cell to the end of the category's list. */
  lemma {:induction false} ToggleTwicePresent(cats: seq<Category>, row: int, col: int, id: string)
    requires |cats| > 0 && CellsNoDup(cats)
    requires HasCell(cats[GetCategoryById(cats, id).value], row, col)
    ensures var k := GetCategoryById(cats, id).value;
            var twice := AddSelectedCell(AddSelectedCell(cats, row, col, id).0, row, col, id).0;
            && (forall j :: 0 <= j < |cats| && j != k ==> twice[j] == cats[j])
            && twice[k].cells == RemoveAll(cats[k].cells, Cell(row, col)) + [Cell(row, col)]
  {
    var k := GetCategoryById(cats, id).value;
    var once := AddSelectedCell(cats, row, col, id).0;
    GetCategoryByIdIds(once, cats, id);
    var c := cats[k];
    var i := IndexOf(c.cells, Cell(row, col));
    RemoveAtNoDup(c.cells, i);
    assert once[k].cells == RemoveAt(c.cells, i);
    RemoveAtIsRemoveAll(c.cells, i);
  }

  /** In a duplicate-free list, removing the position of a value removes every occurrence of it. */
  lemma {:induction false} RemoveAtIsRemoveAll<T>(s: seq<T>, i: nat)
    requires i < |s| && NoDup(s)
    ensures RemoveAt(s, i) == RemoveAll(s, s[i])
    decreases |s|
  {
    var n := |s| - 1;
    var init := s[..n];
    assert s == init + [s[n]];
    if i < n {
      NoDupPrefix(s, n);
      RemoveAtIsRemoveAll(init, i);
      assert RemoveAt(s, i) == RemoveAt(init, i) + [s[n]];
      assert s[n] != s[i];
      assert RemoveAll(s, s[i]) == RemoveAll(init, s[i]) + [s[n]];
    } else {
      NoDupLastFresh(s, |s|);
      assert RemoveAll(s, s[i]) == RemoveAll(init, s[i]);
    }
  }

  // ---------------------------------------------------------------------------
  // Category creation and deletion (image-processor.js:210-240)

  /** `addSelectionCategory`: appends a category with the derived id and no cells,
      unless a category with that id exists, in which case nothing changes. */
  function AddSelectionCategory(cats: seq<Category>, name: string, color: string): (r: (seq<Category>, bool))
    ensures r.1 <==> Slug.Slugify(name) !in Ids(cats)
    ensures r.1 ==> r.0 == cats + [Category(Slug.Slugify(name), name, color, [])]
    ensures !r.1 ==> r.0 == cats
    ensures NoDup(Ids(cats)) ==> NoDup(Ids(r.0))
  {
    var id := Slug.Slugify(name);
    if IndexOf(Ids(cats), id) == -1 then
      var r := cats + [Category(id, name, color, [])];
      assert Ids(r) == Ids(cats) + [id];
      (r, true)
    else (cats, false)
  }

  /** `removeSelectionCategory`: removes the first category with this id, but only
      when more than one category exists and that category has no cells. */
  function RemoveSelectionCategory(cats: seq<Category>, id: string): (r: (seq<Category>, bool))
    ensures r.1 <==> |cats| > 1 && id in Ids(cats) && cats[IndexOf(Ids(cats), id)].cells == []
    ensures !r.1 ==> r.0 == cats
    ensures r.1 ==> r.0 == RemoveAt(cats, IndexOf(Ids(cats), id))
    ensures |cats| > 0 ==> |r.0| > 0
  {
    if |cats| <= 1 then (cats, false)
    else
      var k := IndexOf(Ids(cats), id);
      if k != -1 then
        if |cats[k].cells| > 0 then (cats, false)
        else (RemoveAt(cats, k), true)
      else (cats, false)
  }

  /** A category that holds cells is never removed, whatever else holds. */
  lemma RemoveInUseRefused(cats: seq<Category>, id: string, row: int, col: int)
    requires id in Ids(cats) && HasCell(cats[IndexOf(Ids(cats), id)], row, col)
    ensures RemoveSelectionCategory(cats, id) == (cats, false)
  {
  }

  /** A successful removal leaves every other category, in order, and no entry
      of `getSelectedCells` is lost by it. */
  lemma RemoveKeepsSelections(cats: seq<Category>, id: string)
    requires RemoveSelectionCategory(cats, id).1
    ensures GetSelectedCells(RemoveSelectionCategory(cats, id).0) == GetSelectedCells(cats)
  {
    var k := IndexOf(Ids(cats), id);
    SkipEmptyCategory(cats, k);
  }

  /** A category without cells contributes nothing to `getSelectedCells`. */
  lemma SkipEmptyCategory(cats: seq<Category>, k: nat)
    requires k < |cats| && cats[k].cells == []
    ensures GetSelectedCells(RemoveAt(cats, k)) == GetSelectedCells(cats)
  {
    var a, b := cats[..k], cats[k + 1..];
    var ac := a + [cats[k]];
    assert cats == ac + b;
    assert RemoveAt(cats, k) == a + b;
    GetSelectedCellsConcat(ac, b);
    GetSelectedCellsConcat(a, b);
    assert ac[..|ac| - 1] == a;
    assert Tag(cats[k]) == [];
    assert GetSelectedCells(ac) == GetSelectedCells(a);
  }

  lemma {:induction false} GetSelectedCellsConcat(a: seq<Category>, b: seq<Category>)
    ensures GetSelectedCells(a + b) == GetSelectedCells(a) + GetSelectedCells(b)
    decreases |b|
  {
    if |b| == 0 {
      assert a + b == a;
    } else {
      var n := |b| - 1;
      assert (a + b)[..|a + b| - 1] == a + b[..n];
      assert (a + b)[|a + b| - 1] == b[n];
      GetSelectedCellsConcat(a, b[..n]);
      assert GetSelectedCells(a + b) == GetSelectedCells(a + b[..n]) + Tag(b[n]);
      assert GetSelectedCells(b) == GetSelectedCells(b[..n]) + Tag(b[n]);
    }
  }

  // ---------------------------------------------------------------------------
  // Default grid lines (image-processor.js:117-154)

  /** The number of equal strips the default grid divides an image into. */
  const GridDivisions: nat := 3

  /** The default lines of an axis of extent `dim`: the inner boundaries of
      `GridDivisions` equal strips (exact arithmetic). */
  function DefaultLinesOf(dim: real): (r: seq<real>)
    requires dim >= 0.0
    ensures dim == 0.0 <==> r == []
    ensures dim > 0.0 ==> |r| == GridDivisions - 1
    ensures forall k :: 0 <= k < |r| ==> r[k] == (k + 1) as real * (dim / GridDivisions as real)
    ensures forall k :: 0 <= k < |r| ==> 0.0 < r[k] < dim
  {
    if dim == 0.0 then [] else [dim / 3.0, 2.0 * (dim / 3.0)]
  }

  /** `initializeVerticalLines` / `initializeHorizontalLines`: lines at successive
      multiples of `dim / 3` strictly below `dim` (exact arithmetic). */
  method DefaultLines(dim: real) returns (lines: seq<real>)
    requires dim >= 0.0
    ensures lines == DefaultLinesOf(dim)
    ensures dim == 0.0 ==> lines == []
    ensures dim > 0.0 ==> |lines| == GridDivisions - 1
    ensures forall k :: 0 <= k < |lines| ==> lines[k] == (k + 1) as real * (dim / GridDivisions as real)
    ensures forall k :: 0 <= k < |lines| ==> 0.0 < lines[k] < dim
  {
    var step := dim / GridDivisions as real;
    assert dim == 3.0 * step;
    lines := [];
    var i := step;
    var n: nat := 1;
    while i < dim
      invariant 1 <= n <= GridDivisions
      invariant i == n as real * step
      invariant n == GridDivisions ==> i == dim
      invariant dim == 0.0 ==> n == 1
      invariant |lines| == n - 1
      invariant forall k :: 0 <= k < |lines| ==> lines[k] == (k + 1) as real * step
      invariant forall k :: 0 <= k < |lines| ==> 0.0 < lines[k] < dim
      decreases GridDivisions - n
    {
      assert step > 0.0;
      lines := lines + [i];
      i := i + step;
      n := n + 1;
    }
    if dim > 0.0 {
      assert lines == [lines[0], lines[1]];
    }
  }

  // ---------------------------------------------------------------------------
  // The image record and its constructor (image-processor.js:49-73, 241-262)

  /** The options `ImageProcessor` is built from; a missing (or null) option is None. */
  datatype Options = Options(url: string, name: Option<string>,
                             vertical: Option<seq<real>>, horizontal: Option<seq<real>>,
                             luminance: Option<seq<seq<real>>>, blurred: Option<string>,
                             categories: Option<seq<CategoryInfo>>, selected: Option<seq<Selection>>)

  /** An image: its source URL, name, grid lines, luminance matrix (None for
      null), blurred copy (None for null) and categories. */
  datatype Image = Image(url: string, name: Option<string>,
                         vertical: seq<real>, horizontal: seq<real>,
                         luminance: Option<seq<seq<real>>>, blurred: Option<string>,
                         categories: seq<Category>)

  /** The categories an image gets when none are given. */
  const DefaultCategories: seq<CategoryInfo> :=
    [CategoryInfo("epidermis", "Эпидермис", "#00C46D"), CategoryInfo("dermis", "Дерма", "#FFC107")]

  /** `new Category(id, name, color)` for each triple: no cells yet. */
  function FromInfos(infos: seq<CategoryInfo>): (r: seq<Category>)
    ensures |r| == |infos|
    ensures forall k :: 0 <= k < |r| ==> r[k] == Category(infos[k].id, infos[k].name, infos[k].color, [])
  {
    seq(|infos|, k requires 0 <= k < |infos| => Category(infos[k].id, infos[k].name, infos[k].color, []))
  }

  /** Rebuilding categories from their triples gives the categories with their
      cells cleared. */
  lemma FromInfosOfInfos(cats: seq<Category>)
    ensures FromInfos(Infos(cats)) == ClearCells(cats)
  {
  }

  /** The constructor: missing lines become empty lists, a missing luminance
      and a missing or empty blurred URL become null, missing categories become
      the two defaults, and the given entries are applied to the fresh
      categories as `initializeSelectedCells` does. A given empty list is kept:
      an empty array is truthy. */
  function Create(o: Options): (r: Image)
    ensures r.url == o.url && r.name == o.name && r.luminance == o.luminance
    ensures r.vertical == (if o.vertical.Some? then o.vertical.value else [])
    ensures r.horizontal == (if o.horizontal.Some? then o.horizontal.value else [])
    ensures r.blurred.Some? <==> o.blurred.Some? && o.blurred.value != ""
    ensures r.blurred.Some? ==> r.blurred == o.blurred
    ensures Infos(r.categories) == (if o.categories.Some? then o.categories.value else DefaultCategories)
    ensures o.selected.None? || o.selected.value == [] ==> forall k :: 0 <= k < |r.categories| ==> r.categories[k].cells == []
  {
    var infos := if o.categories.Some? then o.categories.value else DefaultCategories;
    var sel := if o.selected.Some? then o.selected.value else [];
    var cats := AddEntries(FromInfos(infos), sel);
    assert SameCategories(cats, FromInfos(infos));
    Image(o.url, o.name,
          if o.vertical.Some? then o.vertical.value else [],
          if o.horizontal.Some? then o.horizontal.value else [],
          o.luminance,
          if o.blurred.Some? && o.blurred.value != "" then o.blurred else None,
          cats)
  }

  /** A created image's category `k` holds exactly the cells the given entries
      send to it, each once: the fresh categories start empty. */
  lemma CreateMembers(o: Options, k: nat, row: int, col: int)
    requires o.selected.Some?
    requires k < |Create(o).categories|
    ensures var infos := if o.categories.Some? then o.categories.value else DefaultCategories;
            HasCell(Create(o).categories[k], row, col) <==> SentBy(FromInfos(infos), o.selected.value, k, row, col)
    ensures CellsNoDup(Create(o).categories)
  {
    var infos := if o.categories.Some? then o.categories.value else DefaultCategories;
    var blank := FromInfos(infos);
    assert Create(o).categories == AddEntries(blank, o.selected.value);
    AddEntriesMembers(blank, o.selected.value, k, row, col);
    assert !HasCell(blank[k], row, col);
    AddEntriesNoDup(blank, o.selected.value);
  }

  /** The `selectedCells` getter: an entry for exactly each cell a category
      of the image holds, under that category's id. */
  function SelectedCells(img: Image): (r: seq<Selection>)
    ensures forall s :: s in r <==>
              exists k :: 0 <= k < |img.categories| && img.categories[k].id == s.categoryId
                          && HasCell(img.categories[k], s.row, s.col)
  {
    forall s ensures s in GetSelectedCells(img.categories) <==>
                     exists k :: 0 <= k < |img.categories| && img.categories[k].id == s.categoryId
                                 && HasCell(img.categories[k], s.row, s.col) {
      GetSelectedCellsMembers(img.categories, s);
    }
    GetSelectedCells(img.categories)
  }

  /** The image-load step of `create`: once the element has loaded with its
      natural size, an empty line list receives the default lines for that
      extent; a non-empty one is kept. */
  function FinishLoading(img: Image, size: Size): (r: Image)
    ensures r == img.(vertical := r.vertical, horizontal := r.horizontal)
    ensures img.vertical != [] ==> r.vertical == img.vertical
    ensures img.horizontal != [] ==> r.horizontal == img.horizontal
    ensures img.vertical == [] && size.width > 0 ==> |r.vertical| == GridDivisions - 1
    ensures img.horizontal == [] && size.height > 0 ==> |r.horizontal| == GridDivisions - 1
    ensures forall k :: 0 <= k < |r.vertical| && img.vertical == [] ==> 0.0 < r.vertical[k] < size.width as real
    ensures forall k :: 0 <= k < |r.horizontal| && img.horizontal == [] ==> 0.0 < r.horizontal[k] < size.height as real
  {
    img.(vertical := if img.vertical == [] then DefaultLinesOf(size.width as real) else img.vertical,
         horizontal := if img.horizontal == [] then DefaultLinesOf(size.height as real) else img.horizontal)
  }

  /** Loading an image a second time at the same size changes nothing: lines
      it received are kept, and an axis of extent zero receives none again. */
  lemma FinishLoadingIdempotent(img: Image, size: Size)
    ensures FinishLoading(FinishLoading(img, size), size) == FinishLoading(img, size)
  {
  }

  /** The prefix `blurImage` puts before the server's base64 answer. */
  const BlurredPrefix: string := "data:image/png;base64,"

  /** `ImageProcessor.create`: the constructor; then, when no non-empty blurred
      copy was given, the blur request, whose base64 answer becomes the blurred
      copy's data URL; then the element load. `blurAnswer` is the server's
      answer (None: the request failed) and `size` the element's natural size
      (None: the load failed); either failure rejects, which is None here. */
  function CreateLoaded(o: Options, blurAnswer: Option<string>, size: Option<Size>): (r: Option<Image>)
    ensures r.None? <==> size.None? || (Create(o).blurred.None? && blurAnswer.None?)
    ensures r.Some? ==> r.value.url == o.url && r.value.name == o.name && r.value.luminance == o.luminance
    ensures r.Some? ==> r.value.categories == Create(o).categories
    ensures r.Some? && Create(o).blurred.Some? ==> r.value.blurred == Create(o).blurred
    ensures r.Some? && Create(o).blurred.None? ==> r.value.blurred == Some(BlurredPrefix + blurAnswer.value)
    ensures r.Some? ==> r.value.blurred.Some? && r.value.blurred.value != ""
    ensures r.Some? && Create(o).vertical != [] ==> r.value.vertical == Create(o).vertical
    ensures r.Some? && Create(o).horizontal != [] ==> r.value.horizontal == Create(o).horizontal
    ensures r.Some? && Create(o).vertical == [] ==> r.value.vertical == DefaultLinesOf(size.value.width as real)
    ensures r.Some? && Create(o).horizontal == [] ==> r.value.horizontal == DefaultLinesOf(size.value.height as real)
  {
    var img := Create(o);
    if img.blurred.None? && blurAnswer.None? then None
    else if size.None? then None
    else
      var blurred := if img.blurred.Some? then img.blurred else Some(BlurredPrefix + blurAnswer.value);
      Some(FinishLoading(img.(blurred := blurred), size.value))
  }
}

=== FILE: image_service.dfy ===
/** The image list and the JSON persistence of `image-service.js`: which file
    names are accepted as images, how a save maps an image to its JSON fields
    and its download name, and how a load maps those fields back to an image.
    File reading, EXIF extraction, JSON text and the download itself are not
    modelled: a saved document is its parsed field structure. */
module ImageService {
  import opened Common
  import IP = ImageProcessor

  // ---------------------------------------------------------------------------
  // File type check (image-service.js:13-16)

  /** ASCII lower-casing: the case folding of a regular expression with the
      `i` flag and without the `u` flag maps no other character onto a
      letter of the extensions. */
  function AsciiLower(c: char): (d: char)
    ensures 'A' <= c <= 'Z' ==> d as int == c as int + 32
    ensures !('A' <= c <= 'Z') ==> d == c
  {
    if 'A' <= c <= 'Z' then (c as int + 32) as char else c
  }

  function LowerAscii(s: string): (r: string)
    ensures |r| == |s|
    ensures forall i :: 0 <= i < |s| ==> r[i] == AsciiLower(s[i])
  {
    seq(|s|, i requires 0 <= i < |s| => AsciiLower(s[i]))
  }

  /** The accepted extensions. */
  const Extensions: seq<string> := [".jpg", ".jpeg", ".png", ".gif"]

  /** `name` ends with `ext`, ignoring ASCII case. */
  predicate EndsWithIgnoringCase(name: string, ext: string) {
    |name| >= |ext| && LowerAscii(name[|name| - |ext|..]) == ext
  }

  /** `validateFileType`: the name ends in one of the accepted extensions,
      in any mix of cases. */
  function ValidateFileType(name: string): (ok: bool)
    ensures ok <==> exists k :: 0 <= k < |Extensions| && EndsWithIgnoringCase(name, Extensions[k])
  {
    assert Extensions[0] == ".jpg" && Extensions[1] == ".jpeg" && Extensions[2] == ".png" && Extensions[3] == ".gif";
    EndsWithIgnoringCase(name, ".jpg") || EndsWithIgnoringCase(name, ".jpeg")
    || EndsWithIgnoringCase(name, ".png") || EndsWithIgnoringCase(name, ".gif")
  }

  /** Lower-casing a name does not change whether it is accepted. */
  lemma ValidateIgnoresCase(name: string)
    ensures ValidateFileType(LowerAscii(name)) == ValidateFileType(name)
  {
    forall k | 0 <= k < |Extensions|
      ensures EndsWithIgnoringCase(LowerAscii(name), Extensions[k]) == EndsWithIgnoringCase(name, Extensions[k])
    {
      EndsWithLowered(name, Extensions[k]);
    }
  }

  lemma EndsWithLowered(name: string, e: string)
    ensures EndsWithIgnoringCase(LowerAscii(name), e) == EndsWithIgnoringCase(name, e)
  {
    var low := LowerAscii(name);
    if |name| >= |e| {
      var a, b := LowerAscii(low[|low| - |e|..]), LowerAscii(name[|name| - |e|..]);
      forall i | 0 <= i < |a| ensures a[i] == b[i] {
        assert low[|low| - |e|..][i] == AsciiLower(name[|name| - |e|..][i]);
      }
      assert a == b;
    }
  }

  /** Any stem followed by an accepted extension, in any case, is accepted. */
  lemma ValidateAcceptsUpperCase(stem: string)
    ensures ValidateFileType(stem + ".PNG")
  {
    var png := stem + ".PNG";
    assert png[|png| - 4..] == ".PNG";
    var low := LowerAscii(".PNG");
    assert low[0] == '.' && low[1] == 'p' && low[2] == 'n' && low[3] == 'g';
    assert low == ".png";
    assert EndsWithIgnoringCase(png, Extensions[2]);
  }

  /** A `.json` name is not an image name, so the drop handler can route it
      to the loader first. */
  lemma ValidateRejectsJson(stem: string)
    ensures !ValidateFileType(stem + ".json")
  {
    var json := stem + ".json";
    var last4 := LowerAscii(json[|json| - 4..]);
    var last5 := LowerAscii(json[|json| - 5..]);
    assert json[|json| - 4..][0] == 'j';
    assert json[|json| - 5..][2] == 's';
    assert last4[0] == 'j' && last5[2] == 's';
    assert last4 != ".jpg" && last4 != ".png" && last4 != ".gif" by {
      assert ".jpg"[0] == '.' && ".png"[0] == '.' && ".gif"[0] == '.';
    }
    assert last5 != ".jpeg" by {
      assert ".jpeg"[2] == 'p';
    }
  }

  // ---------------------------------------------------------------------------
  // The image list (image-service.js:9-11)

  /** `addImages`: the new images after the existing ones, both in order. */
  function AddImages(images: seq<IP.Image>, added: seq<IP.Image>): (r: seq<IP.Image>)
    ensures |r| == |images| + |added|
    ensures r[..|images|] == images && r[|images|..] == added
  {
    images + added
  }

  // ---------------------------------------------------------------------------
  // Saving (image-service.js:74-105)

  /** The saved document's fields: `originalImage`, `blurredImage` and the
      metadata's luminance, lines, selections, categories and name. The
      timestamp is not modelled. */
  datatype Saved = Saved(original: string, blurred: Option<string>, luminance: Option<seq<seq<real>>>,
                         vertical: seq<real>, horizontal: seq<real>,
                         selected: seq<IP.Selection>, categories: seq<IP.CategoryInfo>,
                         name: Option<string>)

  /** The part of `s` before its first `.` (`s.split('.')[0]`). */
  function BeforeDot(s: string): (r: string)
    ensures '.' !in r && |r| <= |s|
    ensures r == s[..|r|]
    ensures |r| < |s| ==> s[|r|] == '.'
  {
    if |s| == 0 || s[0] == '.' then "" else [s[0]] + BeforeDot(s[1..])
  }

  const Suffix: string := "_data.json"
  const FallbackName: string := "image_data.json"

  /** The download name: the name up to its first `.` followed by `_data.json`,
      or `image_data.json` for a missing or empty name. */
  function DownloadName(name: Option<string>): (r: string)
    ensures name.None? || name.value == "" ==> r == FallbackName
    ensures name.Some? && name.value != "" ==> r == BeforeDot(name.value) + Suffix
  {
    if name.Some? && name.value != "" then BeforeDot(name.value) + Suffix else FallbackName
  }

  /** A name with one extension loses the extension. */
  lemma DownloadNameDropsExtension(stem: string, ext: string)
    requires stem != "" && '.' !in stem
    ensures DownloadName(Some(stem + "." + ext)) == stem + Suffix
  {
    BeforeDotOfStem(stem, "." + ext);
    assert stem + "." + ext == stem + ("." + ext);
  }

  lemma {:induction false} BeforeDotOfStem(stem: string, rest: string)
    requires '.' !in stem && |rest| > 0 && rest[0] == '.'
    ensures BeforeDot(stem + rest) == stem
    decreases |stem|
  {
    if |stem| > 0 {
      assert (stem + rest)[1..] == stem[1..] + rest;
      BeforeDotOfStem(stem[1..], rest);
      assert stem == [stem[0]] + stem[1..];
    } else {
      assert stem + rest == rest;
    }
  }

  /** `saveImageWithMetadata`: nothing for a missing image; otherwise the given
      selections (an array, even an empty one, counts as given) first replace
      the image's, then the document is built from the image and named. The
      updated image is returned with the document. */
  function Save(img: Option<IP.Image>, sel: Option<seq<IP.Selection>>): (r: Option<(IP.Image, Saved, string)>)
    ensures r.None? <==> img.None?
    ensures r.Some? ==> var (img2, doc, file) := r.value;
            && img2 == img.value.(categories := img2.categories)
            && (sel.None? ==> img2 == img.value)
            && (sel.Some? ==> img2.categories == IP.UpdateSelectedCells(img.value.categories, sel.value))
            && doc.selected == IP.GetSelectedCells(img2.categories)
            && doc.categories == IP.Infos(img2.categories)
            && doc.original == img2.url && doc.blurred == img2.blurred && doc.luminance == img2.luminance
            && doc.vertical == img2.vertical && doc.horizontal == img2.horizontal && doc.name == img2.name
            && file == DownloadName(img2.name)
  {
    if img.None? then None
    else
      var i := img.value;
      var i2 := if sel.Some? then i.(categories := IP.UpdateSelectedCells(i.categories, sel.value)) else i;
      var doc := Saved(i2.url, i2.blurred, i2.luminance, i2.vertical, i2.horizontal,
                       IP.GetSelectedCells(i2.categories), IP.Infos(i2.categories), i2.name);
      Some((i2, doc, DownloadName(i2.name)))
  }

  /** With the given selections, the saved entries are exactly the given ones
      that land in a category (each `(row, col)` once per category). */
  lemma SaveWritesGivenSelections(img: IP.Image, sel: seq<IP.Selection>, s: IP.Selection)
    ensures var doc := Save(Some(img), Some(sel)).value.1;
            var cats := IP.UpdateSelectedCells(img.categories, sel);
            s in doc.selected <==> exists k :: 0 <= k < |cats| && cats[k].id == s.categoryId && IP.HasCell(cats[k], s.row, s.col)
  {
    IP.GetSelectedCellsMembers(IP.UpdateSelectedCells(img.categories, sel), s);
  }

  // ---------------------------------------------------------------------------
  // Loading (image-service.js:47-72)

  /** The constructor options `loadImageData` builds from a parsed document. */
  function DocOptions(d: Saved): IP.Options {
    IP.Options(d.original, d.name, Some(d.vertical), Some(d.horizontal), d.luminance,
               d.blurred, Some(d.categories), Some(d.selected))
  }

  /** `loadImageData`: a document that does not parse (None) rejects and yields
      no image; otherwise `ImageProcessor.create` runs on the document's fields,
      with `blurAnswer` the blur server's answer should it be asked and `size`
      the loaded element's natural size (None: the load failed). */
  function Load(doc: Option<Saved>, blurAnswer: Option<string>, size: Option<Size>): (r: Option<IP.Image>)
    ensures r.Some? ==> doc.Some? && size.Some?
    ensures doc.Some? ==> r == IP.CreateLoaded(DocOptions(doc.value), blurAnswer, size)
  {
    if doc.None? then None
    else IP.CreateLoaded(DocOptions(doc.value), blurAnswer, size)
  }

  /** The images the application holds: well-formed categories and a blurred
      URL that is absent or non-empty (the constructor stores an empty one as
      null). */
  predicate ValidImage(img: IP.Image) {
    IP.WellFormed(img.categories) && (img.blurred.Some? ==> img.blurred.value != "")
  }

  /** The constructor rebuilds the saved image from the saved document:
      lines, luminance, name, URLs and every category with its cells in order. */
  lemma CreateFromSaved(img: IP.Image, sel: Option<seq<IP.Selection>>)
    requires ValidImage(img)
    ensures var (img2, doc, _) := Save(Some(img), sel).value;
            IP.Create(DocOptions(doc)) == img2
  {
    var (img2, doc, _) := Save(Some(img), sel).value;
    var cats := img2.categories;
    assert IP.WellFormed(cats) by {
      if sel.Some? {
        assert IP.Ids(cats) == IP.Ids(img.categories);
        forall k | 0 <= k < |cats| ensures cats[k].id != "" {
          assert IP.Ids(cats)[k] == cats[k].id && IP.Ids(img.categories)[k] == img.categories[k].id;
        }
      }
    }
    var created := IP.Create(DocOptions(doc));
    IP.FromInfosOfInfos(cats);
    IP.UpdateWithOwnSelections(cats);
    assert created.categories == IP.AddEntries(IP.ClearCells(cats), IP.GetSelectedCells(cats));
    assert IP.AddEntries(IP.ClearCells(cats), IP.GetSelectedCells(cats)) == IP.UpdateSelectedCells(cats, IP.GetSelectedCells(cats));
  }

  /** Loading what was saved gives back the saved image once its element has
      loaded, except that an axis saved without lines receives the default
      lines for the loaded size. An image with a blurred copy asks the server
      nothing, so the blur answer does not matter. */
  lemma SaveThenLoadLoaded(img: IP.Image, sel: Option<seq<IP.Selection>>, blurAnswer: Option<string>, size: Size)
    requires ValidImage(img) && img.blurred.Some?
    ensures var (img2, doc, _) := Save(Some(img), sel).value;
            Load(Some(doc), blurAnswer, Some(size)) == Some(IP.FinishLoading(img2, size))
  {
    var (img2, doc, _) := Save(Some(img), sel).value;
    CreateFromSaved(img, sel);
    var created := IP.Create(DocOptions(doc));
    assert created.blurred.Some? && created == img2;
    assert IP.CreateLoaded(DocOptions(doc), blurAnswer, Some(size)) == Some(IP.FinishLoading(created.(blurred := created.blurred), size));
  }

  /** For an image with lines on both axes the round trip is exact. */
  lemma SaveThenLoad(img: IP.Image, sel: Option<seq<IP.Selection>>, blurAnswer: Option<string>, size: Size)
    requires ValidImage(img) && img.blurred.Some?
    requires img.vertical != [] && img.horizontal != []
    ensures var (img2, doc, _) := Save(Some(img), sel).value;
            Load(Some(doc), blurAnswer, Some(size)) == Some(img2)
  {
    SaveThenLoadLoaded(img, sel, blurAnswer, size);
  }

  /** An axis saved without lines comes back with the default lines at thirds
      of the loaded extent, so such an image does not round-trip. */
  lemma SaveThenLoadEmptyAxis(img: IP.Image, sel: Option<seq<IP.Selection>>, blurAnswer: Option<string>, size: Size)
    requires ValidImage(img) && img.blurred.Some?
    requires img.vertical == [] && size.width > 0
    ensures var (img2, doc, _) := Save(Some(img), sel).value;
            var loaded := Load(Some(doc), blurAnswer, Some(size));
            loaded.Some? && loaded.value.vertical == IP.DefaultLinesOf(size.width as real)
            && loaded.value != img2
  {
    SaveThenLoadLoaded(img, sel, blurAnswer, size);
  }
}

=== FILE: slug.dfy ===
/** The category id derivation of `addSelectionCategory`:
    `name.toLowerCase().replace(/\s+/g, '-')`. */
module Slug {

  /** The characters the `\s` class of an ECMAScript regular expression matches
      (WhiteSpace and LineTerminator of ECMAScript section 22.2.2.9). */
  predicate IsSpace(c: char) {
    var n := c as int;
    || 0x09 <= n <= 0x0D || n == 0x20 || n == 0xA0 || n == 0x1680
    || 0x2000 <= n <= 0x200A || n == 0x2028 || n == 0x2029 || n == 0x202F
    || n == 0x205F || n == 0x3000 || n == 0xFEFF
  }

  /** Lower-casing of one character for the Latin, Latin-1 and Cyrillic capitals;
      every other character is unchanged. */
  function LowerChar(c: char): (d: char)
    ensures IsSpace(d) <==> IsSpace(c)
    ensures d != c ==> 0x41 <= c as int <= 0x42F && 0x61 <= d as int <= 0x45F
  {
    var n := c as int;
    if 0x41 <= n <= 0x5A then (n + 0x20) as char            // A-Z
    else if 0xC0 <= n <= 0xDE && n != 0xD7 then (n + 0x20) as char  // Latin-1 capitals
    else if 0x410 <= n <= 0x42F then (n + 0x20) as char     // Cyrillic А-Я
    else if 0x400 <= n <= 0x40F then (n + 0x50) as char     // Cyrillic Ѐ-Џ
    else c
  }

  function Lower(s: string): (r: string)
    ensures |r| == |s|
    ensures forall i :: 0 <= i < |s| ==> r[i] == LowerChar(s[i])
  {
    seq(|s|, i requires 0 <= i < |s| => LowerChar(s[i]))
  }

  /** `s` with its leading whitespace removed. */
  function DropSpaces(s: string): (r: string)
    ensures |r| <= |s|
    ensures |r| > 0 ==> !IsSpace(r[0])
    ensures r == s[|s| - |r|..]
    ensures forall i :: 0 <= i < |s| - |r| ==> IsSpace(s[i])
  {
    if |s| > 0 && IsSpace(s[0]) then DropSpaces(s[1..]) else s
  }

  /** `s.replace(/\s+/g, '-')`: every maximal run of whitespace becomes one `-`. */
  function CollapseSpaces(s: string): (r: string)
    ensures forall i :: 0 <= i < |r| ==> !IsSpace(r[i])
    ensures forall i :: 0 <= i < |r| ==> r[i] == '-' || r[i] in s
    ensures |r| <= |s|
    decreases |s|
  {
    if |s| == 0 then ""
    else if IsSpace(s[0]) then "-" + CollapseSpaces(DropSpaces(s[1..]))
    else [s[0]] + CollapseSpaces(s[1..])
  }

  /** The category id derived from a category name. */
  function Slugify(name: string): (id: string)
    ensures forall i :: 0 <= i < |id| ==> !IsSpace(id[i])
    ensures |id| <= |name|
  {
    CollapseSpaces(Lower(name))
  }

  /** A name without whitespace is only lower-cased. */
  lemma {:induction false} CollapseSpaceFree(s: string)
    requires forall i :: 0 <= i < |s| ==> !IsSpace(s[i])
    ensures CollapseSpaces(s) == s
  {
    if |s| > 0 {
      CollapseSpaceFree(s[1..]);
      assert s == [s[0]] + s[1..];
    }
  }

  lemma SlugOfSpaceFreeName(name: string)
    requires forall i :: 0 <= i < |name| ==> !IsSpace(name[i])
    ensures Slugify(name) == Lower(name)
  {
    CollapseSpaceFree(Lower(name));
  }

  /** The replacement rule, one run at a time: a whitespace-free stretch is
      lower-cased, the maximal whitespace run after it becomes one `-`, and the
      rest of the name is derived the same way. With `SlugOfSpaceFreeName` for
      the last stretch this determines the id of every name. */
  lemma {:induction false} SlugOfRun(a: string, w: string, b: string)
    requires forall i :: 0 <= i < |a| ==> !IsSpace(a[i])
    requires |w| > 0 && forall i :: 0 <= i < |w| ==> IsSpace(w[i])
    requires |b| == 0 || !IsSpace(b[0])
    ensures Slugify(a + w + b) == Lower(a) + "-" + Slugify(b)
  {
    assert Lower(a + w + b) == Lower(a) + (Lower(w) + Lower(b)) by {
      LowerAppend(a, w + b);
      LowerAppend(w, b);
      assert a + w + b == a + (w + b);
    }
    LoweredRun(a, w, b);
  }

  /** Lower-casing keeps whitespace and non-whitespace apart, so the rule
      applies after it. */
  lemma LoweredRun(a: string, w: string, b: string)
    requires forall i :: 0 <= i < |a| ==> !IsSpace(a[i])
    requires |w| > 0 && forall i :: 0 <= i < |w| ==> IsSpace(w[i])
    requires |b| == 0 || !IsSpace(b[0])
    ensures CollapseSpaces(Lower(a) + (Lower(w) + Lower(b))) == Lower(a) + "-" + CollapseSpaces(Lower(b))
  {
    CollapseAfterSpaceFree(Lower(a), Lower(w), Lower(b));
  }

  /** The replacement rule on already lower-cased text. */
  lemma {:induction false} CollapseAfterSpaceFree(a: string, w: string, b: string)
    requires forall i :: 0 <= i < |a| ==> !IsSpace(a[i])
    requires |w| > 0 && forall i :: 0 <= i < |w| ==> IsSpace(w[i])
    requires |b| == 0 || !IsSpace(b[0])
    ensures CollapseSpaces(a + (w + b)) == a + "-" + CollapseSpaces(b)
  {
    calc {
      CollapseSpaces(a + (w + b));
      { CollapseSpaceFreePrefix(a, w + b); }
      a + CollapseSpaces(w + b);
      { CollapseRun(w, b); }
      a + ("-" + CollapseSpaces(b));
    }
  }

  lemma LowerAppend(a: string, b: string)
    ensures Lower(a + b) == Lower(a) + Lower(b)
  {
    assert forall i :: 0 <= i < |a + b| ==> Lower(a + b)[i] == (Lower(a) + Lower(b))[i];
  }

  /** A whitespace-free prefix passes through the replacement unchanged. */
  lemma {:induction false} CollapseSpaceFreePrefix(a: string, s: string)
    requires forall i :: 0 <= i < |a| ==> !IsSpace(a[i])
    ensures CollapseSpaces(a + s) == a + CollapseSpaces(s)
  {
    if |a| > 0 {
      var t := a + s;
      assert t[0] == a[0] && !IsSpace(t[0]);
      assert t[1..] == a[1..] + s;
      calc {
        CollapseSpaces(t);
        [a[0]] + CollapseSpaces(a[1..] + s);
        { CollapseSpaceFreePrefix(a[1..], s); }
        [a[0]] + (a[1..] + CollapseSpaces(s));
        { assert a == [a[0]] + a[1..]; }
        a + CollapseSpaces(s);
      }
    } else {
      assert a + s == s;
    }
  }

  /** A maximal whitespace run becomes a single `-`. */
  lemma {:induction false} CollapseRun(w: string, b: string)
    requires |w| > 0 && forall i :: 0 <= i < |w| ==> IsSpace(w[i])
    requires |b| == 0 || !IsSpace(b[0])
    ensures CollapseSpaces(w + b) == "-" + CollapseSpaces(b)
  {
    var t := w + b;
    assert t[0] == w[0] && IsSpace(t[0]);
    assert t[1..] == w[1..] + b;
    DropRun(w[1..], b);
    assert CollapseSpaces(t) == "-" + CollapseSpaces(DropSpaces(t[1..]));
  }

  lemma {:induction false} DropRun(w: string, b: string)
    requires forall i :: 0 <= i < |w| ==> IsSpace(w[i])
    requires |b| == 0 || !IsSpace(b[0])
    ensures DropSpaces(w + b) == b
  {
    if |w| > 0 {
      assert (w + b)[1..] == w[1..] + b;
      DropRun(w[1..], b);
    } else {
      assert w + b == b;
    }
  }

  /** Deriving an id from an id changes nothing: ids are fixed points of the derivation. */
  lemma SlugIdempotent(name: string)
    ensures Slugify(Slugify(name)) == Slugify(name)
  {
    var low := Lower(name);
    var id := CollapseSpaces(low);
    forall i | 0 <= i < |id| ensures LowerChar(id[i]) == id[i] {
      if id[i] != '-' {
        var k :| 0 <= k < |low| && low[k] == id[i];
        LowerCharIdempotent(name[k]);
      }
    }
    assert Lower(id) == id;
    CollapseSpaceFree(id);
  }

  /** Lower-casing a lower-cased character changes nothing. */
  lemma LowerCharIdempotent(c: char)
    ensures LowerChar(LowerChar(c)) == LowerChar(c)
  {
  }
}

=== FILE: sorting.dfy ===
/** Ascending sorts used by the grid-line code: the browser's
    `lines.sort((a, b) => a - b)` on positions and Python's `sorted` on
    truncated boundaries. Both are insertion sorts on an explicit order. */
module Sorting {

  predicate SortedReals(s: seq<real>) {
    forall i, j :: 0 <= i < j < |s| ==> s[i] <= s[j]
  }

  predicate SortedInts(s: seq<int>) {
    forall i, j :: 0 <= i < j < |s| ==> s[i] <= s[j]
  }

  predicate StrictlyIncreasing(s: seq<int>) {
    forall i, j :: 0 <= i < j < |s| ==> s[i] < s[j]
  }

  function InsertReal(x: real, s: seq<real>): (r: seq<real>)
    requires SortedReals(s)
    ensures |r| == |s| + 1
    ensures r[0] == if |s| == 0 || x <= s[0] then x else s[0]
    ensures SortedReals(r)
    ensures multiset(r) == multiset(s) + multiset{x}
  {
    if |s| == 0 then [x]
    else if x <= s[0] then [x] + s
    else
      assert s == [s[0]] + s[1..];
      [s[0]] + InsertReal(x, s[1..])
  }

  /** The sorted permutation of `s`. */
  function SortReals(s: seq<real>): (r: seq<real>)
    ensures SortedReals(r)
    ensures multiset(r) == multiset(s)
    ensures |r| == |s|
  {
    if |s| == 0 then []
    else
      assert s == s[..|s| - 1] + [s[|s| - 1]];
      InsertReal(s[|s| - 1], SortReals(s[..|s| - 1]))
  }

  function InsertInt(x: int, s: seq<int>): (r: seq<int>)
    requires SortedInts(s)
    ensures |r| == |s| + 1
    ensures r[0] == if |s| == 0 || x <= s[0] then x else s[0]
    ensures SortedInts(r)
    ensures multiset(r) == multiset(s) + multiset{x}
  {
    if |s| == 0 then [x]
    else if x <= s[0] then [x] + s
    else
      assert s == [s[0]] + s[1..];
      [s[0]] + InsertInt(x, s[1..])
  }

  /** Python's `sorted` on a list of ints. */
  function SortInts(s: seq<int>): (r: seq<int>)
    ensures SortedInts(r)
    ensures multiset(r) == multiset(s)
    ensures |r| == |s|
  {
    if |s| == 0 then []
    else
      assert s == s[..|s| - 1] + [s[|s| - 1]];
      InsertInt(s[|s| - 1], SortInts(s[..|s| - 1]))
  }

  /** A sorted list is determined by its elements: two sorted permutations of
      each other are equal. */
  lemma {:induction false} SortedRealsUnique(a: seq<real>, b: seq<real>)
    requires SortedReals(a) && SortedReals(b) && multiset(a) == multiset(b)
    ensures a == b
    decreases |a|
  {
    assert |a| == |multiset(a)| == |multiset(b)| == |b|;
    if |a| > 0 {
      SortedHeadsAgree(a, b);
      DropHead(a);
      DropHead(b);
      SortedRealsUnique(a[1..], b[1..]);
    }
  }

  /** Two non-empty sorted lists with the same elements start alike: each head
      is the least element. */
  lemma SortedHeadsAgree(a: seq<real>, b: seq<real>)
    requires SortedReals(a) && SortedReals(b) && multiset(a) == multiset(b)
    requires |a| > 0 && |b| > 0
    ensures a[0] == b[0]
  {
    assert a[0] in multiset(b) && b[0] in multiset(a);
    var i :| 0 <= i < |b| && b[i] == a[0];
    var j :| 0 <= j < |a| && a[j] == b[0];
    assert b[0] <= b[i] && a[0] <= a[j];
  }

  lemma DropHead(s: seq<real>)
    requires |s| > 0
    ensures multiset(s[1..]) == multiset(s) - multiset{s[0]}
    ensures SortedReals(s) ==> SortedReals(s[1..])
  {
    assert s == [s[0]] + s[1..];
  }
}

=== FILE: table_view.dfy ===
/** The luminance table of `table-view.js`, abstracted as a matrix of cells.
    Row 0 is the header row and column 0 the row-header column, so data cell
    `(row, col)` sits at table position `(row + 1, col + 1)`. Each data row ends
    with one per-category mean cell per category, and an optional summary row
    ("category averages") closes the table. */
module TableView {
  import opened Common
  import IP = ImageProcessor

  /** The text a cell shows: a label, the string "NaN", or a number.
      `parseFloat` of a label is NaN: labels only sit where no numeric
      reader looks, or are the empty text of summary-row cells. */
  datatype Content = Label(text: string) | NaNText | Num(v: real)

  /** A table cell: its text, its `selected` class, and its `data-categories`
      list (the empty list when the attribute is absent or empty). */
  datatype TCell = TCell(content: Content, selected: bool, cats: seq<string>)

  /** A table row; `summary` marks the category-average row. */
  datatype Row = Row(summary: bool, cells: seq<TCell>)

  /** The data handed to `updateTable`: the luminance matrix and the grid,
      ordered `[row bounds, column bounds]`. */
  datatype Data = Data(luminance: seq<seq<real>>, rowBounds: seq<real>, colBounds: seq<real>)

  /** The view: the rendered rows, `currentData`, `tableRendered` and
      `pendingSelectedCells`. */
  datatype View = View(rows: seq<Row>, data: Option<Data>, rendered: bool, pending: Option<seq<IP.Selection>>)

  /** `parseFloat` of a cell's text: a number only for numeric text. */
  function Parse(c: Content): (r: Option<real>)
    ensures r.Some? <==> c.Num?
  {
    if c.Num? then Some(c.v) else None
  }

  /** `currentData.luminance[0].length`, or 0 when there is no first row. */
  function DataCols(v: View): (d: nat)
    ensures d > 0 ==> v.data.Some? && |v.data.value.luminance| > 0
  {
    if v.data.Some? && |v.data.value.luminance| > 0 then |v.data.value.luminance[0]| else 0
  }

  /** Every row below the header holds the row header, the data cells and one
      mean cell per category: the layout `updateTable` builds for `ncats`
      categories. */
  predicate Shaped(v: View, ncats: nat) {
    && v.data.Some?
    && |v.rows| >= 1
    && (|v.rows| > 1 ==> |v.data.value.luminance| > 0)
    && forall i :: 1 <= i < |v.rows| ==> |v.rows[i].cells| == 1 + DataCols(v) + ncats
  }

  // ---------------------------------------------------------------------------
  // Per-cell category toggle (table-view.js:656-684)

  /** A cell is selected exactly when its category list is non-empty. */
  predicate Consistent(c: TCell) {
    c.selected <==> c.cats != []
  }

  /** The attribute update of `toggleCellSelection`: an absent id is appended
      and the cell selected; a present id is removed (every occurrence), and the
      cell loses its `selected` class when no id remains. */
  function ToggleId(c: TCell, id: string): (r: TCell)
    ensures r.content == c.content
    ensures id in r.cats <==> id !in c.cats
    ensures forall x :: x != id ==> (x in r.cats <==> x in c.cats)
    ensures id !in c.cats ==> r.selected && r.cats == c.cats + [id]
    ensures id in c.cats ==> r.cats == RemoveAll(c.cats, id)
    ensures id in c.cats ==> (r.selected <==> c.selected && r.cats != [])
    ensures NoDup(c.cats) ==> NoDup(r.cats)
  {
    if id in c.cats then
      RemoveAllNoDup(c.cats, id);
      var rest := RemoveAll(c.cats, id);
      TCell(c.content, c.selected && rest != [], rest)
    else
      TCell(c.content, true, c.cats + [id])
  }

  /** A toggle keeps a consistent cell consistent. */
  lemma ToggleIdConsistent(c: TCell, id: string)
    requires Consistent(c)
    ensures Consistent(ToggleId(c, id))
  {
  }

  /** Toggling twice restores the set of ids; an id that was absent leaves the
      list exactly as it was, one that was present moves to the end. */
  lemma ToggleIdTwice(c: TCell, id: string)
    ensures forall x :: x in ToggleId(ToggleId(c, id), id).cats <==> x in c.cats
    ensures id !in c.cats ==> ToggleId(ToggleId(c, id), id).cats == c.cats
    ensures id in c.cats ==> ToggleId(ToggleId(c, id), id).cats == RemoveAll(c.cats, id) + [id]
    ensures Consistent(c) && id !in c.cats ==> ToggleId(ToggleId(c, id), id) == c
  {
    if id !in c.cats {
      var once := ToggleId(c, id);
      assert once.cats == c.cats + [id];
      RemoveAllSnoc(c.cats, id);
    }
  }

  /** Removing `x` from a list with `x` appended once more gives the list
      back when it did not hold `x`. */
  lemma RemoveAllSnoc(s: seq<string>, x: string)
    requires x !in s
    ensures RemoveAll(s + [x], x) == s
  {
    assert (s + [x])[..|s + [x]| - 1] == s;
  }

  // ---------------------------------------------------------------------------
  // Flattening the table (table-view.js:354-395)

  /** The entries one cell contributes: one per listed id, or a single
      `'default'` entry when it lists none; nothing when it is not selected. */
  function MarkEntries(selected: bool, cats: seq<string>, row: int, col: int): (r: seq<IP.Selection>)
    ensures !selected ==> r == []
    ensures forall s :: s in r <==> && selected && s.row == row && s.col == col
                                    && (if cats == [] then s.categoryId == IP.DefaultId else s.categoryId in cats)
  {
    if !selected then []
    else if cats == [] then [IP.Selection(row, col, IP.DefaultId)]
    else
      var r := seq(|cats|, k requires 0 <= k < |cats| => IP.Selection(row, col, cats[k]));
      assert forall s :: s in r ==> s.categoryId in cats;
      assert forall k :: 0 <= k < |cats| ==> r[k].categoryId == cats[k];
      r
  }

  function CellEntries(c: TCell, row: int, col: int): seq<IP.Selection> {
    MarkEntries(c.selected, c.cats, row, col)
  }

  /** The entries of cells `1 .. hi - 1` of table row `i`, left to right. */
  function RowEntries(cells: seq<TCell>, i: int, hi: int): (r: seq<IP.Selection>)
    requires hi <= |cells|
    ensures forall k :: 0 <= k < |r| ==> r[k].row == i - 1
    decreases hi
  {
    if hi <= 1 then [] else RowEntries(cells, i, hi - 1) + CellEntries(cells[hi - 1], i - 1, hi - 2)
  }

  lemma {:induction false} RowEntriesMembers(cells: seq<TCell>, i: int, hi: int, s: IP.Selection)
    requires hi <= |cells|
    ensures s in RowEntries(cells, i, hi) <==> exists j :: 1 <= j < hi && s in CellEntries(cells[j], i - 1, j - 1)
    decreases hi
  {
    if hi > 1 {
      RowEntriesMembers(cells, i, hi - 1, s);
      var last := CellEntries(cells[hi - 1], i - 1, hi - 2);
      assert s in RowEntries(cells, i, hi) <==> s in RowEntries(cells, i, hi - 1) || s in last;
    }
  }

  /** The cells a flattening pass scans in table row `i`: columns `1` up to the
      row length minus `drop`. */
  function ScanEnd(rows: seq<Row>, i: nat, drop: nat): (hi: int)
    requires i < |rows|
    ensures hi <= |rows[i].cells|
  {
    |rows[i].cells| - drop
  }

  /** The entries of table rows `1 .. n - 1`, top to bottom. */
  function TableEntries(rows: seq<Row>, n: nat, drop: nat): (r: seq<IP.Selection>)
    requires n <= |rows|
    ensures forall k :: 0 <= k < |r| ==> 0 <= r[k].row < n - 1
    decreases n
  {
    if n <= 1 then []
    else TableEntries(rows, n - 1, drop) + RowEntries(rows[n - 1].cells, n - 1, ScanEnd(rows, n - 1, drop))
  }

  /** Some scanned cell of rows `1 .. n - 1` contributes the entry `s`. */
  predicate Marked(rows: seq<Row>, n: nat, drop: nat, s: IP.Selection)
    requires n <= |rows|
  {
    exists i, j :: 1 <= i < n && 1 <= j < |rows[i].cells| - drop
                   && s in CellEntries(rows[i].cells[j], i - 1, j - 1)
  }

  lemma {:induction false} TableEntriesMembers(rows: seq<Row>, n: nat, drop: nat, s: IP.Selection)
    requires n <= |rows|
    ensures s in TableEntries(rows, n, drop) <==> Marked(rows, n, drop, s)
    decreases n
  {
    if n > 1 {
      TableEntriesMembers(rows, n - 1, drop, s);
      RowEntriesMembers(rows[n - 1].cells, n - 1, ScanEnd(rows, n - 1, drop), s);
      assert s in TableEntries(rows, n, drop)
             <==> s in TableEntries(rows, n - 1, drop) || s in RowEntries(rows[n - 1].cells, n - 1, ScanEnd(rows, n - 1, drop));
      if Marked(rows, n, drop, s) {
        var i, j :| 1 <= i < n && 1 <= j < |rows[i].cells| - drop && s in CellEntries(rows[i].cells[j], i - 1, j - 1);
        if i < n - 1 { assert Marked(rows, n - 1, drop, s); }
      }
    }
  }

  lemma AllTableEntriesMembers(rows: seq<Row>, drop: nat)
    ensures forall s :: s in TableEntries(rows, |rows|, drop) <==> Marked(rows, |rows|, drop, s)
  {
    forall s { TableEntriesMembers(rows, |rows|, drop, s); }
  }

  /** `getSelectedCells` as written: it scans up to the second-to-last cell of
      every row, whatever the number of category mean cells. */
  function GetSelectedCellsAsWritten(rows: seq<Row>, hasImage: bool): (r: seq<IP.Selection>)
    ensures !hasImage ==> r == []
    ensures hasImage ==> forall s :: s in r <==> Marked(rows, |rows|, 1, s)
  {
    if !hasImage then []
    else
      AllTableEntriesMembers(rows, 1);
      TableEntries(rows, |rows|, 1)
  }

  /** `getSelectedCells` with the scan ending where the mean cells begin, the
      bound `calculateMeanOfSelectedCells` uses: one entry per listed id of
      every selected data cell, `'default'` for a cell without ids, and nothing
      without a current image. */
  function GetSelectedCells(rows: seq<Row>, ncats: nat, hasImage: bool): (r: seq<IP.Selection>)
    ensures !hasImage ==> r == []
    ensures hasImage ==> forall s :: s in r <==> Marked(rows, |rows|, ncats, s)
  {
    if !hasImage then []
    else
      AllTableEntriesMembers(rows, ncats);
      TableEntries(rows, |rows|, ncats)
  }

  /** Where the two readers meet: on a table with at least one category column
      whose mean cells carry no selection, stopping before the last cell (as
      written) and stopping at the first mean cell read the same entries. */
  lemma ReadersAgree(v: View, ncats: nat, s: IP.Selection)
    requires Shaped(v, ncats) && ncats >= 1
    requires forall i, j :: 1 <= i < |v.rows| && 1 + DataCols(v) <= j < |v.rows[i].cells| ==> !v.rows[i].cells[j].selected
    ensures s in GetSelectedCellsAsWritten(v.rows, true) <==> s in GetSelectedCells(v.rows, ncats, true)
  {
    MarkedAt(v.rows, |v.rows|, 1, s);
    MarkedAt(v.rows, |v.rows|, ncats, s);
    if 0 <= s.row < |v.rows| - 1 && 0 <= s.col && 1 + DataCols(v) <= s.col + 1 < |v.rows[s.row + 1].cells| {
      assert !v.rows[s.row + 1].cells[s.col + 1].selected;
    }
  }

  /** With no categories the last data column of a row is never scanned: a
      selected cell there yields no entry as written, and one entry once the
      scan ends at the mean cells. */
  lemma LastColumnDropped()
    ensures var cell := TCell(Num(1.0), true, []);
            var rows := [Row(false, [TCell(Label(""), false, [])]), Row(false, [TCell(Label(""), false, []), cell])];
            && GetSelectedCellsAsWritten(rows, true) == []
            && GetSelectedCells(rows, 0, true) == [IP.Selection(0, 0, IP.DefaultId)]
  {
    var cell := TCell(Num(1.0), true, []);
    var rows := [Row(false, [TCell(Label(""), false, [])]), Row(false, [TCell(Label(""), false, []), cell])];
    assert TableEntries(rows, 1, 1) == [];
    assert RowEntries(rows[1].cells, 1, 1) == [];
    assert RowEntries(rows[1].cells, 1, 2) == [IP.Selection(0, 0, IP.DefaultId)];
  }

  // ---------------------------------------------------------------------------
  // Restoring a saved selection list (table-view.js:397-466)

  /** The distinct ids of `ids`, in order of first occurrence. */
  function Distinct(ids: seq<string>): (r: seq<string>)
    ensures NoDup(r)
    ensures forall x :: x in r <==> x in ids
    ensures |r| <= |ids|
    decreases |ids|
  {
    if |ids| == 0 then []
    else
      var prev := Distinct(ids[..|ids| - 1]);
      var x := ids[|ids| - 1];
      assert ids == ids[..|ids| - 1] + [x];
      if x in prev then prev else prev + [x]
  }

  /** A list without repeats is its own set of distinct ids, in the same order. */
  lemma {:induction false} DistinctOfNoDup(ids: seq<string>)
    requires NoDup(ids)
    ensures Distinct(ids) == ids
    decreases |ids|
  {
    if |ids| > 0 {
      var n := |ids| - 1;
      assert NoDup(ids[..n]);
      DistinctOfNoDup(ids[..n]);
      assert ids[n] !in ids[..n];
      assert ids == ids[..n] + [ids[n]];
    }
  }

  /** The ids of the entries for position `(row, col)`, in order, with a
      missing id read as `'default'`. */
  function IdsAt(sel: seq<IP.Selection>, row: int, col: int): (r: seq<string>)
    ensures forall x :: x in r <==> exists k :: && 0 <= k < |sel| && sel[k].row == row && sel[k].col == col
                                               && IP.OrDefault(sel[k].categoryId) == x
    decreases |sel|
  {
    if |sel| == 0 then []
    else
      var n := |sel| - 1;
      var prev := IdsAt(sel[..n], row, col);
      assert forall k :: 0 <= k < n ==> sel[..n][k] == sel[k];
      if sel[n].row == row && sel[n].col == col then prev + [IP.OrDefault(sel[n].categoryId)] else prev
  }

  /** Cell `j` of table row `i` after the clearing pass (which stops before
      `clearEnd`) and after applying the in-range entries of its position. */
  function RestoredCell(c: TCell, i: int, j: int, clearEnd: int, sel: seq<IP.Selection>, rowCount: int, colCount: int): (r: TCell)
    ensures r.content == c.content
  {
    var cleared := if 1 <= j < clearEnd then TCell(c.content, false, []) else c;
    var ids := if 0 <= i - 1 < rowCount && 0 <= j - 1 < colCount then IdsAt(sel, i - 1, j - 1) else [];
    if ids == [] then cleared else TCell(c.content, true, Distinct(ids))
  }

  /** The clearing pass alone (the path without a current image). */
  function ClearedRows(rows: seq<Row>): (r: seq<Row>)
    ensures |r| == |rows| && (|rows| > 0 ==> r[0] == rows[0])
    ensures forall i :: 1 <= i < |rows| ==> r[i].summary == rows[i].summary && |r[i].cells| == |rows[i].cells|
  {
    seq(|rows|, i requires 0 <= i < |rows| =>
      if i == 0 then rows[0]
      else Row(rows[i].summary, seq(|rows[i].cells|, j requires 0 <= j < |rows[i].cells| =>
             RestoredCell(rows[i].cells[j], i, j, |rows[i].cells| - 1, [], 0, 0))))
  }

  /** The clearing pass followed by the application of the entries. */
  function RestoredRows(rows: seq<Row>, sel: seq<IP.Selection>, colCount: int): (r: seq<Row>)
    ensures |r| == |rows| && (|rows| > 0 ==> r[0] == rows[0])
    ensures forall i :: 1 <= i < |rows| ==> r[i].summary == rows[i].summary && |r[i].cells| == |rows[i].cells|
    ensures forall i, j :: 1 <= i < |rows| && 0 <= j < |rows[i].cells| ==>
              r[i].cells[j] == RestoredCell(rows[i].cells[j], i, j, |rows[i].cells| - 1, sel, |rows| - 1, colCount)
  {
    seq(|rows|, i requires 0 <= i < |rows| =>
      if i == 0 then rows[0]
      else Row(rows[i].summary, seq(|rows[i].cells|, j requires 0 <= j < |rows[i].cells| =>
             RestoredCell(rows[i].cells[j], i, j, |rows[i].cells| - 1, sel, |rows| - 1, colCount))))
  }

  // ---------------------------------------------------------------------------
  // Per-row category means and the category-average row (table-view.js:274-352, 756-844)

  /** `n` copies of `x`. */
  function Repeat(x: Option<real>, n: nat): (r: seq<Option<real>>)
    ensures |r| == n && forall k :: 0 <= k < n ==> r[k] == x
  {
    seq(n, _ => x)
  }

  /** The values cells `1 .. hi - 1` of a row add to category `id`: each
      selected cell adds its value once per listing of the id. */
  function RowValues(cells: seq<TCell>, hi: int, id: string): (r: seq<Option<real>>)
    requires hi <= |cells|
    ensures |r| == 0 <==> forall j :: 1 <= j < hi && cells[j].selected ==> id !in cells[j].cats
    ensures forall k :: 0 <= k < |r| ==> exists j :: && 1 <= j < hi && cells[j].selected
                                                   && id in cells[j].cats && r[k] == Parse(cells[j].content)
    decreases hi
  {
    if hi <= 1 then []
    else
      var prev := RowValues(cells, hi - 1, id);
      var c := cells[hi - 1];
      var add := if c.selected then Repeat(Parse(c.content), Count(c.cats, id)) else [];
      assert forall k :: |prev| <= k < |prev + add| ==> (prev + add)[k] == add[k - |prev|];
      prev + add
  }

  /** The sum of the values, or nothing (NaN) as soon as one value is NaN. */
  function SumOpt(vals: seq<Option<real>>): (r: Option<real>)
    ensures r.Some? <==> forall k :: 0 <= k < |vals| ==> vals[k].Some?
    decreases |vals|
  {
    if |vals| == 0 then Some(0.0)
    else
      var prev := SumOpt(vals[..|vals| - 1]);
      var x := vals[|vals| - 1];
      assert forall k :: 0 <= k < |vals| - 1 ==> vals[..|vals| - 1][k] == vals[k];
      if prev.Some? && x.Some? then Some(prev.value + x.value) else None
  }

  /** The mean of the values as a cell shows it: "NaN" when there is none or
      one of them is NaN. */
  function MeanOf(vals: seq<Option<real>>): (r: Content)
    ensures r.Num? || r.NaNText?
    ensures r.Num? <==> |vals| > 0 && forall k :: 0 <= k < |vals| ==> vals[k].Some?
  {
    if |vals| == 0 then NaNText
    else match SumOpt(vals)
      case None => NaNText
      case Some(s) => Num(s / |vals| as real)
  }

  lemma {:induction false} SumBounds(vals: seq<Option<real>>, lo: real, hi: real)
    requires forall k :: 0 <= k < |vals| ==> vals[k].Some? && lo <= vals[k].value <= hi
    ensures SumOpt(vals).Some?
    ensures |vals| as real * lo <= SumOpt(vals).value <= |vals| as real * hi
    decreases |vals|
  {
    if |vals| > 0 {
      var n := |vals| - 1;
      assert forall k :: 0 <= k < n ==> vals[..n][k] == vals[k];
      SumBounds(vals[..n], lo, hi);
      var p := SumOpt(vals[..n]).value;
      assert SumOpt(vals).value == p + vals[n].value;
      assert |vals| as real == n as real + 1.0;
      SumStep(n as real, lo, hi, p, vals[n].value);
    }
  }

  /** One more value between `lo` and `hi` keeps a sum of `n` such values
      between `n * lo` and `n * hi`. */
  lemma SumStep(n: real, lo: real, hi: real, p: real, x: real)
    requires n * lo <= p <= n * hi && lo <= x <= hi
    ensures (n + 1.0) * lo <= p + x <= (n + 1.0) * hi
  {
  }

  /** A mean lies between the least and the greatest of its values. */
  lemma MeanBounds(vals: seq<Option<real>>, lo: real, hi: real)
    requires |vals| > 0
    requires forall k :: 0 <= k < |vals| ==> vals[k].Some? && lo <= vals[k].value <= hi
    ensures MeanOf(vals).Num? && lo <= MeanOf(vals).v <= hi
  {
    SumBounds(vals, lo, hi);
    var n := |vals| as real;
    var s := SumOpt(vals).value;
    assert n * lo <= s <= n * hi;
    assert s / n >= lo by { assert s / n - lo == (s - n * lo) / n; }
    assert s / n <= hi by { assert hi - s / n == (n * hi - s) / n; }
  }

  /** A data row with its mean cells rewritten: the mean cell of category `c`
      gets the mean of the values of the row's selected data cells listing that
      category. Nothing else changes. */
  function RowWithMeans(row: Row, d: nat, infos: seq<IP.CategoryInfo>): (r: Row)
    requires |row.cells| == 1 + d + |infos|
    ensures r.summary == row.summary && |r.cells| == |row.cells|
    ensures forall j :: 0 <= j < |row.cells| ==> (r.cells[j].selected == row.cells[j].selected
                                                 && r.cells[j].cats == row.cells[j].cats)
    ensures forall j :: 0 <= j <= d ==> r.cells[j] == row.cells[j]
  {
    Row(row.summary, seq(|row.cells|, j requires 0 <= j < |row.cells| =>
      if j <= d then row.cells[j]
      else TCell(MeanOf(RowValues(row.cells, 1 + d, infos[j - 1 - d].id)), row.cells[j].selected, row.cells[j].cats)))
  }

  /** The values the average of column `col` takes from rows `1 .. n - 1`:
      every cell whose text is not "NaN". */
  function ColumnValues(rows: seq<Row>, n: nat, col: nat): (r: seq<Option<real>>)
    requires n <= |rows|
    requires forall i :: 1 <= i < n ==> col < |rows[i].cells|
    ensures |r| <= n
    ensures |r| == 0 <==> forall i :: 1 <= i < n ==> rows[i].cells[col].content == NaNText
    ensures forall k :: 0 <= k < |r| ==> exists i :: 1 <= i < n && rows[i].cells[col].content != NaNText
                                                   && r[k] == Parse(rows[i].cells[col].content)
    decreases n
  {
    if n <= 1 then []
    else
      var prev := ColumnValues(rows, n - 1, col);
      var c := rows[n - 1].cells[col];
      var r := if c.content != NaNText then prev + [Parse(c.content)] else prev;
      assert forall k :: 0 <= k < |prev| ==> r[k] == prev[k];
      r
  }

  /** The row `updateCategoryAverageRow` appends: a label, blank data cells and
      blank average cells. */
  function SummaryRow(d: nat, ncats: nat): (r: Row)
    ensures r.summary && |r.cells| == 1 + d + ncats
    ensures forall j :: 0 <= j < |r.cells| ==> !r.cells[j].selected && r.cells[j].cats == []
  {
    Row(true, seq(1 + d + ncats, j => TCell(Label(if j == 0 then "Средние по категориям" else ""), false, [])))
  }

  /** Every row below the header has `1 + d + ncats` cells. */
  predicate RowsShaped(rows: seq<Row>, d: nat, ncats: nat) {
    forall i :: 1 <= i < |rows| ==> |rows[i].cells| == 1 + d + ncats
  }

  /** The last row of a non-empty table. */
  function LastRow(rows: seq<Row>): Row
    requires |rows| > 0
  {
    rows[|rows| - 1]
  }

  /** The rows with a summary row appended unless the last row is one. */
  function WithSummaryRow(rows: seq<Row>, d: nat, ncats: nat): (r: seq<Row>)
    requires |rows| > 1 && RowsShaped(rows, d, ncats)
    ensures |r| >= |rows| && RowsShaped(r, d, ncats) && LastRow(r).summary
    ensures LastRow(rows).summary ==> r == rows
    ensures !LastRow(rows).summary ==> r == rows + [SummaryRow(d, ncats)]
  {
    if LastRow(rows).summary then rows else rows + [SummaryRow(d, ncats)]
  }

  /** The summary row's average cells filled in: the cell of column `j` gets
      the mean of the cells of that column above it that do not read "NaN",
      and loses its `selected` class. */
  function FillAverages(base: seq<Row>, d: nat, ncats: nat): (r: seq<Row>)
    requires |base| > 1 && RowsShaped(base, d, ncats)
    ensures |r| == |base| && RowsShaped(r, d, ncats)
    ensures forall i :: 0 <= i < |base| - 1 ==> r[i] == base[i]
    ensures LastRow(r).summary == LastRow(base).summary
    ensures forall j :: 0 <= j <= d ==> LastRow(r).cells[j] == LastRow(base).cells[j]
    ensures forall j :: 1 + d <= j < 1 + d + ncats ==>
              !LastRow(r).cells[j].selected && LastRow(r).cells[j].content == MeanOf(ColumnValues(base, |base| - 1, j))
  {
    var n := |base|;
    var last := base[n - 1];
    var cells := seq(|last.cells|, j requires 0 <= j < |last.cells| =>
      if 1 + d <= j then TCell(MeanOf(ColumnValues(base, n - 1, j)), false, last.cells[j].cats) else last.cells[j]);
    base[n - 1 := Row(last.summary, cells)]
  }

  /** `updateCategoryAverageRow`: without categories nothing happens; otherwise
      a summary row is appended unless the last row is one, and its cell for
      each category gets the mean of that category's mean cells above it that
      do not read "NaN". */
  function UpdateCategoryAverageRow(rows: seq<Row>, d: nat, infos: seq<IP.CategoryInfo>): (r: seq<Row>)
    requires |rows| > 1 && RowsShaped(rows, d, |infos|)
    ensures |r| >= |rows| && RowsShaped(r, d, |infos|)
    ensures |infos| == 0 ==> r == rows
    ensures |infos| > 0 ==> LastRow(r).summary
    ensures |infos| > 0 && LastRow(rows).summary ==> |r| == |rows|
    ensures |infos| > 0 && !LastRow(rows).summary ==> |r| == |rows| + 1 && r[|rows| - 1] == LastRow(rows)
    ensures forall i :: 0 <= i < |rows| - 1 ==> r[i] == rows[i]
    ensures |infos| > 0 ==> forall j :: 0 <= j <= d ==> LastRow(r).cells[j] == LastRow(WithSummaryRow(rows, d, |infos|)).cells[j]
  {
    if |infos| == 0 then rows
    else FillAverages(WithSummaryRow(rows, d, |infos|), d, |infos|)
  }

  /** The summary row's cell for category column `j` is unselected and holds
      the mean of the cells of that column above it that do not read "NaN". */
  lemma CategoryAverageCell(rows: seq<Row>, d: nat, infos: seq<IP.CategoryInfo>, j: nat)
    requires |rows| > 1 && RowsShaped(rows, d, |infos|)
    requires 1 + d <= j < 1 + d + |infos|
    ensures var r := UpdateCategoryAverageRow(rows, d, infos);
            && !LastRow(r).cells[j].selected
            && LastRow(r).cells[j].content == MeanOf(ColumnValues(r, |r| - 1, j))
  {
    var base := WithSummaryRow(rows, d, |infos|);
    var r := FillAverages(base, d, |infos|);
    ColumnValuesFrame(r, base, |r| - 1, j);
  }

  lemma {:induction false} ColumnValuesFrame(a: seq<Row>, b: seq<Row>, n: nat, col: nat)
    requires n <= |a| && n <= |b|
    requires forall i :: 1 <= i < n ==> col < |a[i].cells| && a[i] == b[i]
    ensures ColumnValues(a, n, col) == ColumnValues(b, n, col)
    decreases n
  {
    if n > 1 {
      ColumnValuesFrame(a, b, n - 1, col);
    }
  }

  /** Every row below the header with its per-category means rewritten. */
  function MeanRows(rows: seq<Row>, d: nat, infos: seq<IP.CategoryInfo>): (r: seq<Row>)
    requires |rows| > 0 && RowsShaped(rows, d, |infos|)
    ensures |r| == |rows| && r[0] == rows[0] && RowsShaped(r, d, |infos|)
  {
    seq(|rows|, i requires 0 <= i < |rows| => if i == 0 then rows[0] else RowWithMeans(rows[i], d, infos))
  }

  /** `calculateMeanOfSelectedCells` (for a current image whose category list
      gives `infos`): every row below the header gets its per-category means,
      then the category-average row is updated. */
  function RecomputeMeans(v: View, infos: seq<IP.CategoryInfo>): (r: View)
    requires Shaped(v, |infos|) && |v.rows| > 1
    ensures r.data == v.data && r.rendered == v.rendered && r.pending == v.pending
    ensures Shaped(r, |infos|) && |r.rows| >= |v.rows|
    ensures |r.rows| <= |v.rows| + 1
  {
    var d := DataCols(v);
    var rows1 := MeanRows(v.rows, d, infos);
    var rows2 := UpdateCategoryAverageRow(rows1, d, infos);
    v.(rows := rows2)
  }

  /** The view `restoreSelectedCells` can work on: once rendered with rows,
      there is data, laid out for the current image's categories. */
  predicate Ready(v: View, img: Option<seq<IP.Category>>) {
    v.rendered && |v.rows| > 1 ==> v.data.Some? && (img.Some? ==> Shaped(v, |img.value|))
  }

  /** `restoreSelectedCells`: before the table is rendered (or while it has
      only one row) the list is only stored as pending. Otherwise every
      selection is cleared, and, when there is a current image, each position
      inside the data area receives the distinct ids of its entries (a missing
      id read as `'default'`), after which the means are recomputed. */
  function Restore(v: View, sel: seq<IP.Selection>, img: Option<seq<IP.Category>>): (r: View)
    requires Ready(v, img)
    ensures !v.rendered || |v.rows| <= 1 ==> r == v.(pending := Some(sel))
    ensures v.rendered && |v.rows| > 1 ==> r.pending == v.pending && r.data == v.data && r.rendered
    ensures v.rendered && |v.rows| > 1 && img.None? ==> r.rows == ClearedRows(v.rows)
    ensures Ready(r, img)
  {
    if !v.rendered || |v.rows| <= 1 then v.(pending := Some(sel))
    else if img.None? then v.(rows := ClearedRows(v.rows))
    else
      var v1 := v.(rows := RestoredRows(v.rows, sel, DataCols(v)));
      assert DataCols(v1) == DataCols(v);
      RecomputeMeans(v1, IP.Infos(img.value))
  }

  // ---------------------------------------------------------------------------
  // Flattening is insensitive to everything but the scanned selection marks

  /** The rows agree on the selection marks of every cell a pass ending `drop`
      cells before the row end scans, in rows `1 .. n - 1`. */
  predicate SameMarks(a: seq<Row>, b: seq<Row>, n: nat, drop: nat)
    requires n <= |a| && n <= |b|
  {
    forall i :: 1 <= i < n ==>
      && |a[i].cells| == |b[i].cells|
      && forall j :: 1 <= j < |a[i].cells| - drop ==>
           a[i].cells[j].selected == b[i].cells[j].selected && a[i].cells[j].cats == b[i].cells[j].cats
  }

  lemma {:induction false} RowEntriesFrame(a: seq<TCell>, b: seq<TCell>, i: int, hi: int)
    requires hi <= |a| && hi <= |b|
    requires forall j :: 1 <= j < hi ==> a[j].selected == b[j].selected && a[j].cats == b[j].cats
    ensures RowEntries(a, i, hi) == RowEntries(b, i, hi)
    decreases hi
  {
    if hi > 1 {
      RowEntriesFrame(a, b, i, hi - 1);
    }
  }

  lemma {:induction false} TableEntriesFrame(a: seq<Row>, b: seq<Row>, n: nat, drop: nat)
    requires n <= |a| && n <= |b| && SameMarks(a, b, n, drop)
    ensures TableEntries(a, n, drop) == TableEntries(b, n, drop)
    decreases n
  {
    if n > 1 {
      TableEntriesFrame(a, b, n - 1, drop);
      RowEntriesFrame(a[n - 1].cells, b[n - 1].cells, n - 1, ScanEnd(a, n - 1, drop));
    }
  }

  lemma {:induction false} RowEntriesUnmarked(cells: seq<TCell>, i: int, hi: int)
    requires hi <= |cells|
    requires forall j :: 1 <= j < hi ==> !cells[j].selected
    ensures RowEntries(cells, i, hi) == []
    decreases hi
  {
    if hi > 1 {
      RowEntriesUnmarked(cells, i, hi - 1);
      assert CellEntries(cells[hi - 1], i - 1, hi - 2) == [];
      assert RowEntries(cells, i, hi) == RowEntries(cells, i, hi - 1) + CellEntries(cells[hi - 1], i - 1, hi - 2);
    }
  }

  /** Recomputing the means changes no entry of the flattened selection. */
  lemma RecomputeKeepsEntries(v: View, infos: seq<IP.CategoryInfo>)
    requires Shaped(v, |infos|) && |v.rows| > 1
    ensures TableEntries(RecomputeMeans(v, infos).rows, |RecomputeMeans(v, infos).rows|, |infos|)
            == TableEntries(v.rows, |v.rows|, |infos|)
  {
    var d := DataCols(v);
    var rows1 := MeanRows(v.rows, d, infos);
    var r := UpdateCategoryAverageRow(rows1, d, infos);
    assert r == RecomputeMeans(v, infos).rows;
    var n := |v.rows|;
    var c := |infos|;
    assert SameMarks(rows1, v.rows, n, c);
    assert SameMarks(r, rows1, n, c) by {
      forall i | 1 <= i < n
        ensures |r[i].cells| == |rows1[i].cells|
        ensures forall j :: 1 <= j < |r[i].cells| - c ==>
                  r[i].cells[j].selected == rows1[i].cells[j].selected && r[i].cells[j].cats == rows1[i].cells[j].cats
      {
        if i == n - 1 && c > 0 && LastRow(rows1).summary {
          assert r[i] == LastRow(r);
          forall j | 1 <= j < |r[i].cells| - c
            ensures r[i].cells[j] == rows1[i].cells[j]
          {
            assert LastRow(r).cells[j] == LastRow(WithSummaryRow(rows1, d, c)).cells[j];
          }
        }
      }
    }
    TableEntriesFrame(r, rows1, n, c);
    TableEntriesFrame(rows1, v.rows, n, c);
    if |r| > n {
      assert r[n] == LastRow(r);
      forall j | 1 <= j < ScanEnd(r, n, c) ensures !r[n].cells[j].selected {
        assert LastRow(r).cells[j] == LastRow(WithSummaryRow(rows1, d, c)).cells[j];
      }
      RowEntriesUnmarked(r[n].cells, n, ScanEnd(r, n, c));
      assert TableEntries(r, n + 1, c) == TableEntries(r, n, c) + [];
    }
  }

  /** The entries a restored cell inside the cleared area yields: exactly the
      ids the entries for its position carry, when that position is in range. */
  lemma RestoredCellEntries(c: TCell, i: int, j: int, clearEnd: int, sel: seq<IP.Selection>,
                            rowCount: int, colCount: int, s: IP.Selection)
    requires 1 <= j < clearEnd
    ensures s in CellEntries(RestoredCell(c, i, j, clearEnd, sel, rowCount, colCount), i - 1, j - 1)
            <==> && 0 <= i - 1 < rowCount && 0 <= j - 1 < colCount && s.row == i - 1 && s.col == j - 1
                 && s.categoryId in IdsAt(sel, i - 1, j - 1)
  {
  }

  /** The rows after the restore pass yield exactly the in-range entries. */
  lemma RestoredRowsRead(rows: seq<Row>, sel: seq<IP.Selection>, d: nat, ncats: nat, s: IP.Selection)
    requires |rows| > 1 && ncats >= 1 && RowsShaped(rows, d, ncats)
    ensures Marked(RestoredRows(rows, sel, d), |rows|, ncats, s)
            <==> && 0 <= s.row < |rows| - 1 && 0 <= s.col < d
                 && s.categoryId in IdsAt(sel, s.row, s.col)
  {
    var r := RestoredRows(rows, sel, d);
    var inRange := 0 <= s.row < |rows| - 1 && 0 <= s.col < d && s.categoryId in IdsAt(sel, s.row, s.col);
    if Marked(r, |rows|, ncats, s) {
      var i, j :| 1 <= i < |rows| && 1 <= j < |r[i].cells| - ncats && s in CellEntries(r[i].cells[j], i - 1, j - 1);
      RestoredCellAt(rows, sel, d, ncats, i, j, s);
      assert inRange;
    }
    if inRange {
      var i, j := s.row + 1, s.col + 1;
      RestoredCellAt(rows, sel, d, ncats, i, j, s);
      assert 1 <= j < |r[i].cells| - ncats && s in CellEntries(r[i].cells[j], i - 1, j - 1);
      assert Marked(r, |rows|, ncats, s);
    }
  }

  /** The entries the restored cell at a scanned data position yields. */
  lemma RestoredCellAt(rows: seq<Row>, sel: seq<IP.Selection>, d: nat, ncats: nat, i: nat, j: nat, s: IP.Selection)
    requires |rows| > 1 && ncats >= 1 && RowsShaped(rows, d, ncats)
    requires 1 <= i < |rows| && 1 <= j < |rows[i].cells| - ncats
    ensures s in CellEntries(RestoredRows(rows, sel, d)[i].cells[j], i - 1, j - 1)
            <==> s.row == i - 1 && s.col == j - 1 && s.categoryId in IdsAt(sel, s.row, s.col)
  {
    var c := RestoredRows(rows, sel, d)[i].cells[j];
    assert c == RestoredCell(rows[i].cells[j], i, j, |rows[i].cells| - 1, sel, |rows| - 1, d);
    RestoredCellEntries(rows[i].cells[j], i, j, |rows[i].cells| - 1, sel, |rows| - 1, d, s);
  }

  /** Reading the selection back after a restore gives exactly the in-range
      entries, with a missing id read as `'default'`: on the data area,
      restoring is the inverse of flattening. */
  lemma RestoreThenRead(v: View, sel: seq<IP.Selection>, cats: seq<IP.Category>, s: IP.Selection)
    requires Shaped(v, |cats|) && |cats| >= 1 && v.rendered && |v.rows| > 1
    ensures s in GetSelectedCells(Restore(v, sel, Some(cats)).rows, |cats|, true)
            <==> && 0 <= s.row < |v.rows| - 1 && 0 <= s.col < DataCols(v)
                 && exists k :: && 0 <= k < |sel| && sel[k].row == s.row && sel[k].col == s.col
                                && IP.OrDefault(sel[k].categoryId) == s.categoryId
  {
    var d := DataCols(v);
    var rows1 := RestoredRows(v.rows, sel, d);
    var v1 := v.(rows := rows1);
    assert DataCols(v1) == d;
    var after := Restore(v, sel, Some(cats)).rows;
    assert after == RecomputeMeans(v1, IP.Infos(cats)).rows;
    RecomputeKeepsEntries(v1, IP.Infos(cats));
    assert GetSelectedCells(after, |cats|, true) == TableEntries(rows1, |rows1|, |cats|);
    TableEntriesMembers(rows1, |rows1|, |cats|, s);
    RestoredRowsRead(v.rows, sel, d, |cats|, s);
  }

  /** Entries are located by position: an entry is marked exactly when the
      cell at its position (shifted past the header) is scanned and yields it. */
  lemma MarkedAt(rows: seq<Row>, n: nat, drop: nat, s: IP.Selection)
    requires n <= |rows|
    ensures Marked(rows, n, drop, s)
            <==> && 0 <= s.row < n - 1 && 0 <= s.col && s.col + 1 < |rows[s.row + 1].cells| - drop
                 && s in CellEntries(rows[s.row + 1].cells[s.col + 1], s.row, s.col)
  {
    if Marked(rows, n, drop, s) {
      var i, j :| 1 <= i < n && 1 <= j < |rows[i].cells| - drop && s in CellEntries(rows[i].cells[j], i - 1, j - 1);
      assert i == s.row + 1 && j == s.col + 1;
    }
    if 0 <= s.row < n - 1 && 0 <= s.col && s.col + 1 < |rows[s.row + 1].cells| - drop
       && s in CellEntries(rows[s.row + 1].cells[s.col + 1], s.row, s.col) {
      var i, j := s.row + 1, s.col + 1;
      assert 1 <= i < n && 1 <= j < |rows[i].cells| - drop && s in CellEntries(rows[i].cells[j], i - 1, j - 1);
    }
  }

  /** The rows with cell `(i, j)` replaced. */
  function SetCell(rows: seq<Row>, i: nat, j: nat, c: TCell): (r: seq<Row>)
    requires i < |rows| && j < |rows[i].cells|
    ensures |r| == |rows|
    ensures |r[i].cells| == |rows[i].cells| && r[i].cells[j] == c
    ensures forall k :: 0 <= k < |rows| && k != i ==> r[k] == rows[k]
    ensures forall k :: 0 <= k < |rows[i].cells| && k != j ==> r[i].cells[k] == rows[i].cells[k]
    ensures r[i].summary == rows[i].summary
  {
    rows[i := Row(rows[i].summary, rows[i].cells[j := c])]
  }

  /** Replacing one scanned cell changes the entries at its position only:
      there they become the new cell's entries. */
  lemma SetCellEntries(rows: seq<Row>, i: nat, j: nat, c: TCell, drop: nat, s: IP.Selection)
    requires 1 <= i < |rows| && 1 <= j < |rows[i].cells| - drop
    ensures s.row == i - 1 && s.col == j - 1 ==>
              (Marked(SetCell(rows, i, j, c), |rows|, drop, s) <==> s in CellEntries(c, i - 1, j - 1))
    ensures s.row != i - 1 || s.col != j - 1 ==>
              (Marked(SetCell(rows, i, j, c), |rows|, drop, s) <==> Marked(rows, |rows|, drop, s))
  {
    MarkedAt(SetCell(rows, i, j, c), |rows|, drop, s);
    MarkedAt(rows, |rows|, drop, s);
  }

  // ---------------------------------------------------------------------------
  // Toggling from a click or from the canvas (table-view.js:143-198, 637-690, 921-930)

  /** `syncSelectionsWithImageProcessor`: the image's categories receive the
      table's flattened selection. */
  function Sync(rows: seq<Row>, cats: seq<IP.Category>): (r: seq<IP.Category>)
    ensures IP.SameCategories(r, cats) && IP.Ids(r) == IP.Ids(cats) && IP.CellsNoDup(r)
    ensures forall k, row, col :: 0 <= k < |cats| ==>
              (IP.HasCell(r[k], row, col) <==> IP.SentBy(cats, GetSelectedCells(rows, |cats|, true), k, row, col))
  {
    var sel := GetSelectedCells(rows, |cats|, true);
    forall k, row, col | 0 <= k < |cats|
      ensures IP.HasCell(IP.UpdateSelectedCells(cats, sel)[k], row, col) <==> IP.SentBy(cats, sel, k, row, col)
    {
      IP.UpdateSelectedCellsMembers(cats, sel, k, row, col);
    }
    IP.UpdateSelectedCells(cats, sel)
  }

  /** `toggleCellSelection`: nothing happens without data, outside the table
      (after shifting past the header row and column) or without a current
      image. Otherwise the id is toggled on the cell, the means are recomputed
      and the image receives the table's selection. The second component is the
      current image's category list. */
  function ToggleCellSelection(v: View, row: nat, col: nat, id: string, img: Option<seq<IP.Category>>)
    : (r: (View, Option<seq<IP.Category>>))
    requires v.data.Some? && img.Some? ==> Shaped(v, |img.value|)
    ensures v.data.None? || row + 1 >= |v.rows| || col + 1 >= |v.rows[row + 1].cells| || img.None? ==> r == (v, img)
    ensures r.1.Some? <==> img.Some?
    ensures v.data.Some? && img.Some? ==> Shaped(r.0, |img.value|) && r.0.rendered == v.rendered && r.0.pending == v.pending
    ensures v.data.Some? && img.Some? && row + 1 < |v.rows| && col + 1 < |v.rows[row + 1].cells| ==>
              && r.0 == ToggleInTable(v, row + 1, col + 1, id, IP.Infos(img.value))
              && r.1 == Some(Sync(r.0.rows, img.value))
  {
    if v.data.None? || row + 1 >= |v.rows| || col + 1 >= |v.rows[row + 1].cells| || img.None? then (v, img)
    else
      var v2 := ToggleInTable(v, row + 1, col + 1, id, IP.Infos(img.value));
      (v2, Some(Sync(v2.rows, img.value)))
  }

  /** The table side of a toggle on cell `(i, j)`: the id is toggled on the
      cell and the means are recomputed. */
  function ToggleInTable(v: View, i: nat, j: nat, id: string, infos: seq<IP.CategoryInfo>): (r: View)
    requires Shaped(v, |infos|) && 1 <= i < |v.rows| && j < |v.rows[i].cells|
    ensures Shaped(r, |infos|) && r.rendered == v.rendered && r.pending == v.pending && r.data == v.data
  {
    var v1 := v.(rows := SetCell(v.rows, i, j, ToggleId(v.rows[i].cells[j], id)));
    assert DataCols(v1) == DataCols(v);
    RecomputeMeans(v1, infos)
  }

  /** Editing one data cell and recomputing the means changes the flattened
      selection at that cell's position only, where it becomes the new
      cell's entries. */
  lemma EditEntries(v: View, i: nat, j: nat, c: TCell, infos: seq<IP.CategoryInfo>, s: IP.Selection)
    requires Shaped(v, |infos|) && 1 <= i < |v.rows| && 1 <= j <= DataCols(v)
    ensures var v1 := v.(rows := SetCell(v.rows, i, j, c));
            && Shaped(v1, |infos|)
            && (s in GetSelectedCells(RecomputeMeans(v1, infos).rows, |infos|, true) <==>
                  if s.row == i - 1 && s.col == j - 1 then s in CellEntries(c, i - 1, j - 1)
                  else s in GetSelectedCells(v.rows, |infos|, true))
  {
    var n, drop := |v.rows|, |infos|;
    var rows1 := SetCell(v.rows, i, j, c);
    var v1 := v.(rows := rows1);
    assert DataCols(v1) == DataCols(v);
    var r := RecomputeMeans(v1, infos).rows;
    RecomputeKeepsEntries(v1, infos);
    assert GetSelectedCells(r, drop, true) == TableEntries(rows1, n, drop);
    assert GetSelectedCells(v.rows, drop, true) == TableEntries(v.rows, n, drop);
    TableEntriesMembers(rows1, n, drop, s);
    TableEntriesMembers(v.rows, n, drop, s);
    SetCellEntries(v.rows, i, j, c, drop, s);
  }

  /** A toggle (the table side of `toggleCellSelection`) on a consistent data
      cell flips exactly the entry for that id at that position; every other
      entry of the flattened selection stays as it was. */
  lemma ToggleFlipsEntry(v: View, i: nat, j: nat, id: string, infos: seq<IP.CategoryInfo>, s: IP.Selection)
    requires Shaped(v, |infos|) && 1 <= i < |v.rows| && 1 <= j <= DataCols(v)
    requires Consistent(v.rows[i].cells[j])
    ensures var before := GetSelectedCells(v.rows, |infos|, true);
            var after := GetSelectedCells(ToggleInTable(v, i, j, id, infos).rows, |infos|, true);
            && (s.row == i - 1 && s.col == j - 1 && s.categoryId == id ==> (s in after <==> s !in before))
            && (s.row != i - 1 || s.col != j - 1 || s.categoryId != id ==> (s in after <==> s in before))
  {
    if s.row == i - 1 && s.col == j - 1 && s.categoryId == id {
      ToggleFlipsOwnEntry(v, i, j, id, infos, s);
    } else {
      ToggleInTableEntries(v, i, j, id, infos, s);
      if s.row == i - 1 && s.col == j - 1 {
        ToggleKeepsOtherIds(v, i, j, id, infos, s);
      }
    }
  }

  lemma ToggleFlipsOwnEntry(v: View, i: nat, j: nat, id: string, infos: seq<IP.CategoryInfo>, s: IP.Selection)
    requires Shaped(v, |infos|) && 1 <= i < |v.rows| && 1 <= j <= DataCols(v)
    requires Consistent(v.rows[i].cells[j])
    requires s.row == i - 1 && s.col == j - 1 && s.categoryId == id
    ensures s in GetSelectedCells(ToggleInTable(v, i, j, id, infos).rows, |infos|, true)
            <==> s !in GetSelectedCells(v.rows, |infos|, true)
  {
    var cell := v.rows[i].cells[j];
    ToggleInTableEntries(v, i, j, id, infos, s);
    SelectedAtDataCell(v, |infos|, s);
    ToggleIdEntries(cell, id, i - 1, j - 1, s);
  }

  lemma ToggleKeepsOtherIds(v: View, i: nat, j: nat, id: string, infos: seq<IP.CategoryInfo>, s: IP.Selection)
    requires Shaped(v, |infos|) && 1 <= i < |v.rows| && 1 <= j <= DataCols(v)
    requires Consistent(v.rows[i].cells[j])
    requires s.row == i - 1 && s.col == j - 1 && s.categoryId != id
    ensures s in GetSelectedCells(ToggleInTable(v, i, j, id, infos).rows, |infos|, true)
            <==> s in GetSelectedCells(v.rows, |infos|, true)
  {
    var cell := v.rows[i].cells[j];
    ToggleInTableEntries(v, i, j, id, infos, s);
    SelectedAtDataCell(v, |infos|, s);
    ToggleIdEntries(cell, id, i - 1, j - 1, s);
  }

  /** The flattened selection holds an entry for a data cell exactly when that
      cell yields it. */
  lemma SelectedAtDataCell(v: View, ncats: nat, s: IP.Selection)
    requires Shaped(v, ncats) && 0 <= s.row && s.row + 1 < |v.rows| && 0 <= s.col < DataCols(v)
    ensures s in GetSelectedCells(v.rows, ncats, true) <==> s in CellEntries(v.rows[s.row + 1].cells[s.col + 1], s.row, s.col)
  {
    MarkedAt(v.rows, |v.rows|, ncats, s);
  }

  /** The flattened selection after the table side of a toggle. */
  lemma ToggleInTableEntries(v: View, i: nat, j: nat, id: string, infos: seq<IP.CategoryInfo>, s: IP.Selection)
    requires Shaped(v, |infos|) && 1 <= i < |v.rows| && 1 <= j <= DataCols(v)
    ensures s in GetSelectedCells(ToggleInTable(v, i, j, id, infos).rows, |infos|, true) <==>
              if s.row == i - 1 && s.col == j - 1 then s in CellEntries(ToggleId(v.rows[i].cells[j], id), i - 1, j - 1)
              else s in GetSelectedCells(v.rows, |infos|, true)
  {
    var c := ToggleId(v.rows[i].cells[j], id);
    assert ToggleInTable(v, i, j, id, infos) == RecomputeMeans(v.(rows := SetCell(v.rows, i, j, c)), infos);
    EditEntries(v, i, j, c, infos, s);
  }

  /** On a consistent cell, a toggle flips the entry for that id and keeps
      every other entry. */
  lemma ToggleIdEntries(c: TCell, id: string, row: int, col: int, s: IP.Selection)
    requires Consistent(c)
    ensures s.row == row && s.col == col && s.categoryId == id ==>
              (s in CellEntries(ToggleId(c, id), row, col) <==> s !in CellEntries(c, row, col))
    ensures s.categoryId != id ==> (s in CellEntries(ToggleId(c, id), row, col) <==> s in CellEntries(c, row, col))
  {
    ToggleIdConsistent(c, id);
  }

  /** The legacy click: flip the bare `selected` class, then (with a current
      image) recompute the means and synchronise. */
  function FlipSelected(v: View, row: nat, col: nat, img: Option<seq<IP.Category>>): (r: (View, Option<seq<IP.Category>>))
    requires v.data.Some? && row + 1 < |v.rows| && col + 1 < |v.rows[row + 1].cells|
    requires img.Some? ==> Shaped(v, |img.value|)
    ensures r.1.Some? <==> img.Some?
    ensures img.None? ==> r.0 == v.(rows := SetCell(v.rows, row + 1, col + 1, FlipCell(v.rows[row + 1].cells[col + 1])))
    ensures img.Some? ==> r.0 == FlipInTable(v, row + 1, col + 1, IP.Infos(img.value))
    ensures img.Some? ==> r.1 == Some(Sync(r.0.rows, img.value))
  {
    if img.None? then (v.(rows := SetCell(v.rows, row + 1, col + 1, FlipCell(v.rows[row + 1].cells[col + 1]))), None)
    else
      var v2 := FlipInTable(v, row + 1, col + 1, IP.Infos(img.value));
      (v2, Some(Sync(v2.rows, img.value)))
  }

  /** The table side of a flip with a current image: the class is flipped and
      the means are recomputed. */
  function FlipInTable(v: View, i: nat, j: nat, infos: seq<IP.CategoryInfo>): (r: View)
    requires Shaped(v, |infos|) && 1 <= i < |v.rows| && j < |v.rows[i].cells|
    ensures Shaped(r, |infos|) && r.rendered == v.rendered && r.pending == v.pending && r.data == v.data
  {
    var v1 := v.(rows := SetCell(v.rows, i, j, FlipCell(v.rows[i].cells[j])));
    assert DataCols(v1) == DataCols(v);
    RecomputeMeans(v1, infos)
  }

  /** The cell with its bare `selected` class flipped; its ids stay. */
  function FlipCell(c: TCell): (r: TCell)
    ensures r.selected != c.selected && r.cats == c.cats && r.content == c.content
  {
    TCell(c.content, !c.selected, c.cats)
  }

  /** A flip of a data cell (the table side of the legacy click) switches all
      of its entries at once: afterwards the position yields its ids (or
      `'default'`) exactly when it was unselected; every other entry stays. */
  lemma FlipEntries(v: View, i: nat, j: nat, infos: seq<IP.CategoryInfo>, s: IP.Selection)
    requires Shaped(v, |infos|) && 1 <= i < |v.rows| && 1 <= j <= DataCols(v)
    ensures var c := v.rows[i].cells[j];
            var after := GetSelectedCells(FlipInTable(v, i, j, infos).rows, |infos|, true);
            && (s.row == i - 1 && s.col == j - 1 ==>
                  (s in after <==> !c.selected && (if c.cats == [] then s.categoryId == IP.DefaultId else s.categoryId in c.cats)))
            && (s.row != i - 1 || s.col != j - 1 ==> (s in after <==> s in GetSelectedCells(v.rows, |infos|, true)))
  {
    FlipInTableEntries(v, i, j, infos, s);
  }

  /** The flattened selection after the table side of a flip. */
  lemma FlipInTableEntries(v: View, i: nat, j: nat, infos: seq<IP.CategoryInfo>, s: IP.Selection)
    requires Shaped(v, |infos|) && 1 <= i < |v.rows| && 1 <= j <= DataCols(v)
    ensures s in GetSelectedCells(FlipInTable(v, i, j, infos).rows, |infos|, true) <==>
              if s.row == i - 1 && s.col == j - 1 then s in CellEntries(FlipCell(v.rows[i].cells[j]), i - 1, j - 1)
              else s in GetSelectedCells(v.rows, |infos|, true)
  {
    var c := FlipCell(v.rows[i].cells[j]);
    assert FlipInTable(v, i, j, infos) == RecomputeMeans(v.(rows := SetCell(v.rows, i, j, c)), infos);
    EditEntries(v, i, j, c, infos, s);
  }

  datatype Button = Left | Right

  /** What a click on a data cell does. */
  datatype ClickAction = ToggleCategory(index: nat) | Flip | OpenMenu | Nothing

  /** The click dispatch of `createDataCells`: a left click toggles the first
      category when the current image has one and flips the bare class
      otherwise; a right click does nothing without an image, flips the class
      with at most one category, toggles the second category with exactly two,
      and opens the category menu with three or more. */
  function DispatchClick(b: Button, hasImage: bool, ncats: nat): (a: ClickAction)
    ensures a.ToggleCategory? ==> hasImage && a.index < ncats
    ensures a.ToggleCategory? ==> a.index == (if b.Left? then 0 else 1)
    ensures b.Left? ==> (a.ToggleCategory? <==> hasImage && ncats >= 1) && (a.Flip? <==> !(hasImage && ncats >= 1))
    ensures b.Right? ==> (a.Nothing? <==> !hasImage)
    ensures b.Right? && hasImage ==> (a.Flip? <==> ncats <= 1) && (a.ToggleCategory? <==> ncats == 2)
                                     && (a.OpenMenu? <==> ncats >= 3)
  {
    match b
    case Left => if hasImage && ncats > 0 then ToggleCategory(0) else Flip
    case Right =>
      if !hasImage then Nothing
      else if ncats <= 1 then Flip
      else if ncats == 2 then ToggleCategory(1)
      else OpenMenu
  }

  /** A left and a right click on the same cell never toggle the same
      category. */
  lemma ClicksToggleDifferentCategories(hasImage: bool, ncats: nat)
    requires DispatchClick(Left, hasImage, ncats).ToggleCategory? && DispatchClick(Right, hasImage, ncats).ToggleCategory?
    ensures DispatchClick(Left, hasImage, ncats).index != DispatchClick(Right, hasImage, ncats).index
    ensures ncats == 2
  {
  }

  // ---------------------------------------------------------------------------
  // What the recomputed means say (table-view.js:293-335, 827-844)

  /** After `calculateMeanOfSelectedCells`, the mean cell of category `c` in a
      row the summary row does not overwrite holds the mean of the values the
      row's selected data cells contribute to that category. */
  lemma RecomputeRowMeans(v: View, infos: seq<IP.CategoryInfo>, i: nat, c: nat)
    requires Shaped(v, |infos|) && |v.rows| > 1
    requires 1 <= i < |v.rows| && c < |infos|
    requires !(i == |v.rows| - 1 && LastRow(v.rows).summary)
    ensures var r := RecomputeMeans(v, infos).rows;
            i < |r| && 1 + DataCols(v) + c < |r[i].cells|
            && r[i].cells[1 + DataCols(v) + c].content == MeanOf(RowValues(v.rows[i].cells, 1 + DataCols(v), infos[c].id))
  {
    var d := DataCols(v);
    var row := v.rows[i];
    var rows := RecomputeMeans(v, infos).rows;
    var mean := MeanOf(RowValues(row.cells, 1 + d, infos[c].id));
    assert i < |rows| && rows[i] == RowWithMeans(row, d, infos) by {
      RecomputedRow(v, infos, i);
    }
    assert |row.cells| == 1 + d + |infos|;
    assert RowWithMeans(row, d, infos).cells[1 + d + c].content == mean by {
      RowWithMeansCell(row, d, infos, c);
    }
  }

  /** Row `i` after the recomputation is the row with its means rewritten. */
  lemma RecomputedRow(v: View, infos: seq<IP.CategoryInfo>, i: nat)
    requires Shaped(v, |infos|) && |v.rows| > 1
    requires 1 <= i < |v.rows|
    requires !(i == |v.rows| - 1 && LastRow(v.rows).summary)
    ensures i < |RecomputeMeans(v, infos).rows|
    ensures RecomputeMeans(v, infos).rows[i] == RowWithMeans(v.rows[i], DataCols(v), infos)
  {
    var d := DataCols(v);
    var rows1 := MeanRows(v.rows, d, infos);
    RecomputeRows(v, infos);
    MeanRowsAt(v.rows, d, infos, i);
    MeanRowsAt(v.rows, d, infos, |v.rows| - 1);
    UpdateKeepsRow(rows1, d, infos, i);
  }

  /** The category-average update leaves every row but a closing summary row as it was. */
  lemma UpdateKeepsRow(rows: seq<Row>, d: nat, infos: seq<IP.CategoryInfo>, i: nat)
    requires |rows| > 1 && RowsShaped(rows, d, |infos|)
    requires 1 <= i < |rows| && !(i == |rows| - 1 && LastRow(rows).summary)
    ensures i < |UpdateCategoryAverageRow(rows, d, infos)| && UpdateCategoryAverageRow(rows, d, infos)[i] == rows[i]
  {
  }

  /** The rows `calculateMeanOfSelectedCells` leaves: the mean rows, then the
      category-average row updated. */
  lemma RecomputeRows(v: View, infos: seq<IP.CategoryInfo>)
    requires Shaped(v, |infos|) && |v.rows| > 1
    ensures RecomputeMeans(v, infos).rows == UpdateCategoryAverageRow(MeanRows(v.rows, DataCols(v), infos), DataCols(v), infos)
  {
  }

  lemma MeanRowsAt(rows: seq<Row>, d: nat, infos: seq<IP.CategoryInfo>, i: nat)
    requires |rows| > 0 && RowsShaped(rows, d, |infos|) && 1 <= i < |rows|
    ensures MeanRows(rows, d, infos)[i] == RowWithMeans(rows[i], d, infos)
  {
  }

  lemma RowWithMeansCell(row: Row, d: nat, infos: seq<IP.CategoryInfo>, c: nat)
    requires |row.cells| == 1 + d + |infos| && c < |infos|
    ensures RowWithMeans(row, d, infos).cells[1 + d + c].content == MeanOf(RowValues(row.cells, 1 + d, infos[c].id))
  {
  }

  /** With numeric data cells, a row's mean for a category is a number exactly
      when some selected data cell of the row lists the category; otherwise
      the cell reads "NaN". */
  lemma RowMeanDefined(cells: seq<TCell>, hi: int, id: string)
    requires hi <= |cells|
    requires forall j :: 1 <= j < hi ==> cells[j].content.Num?
    ensures MeanOf(RowValues(cells, hi, id)).Num? <==> exists j :: 1 <= j < hi && cells[j].selected && id in cells[j].cats
  {
    var vals := RowValues(cells, hi, id);
    forall k | 0 <= k < |vals| ensures vals[k].Some? {
      var j :| 1 <= j < hi && cells[j].selected && id in cells[j].cats && vals[k] == Parse(cells[j].content);
    }
  }

  /** A row's mean for a category lies within any bounds its contributing
      cells lie within. */
  lemma RowMeanBounds(cells: seq<TCell>, hi: int, id: string, lo: real, up: real)
    requires hi <= |cells|
    requires exists j :: 1 <= j < hi && cells[j].selected && id in cells[j].cats
    requires forall j :: 1 <= j < hi && cells[j].selected && id in cells[j].cats ==>
               cells[j].content.Num? && lo <= cells[j].content.v <= up
    ensures MeanOf(RowValues(cells, hi, id)).Num?
    ensures lo <= MeanOf(RowValues(cells, hi, id)).v <= up
  {
    var vals := RowValues(cells, hi, id);
    forall k | 0 <= k < |vals| ensures vals[k].Some? && lo <= vals[k].value <= up {
      var j :| 1 <= j < hi && cells[j].selected && id in cells[j].cats && vals[k] == Parse(cells[j].content);
    }
    MeanBounds(vals, lo, up);
  }

  /** A selected cell whose text is a number. */
  predicate SelectedNum(c: TCell) {
    c.selected && c.content.Num?
  }

  /** The numbers of the selected cells among `cells`, left to right. */
  function CellNumbers(cells: seq<TCell>): (r: seq<Option<real>>)
    ensures forall k :: 0 <= k < |r| ==> exists j :: 0 <= j < |cells| && SelectedNum(cells[j]) && r[k] == Some(cells[j].content.v)
    ensures |r| == 0 <==> forall j :: 0 <= j < |cells| ==> !SelectedNum(cells[j])
    decreases |cells|
  {
    if |cells| == 0 then []
    else
      var prev := CellNumbers(cells[..|cells| - 1]);
      var c := cells[|cells| - 1];
      assert forall j :: 0 <= j < |cells| - 1 ==> cells[..|cells| - 1][j] == cells[j];
      if SelectedNum(c) then prev + [Some(c.content.v)] else prev
  }

  /** The numbers `querySelectorAll('.selected')` finds, in document order:
      row by row, cell by cell. */
  function SelectedNumbers(rows: seq<Row>): (r: seq<Option<real>>)
    ensures forall k :: 0 <= k < |r| ==> exists i, j :: 0 <= i < |rows| && 0 <= j < |rows[i].cells|
                                                       && SelectedNum(rows[i].cells[j]) && r[k] == Some(rows[i].cells[j].content.v)
    ensures |r| == 0 <==> forall i, j :: 0 <= i < |rows| && 0 <= j < |rows[i].cells| ==> !SelectedNum(rows[i].cells[j])
    decreases |rows|
  {
    if |rows| == 0 then []
    else
      var prev := SelectedNumbers(rows[..|rows| - 1]);
      var last := CellNumbers(rows[|rows| - 1].cells);
      assert forall i :: 0 <= i < |rows| - 1 ==> rows[..|rows| - 1][i] == rows[i];
      assert forall k :: |prev| <= k < |prev + last| ==> (prev + last)[k] == last[k - |prev|];
      prev + last
  }

  /** `calculateOverallCategoryAverage`: the mean of every selected cell of the
      table whose text is a number, or "NaN" without data or without such a
      cell. */
  function OverallCategoryAverage(v: View): (r: Content)
    ensures r.Num? || r.NaNText?
    ensures r.Num? <==> v.data.Some? && exists i, j :: 0 <= i < |v.rows| && 0 <= j < |v.rows[i].cells| && SelectedNum(v.rows[i].cells[j])
  {
    if v.data.None? then NaNText
    else
      var vals := SelectedNumbers(v.rows);
      assert forall k :: 0 <= k < |vals| ==> vals[k].Some?;
      MeanOf(vals)
  }

  /** The overall average lies within any bounds all selected numbers lie within. */
  lemma OverallCategoryAverageBounds(v: View, lo: real, up: real)
    requires v.data.Some?
    requires exists i, j :: 0 <= i < |v.rows| && 0 <= j < |v.rows[i].cells| && SelectedNum(v.rows[i].cells[j])
    requires forall i, j :: 0 <= i < |v.rows| && 0 <= j < |v.rows[i].cells| && SelectedNum(v.rows[i].cells[j]) ==>
               lo <= v.rows[i].cells[j].content.v <= up
    ensures OverallCategoryAverage(v).Num? && lo <= OverallCategoryAverage(v).v <= up
  {
    var vals := SelectedNumbers(v.rows);
    forall k | 0 <= k < |vals| ensures vals[k].Some? && lo <= vals[k].value <= up {
      var i, j :| 0 <= i < |v.rows| && 0 <= j < |v.rows[i].cells|
                  && SelectedNum(v.rows[i].cells[j]) && vals[k] == Some(v.rows[i].cells[j].content.v);
    }
    MeanBounds(vals, lo, up);
  }

  // ---------------------------------------------------------------------------
  // The per-column maximum (table-view.js:604-635)

  /** Table cell `(i, j)` exists and its text is a number. */
  predicate NumAt(rows: seq<Row>, i: nat, j: nat) {
    i < |rows| && j < |rows[i].cells| && rows[i].cells[j].content.Num?
  }

  function ValueAt(rows: seq<Row>, i: nat, j: nat): real
    requires NumAt(rows, i, j)
  {
    rows[i].cells[j].content.v
  }

  /** The row a scan of rows `1 .. hi - 1` of column `j` settles on, where only
      a strictly greater number replaces the best so far. */
  function ColumnBest(rows: seq<Row>, j: nat, hi: nat): (r: Option<nat>)
    requires hi <= |rows|
    ensures r.None? <==> forall i :: 1 <= i < hi ==> !NumAt(rows, i, j)
    ensures r.Some? ==> 1 <= r.value < hi && NumAt(rows, r.value, j)
    ensures r.Some? ==> forall i :: 1 <= i < hi && NumAt(rows, i, j) ==> ValueAt(rows, i, j) <= ValueAt(rows, r.value, j)
    ensures r.Some? ==> forall i :: 1 <= i < r.value && NumAt(rows, i, j) ==> ValueAt(rows, i, j) < ValueAt(rows, r.value, j)
    decreases hi
  {
    if hi <= 1 then None
    else
      var prev := ColumnBest(rows, j, hi - 1);
      if NumAt(rows, hi - 1, j) && (prev.None? || ValueAt(rows, hi - 1, j) > ValueAt(rows, prev.value, j)) then Some(hi - 1)
      else prev
  }

  /** The best cell of each of the data columns `1 .. d`, in column order,
      as 0-based data coordinates; a column without numbers contributes
      nothing. */
  function MaxCells(rows: seq<Row>, d: nat, hi: nat): (r: seq<IP.Cell>)
    requires hi <= |rows|
    ensures |r| <= d
    ensures forall row, col :: IP.Cell(row, col) in r <==> 0 <= col < d && ColumnBest(rows, col + 1, hi) == Some(row + 1)
    ensures forall a, b :: 0 <= a < b < |r| ==> r[a].col < r[b].col
    decreases d
  {
    if d == 0 then []
    else
      var prev := MaxCells(rows, d - 1, hi);
      var best := ColumnBest(rows, d, hi);
      assert forall k :: 0 <= k < |prev| ==> prev[k] in prev;
      if best.Some? then prev + [IP.Cell(best.value - 1, d - 1)] else prev
  }

  /** `findMaxValueCells` as written: nothing without data, a TypeError (here
      `None`) when the luminance has no first row, and otherwise the scan of
      rows `1 .. rows.length - 2`, which always leaves the last table row out. */
  function FindMaxValueCellsAsWritten(v: View): (r: Option<seq<IP.Cell>>)
    ensures v.data.None? ==> r == Some([])
    ensures r.None? <==> v.data.Some? && |v.data.value.luminance| == 0
    ensures r.Some? && |v.rows| > 0 ==> r.value == MaxCells(v.rows, DataCols(v), |v.rows| - 1)
  {
    if v.data.None? then Some([])
    else if |v.data.value.luminance| == 0 then None
    else if |v.rows| == 0 then Some([])
    else Some(MaxCells(v.rows, DataCols(v), |v.rows| - 1))
  }

  /** The rows holding data: all but the header and a trailing summary row. */
  function DataEnd(rows: seq<Row>): (hi: nat)
    ensures hi <= |rows|
    ensures |rows| > 0 ==> hi == |rows| || (hi == |rows| - 1 && LastRow(rows).summary)
  {
    if |rows| > 0 && LastRow(rows).summary then |rows| - 1 else |rows|
  }

  /** `findMaxValueCells` scanning every data row: only a trailing summary row
      is skipped. */
  function FindMaxValueCells(v: View): (r: Option<seq<IP.Cell>>)
    ensures v.data.None? ==> r == Some([])
    ensures r.None? <==> v.data.Some? && |v.data.value.luminance| == 0
  {
    if v.data.None? then Some([])
    else if |v.data.value.luminance| == 0 then None
    else Some(MaxCells(v.rows, DataCols(v), DataEnd(v.rows)))
  }

  /** Every cell the corrected scan reports in table column `j` holds the
      greatest number of that column over all data rows, and is the first row
      to hold it; a column with a number among its data rows is always
      reported. */
  lemma FindMaxValueCellsIsMax(v: View, row: int, j: nat)
    requires FindMaxValueCells(v).Some?
    ensures var cells := FindMaxValueCells(v).value;
            && (IP.Cell(row, j - 1) in cells ==>
                  && 1 <= j <= DataCols(v) && 0 <= row && row + 1 < DataEnd(v.rows) && NumAt(v.rows, row + 1, j)
                  && (forall i :: 1 <= i < DataEnd(v.rows) && NumAt(v.rows, i, j) ==>
                        ValueAt(v.rows, i, j) <= ValueAt(v.rows, row + 1, j))
                  && (forall i :: 1 <= i < row + 1 && NumAt(v.rows, i, j) ==>
                        ValueAt(v.rows, i, j) < ValueAt(v.rows, row + 1, j)))
            && (1 <= j <= DataCols(v) && (exists i :: 1 <= i < DataEnd(v.rows) && NumAt(v.rows, i, j)) ==>
                  exists cell :: cell in cells && cell.col == j - 1)
  {
    var hi := DataEnd(v.rows);
    if 1 <= j <= DataCols(v) && (exists i :: 1 <= i < hi && NumAt(v.rows, i, j)) {
      var b := ColumnBest(v.rows, j, hi);
      assert IP.Cell(b.value - 1, j - 1) in FindMaxValueCells(v).value;
    }
  }

  /** The scan as written misses a maximum in the last data row of a table
      without a summary row: column 0 holds 1 and then 5, and it reports the
      1, where the corrected scan reports the 5. */
  lemma LastRowMissed()
    ensures var v := View([Row(false, [TCell(Label("Y\\X"), false, []), TCell(Label(""), false, [])]),
                           Row(false, [TCell(Label(""), false, []), TCell(Num(1.0), false, [])]),
                           Row(false, [TCell(Label(""), false, []), TCell(Num(5.0), false, [])])],
                          Some(Data([[1.0], [5.0]], [0.0, 1.0, 2.0], [0.0, 1.0])), true, None);
            && FindMaxValueCellsAsWritten(v) == Some([IP.Cell(0, 0)])
            && FindMaxValueCells(v) == Some([IP.Cell(1, 0)])
  {
    var v := View([Row(false, [TCell(Label("Y\\X"), false, []), TCell(Label(""), false, [])]),
                   Row(false, [TCell(Label(""), false, []), TCell(Num(1.0), false, [])]),
                   Row(false, [TCell(Label(""), false, []), TCell(Num(5.0), false, [])])],
                  Some(Data([[1.0], [5.0]], [0.0, 1.0, 2.0], [0.0, 1.0])), true, None);
    assert DataCols(v) == 1 && DataEnd(v.rows) == 3;
    assert ColumnBest(v.rows, 1, 2) == Some(1);
    assert ColumnBest(v.rows, 1, 3) == Some(2);
    assert MaxCells(v.rows, 1, 2) == [IP.Cell(0, 0)];
    assert MaxCells(v.rows, 1, 3) == [IP.Cell(1, 0)];
  }

  // ---------------------------------------------------------------------------
  // Rendering (table-view.js:15-50, 105-118, 227-251)

  /** Every luminance row as long as the first. */
  predicate Rectangular(lum: seq<seq<real>>) {
    forall i :: 0 <= i < |lum| ==> |lum[i]| == |lum[0]|
  }

  /** `handleEmptyData`: no data or no luminance rows. */
  predicate EmptyData(data: Option<Data>) {
    data.None? || |data.value.luminance| == 0
  }

  const Placeholder: string := "No luminance data available"

  /** `insertCell(index)` on a row's cells: the new cell goes before position
      `index`, at the end when `index` is the length; a larger index raises an
      IndexSizeError, which is None here. */
  function InsertCell(cells: seq<TCell>, index: nat, c: TCell): (r: Option<seq<TCell>>)
    ensures r.None? <==> index > |cells|
    ensures r.Some? ==> && |r.value| == |cells| + 1 && r.value[index] == c
                        && r.value[..index] == cells[..index] && r.value[index + 1..] == cells[index..]
  {
    if index > |cells| then None else Some(cells[..index] + [c] + cells[index..])
  }

  /** The loop of `createCategoryHeaders`: header `i` is inserted at position
      `at + i`, in order; the first insertion that raises ends the loop. */
  function InsertAll(cells: seq<TCell>, at: nat, hs: seq<TCell>): (r: Option<seq<TCell>>)
    ensures |hs| > 0 ==> (r.None? <==> at > |cells|)
    ensures r.Some? ==> |r.value| == |cells| + |hs|
    decreases |hs|
  {
    if |hs| == 0 then Some(cells)
    else
      var prev := InsertAll(cells, at, hs[..|hs| - 1]);
      if prev.None? then None else InsertCell(prev.value, at + |hs| - 1, hs[|hs| - 1])
  }

  /** Successive insertions at successive positions splice the whole list in
      at `at`, or raise at once when `at` is past the end. */
  lemma {:induction false} InsertAllSpliced(cells: seq<TCell>, at: nat, hs: seq<TCell>)
    ensures InsertAll(cells, at, hs) == if |hs| == 0 then Some(cells)
                                        else if at > |cells| then None
                                        else Some(cells[..at] + hs + cells[at..])
    decreases |hs|
  {
    if |hs| > 0 && at <= |cells| {
      var init, h := hs[..|hs| - 1], hs[|hs| - 1];
      InsertAllSpliced(cells, at, init);
      var prev := cells[..at] + init + cells[at..];
      if |init| == 0 {
        assert prev == cells[..at] + cells[at..] == cells;
      }
      assert InsertAll(cells, at, init) == Some(prev);
      var k := at + |init|;
      assert prev[..k] == cells[..at] + init && prev[k..] == cells[at..];
      assert InsertAll(cells, at, hs) == InsertCell(prev, k, h);
      assert hs == init + [h];
      assert prev[..k] + [h] + prev[k..] == cells[..at] + hs + cells[at..];
    }
  }

  /** The header row's width before the category headers: the corner cell and
      one header per column band, `max(1, |colBounds|)` cells. */
  function HeaderWidth(d: Data): (w: nat)
    ensures w >= 1 && w >= |d.colBounds|
  {
    if |d.colBounds| > 0 then |d.colBounds| else 1
  }

  /** The corner cell and the column headers (`createHeaderRow` before its
      category headers). Header texts are not modelled. */
  function HeaderBase(d: Data): (r: seq<TCell>)
    ensures |r| == HeaderWidth(d) && r[0] == TCell(Label("Y\\X"), false, [])
    ensures forall j :: 1 <= j < |r| ==> r[j] == TCell(Label(""), false, [])
  {
    [TCell(Label("Y\\X"), false, [])] + seq(HeaderWidth(d) - 1, _ => TCell(Label(""), false, []))
  }

  /** One "Сред. <name>" header per category, in order. */
  function CategoryHeaders(infos: seq<IP.CategoryInfo>): (r: seq<TCell>)
    ensures |r| == |infos|
    ensures forall c :: 0 <= c < |infos| ==> r[c] == TCell(Label("Сред. " + infos[c].name), false, [])
  {
    seq(|infos|, c requires 0 <= c < |infos| => TCell(Label("Сред. " + infos[c].name), false, []))
  }

  /** `createCategoryHeaders` succeeds: there is no category, or position
      `|luminance[0]| + 1` exists in the header row. */
  predicate HeadersFit(d: Data, ncats: nat)
    requires |d.luminance| > 0
  {
    ncats == 0 || |d.luminance[0]| + 1 <= HeaderWidth(d)
  }

  /** `updateTable` raises in `createCategoryHeaders`: the data is not empty and
      the category headers do not fit. */
  predicate RenderThrows(data: Option<Data>, ncats: nat) {
    !EmptyData(data) && !HeadersFit(data.value, ncats)
  }

  /** `createHeaderRow` as written: the corner cell, the column headers, then
      category header `i` inserted at `|luminance[0]| + 1 + i`. This raises when
      the header row is shorter than `|luminance[0]| + 1`, and places the
      category headers among the column headers when it is longer. */
  function HeaderRow(d: Data, infos: seq<IP.CategoryInfo>): (r: Option<Row>)
    requires |d.luminance| > 0
    ensures r.Some? <==> HeadersFit(d, |infos|)
    ensures r.Some? ==> !r.value.summary && |r.value.cells| == HeaderWidth(d) + |infos|
    ensures r.Some? ==> r.value.cells[0] == TCell(Label("Y\\X"), false, [])
    ensures r.Some? ==> forall c :: 0 <= c < |infos| ==>
              r.value.cells[|d.luminance[0]| + 1 + c] == TCell(Label("Сред. " + infos[c].name), false, [])
  {
    var at := |d.luminance[0]| + 1;
    InsertAllSpliced(HeaderBase(d), at, CategoryHeaders(infos));
    var cells := InsertAll(HeaderBase(d), at, CategoryHeaders(infos));
    if cells.None? then None else Some(Row(false, cells.value))
  }

  /** The header row as evidently intended: the category headers after the
      column headers, wherever those end. It never raises. */
  function HeaderRowAppended(d: Data, infos: seq<IP.CategoryInfo>): (r: Row)
    ensures !r.summary && |r.cells| == HeaderWidth(d) + |infos|
    ensures r.cells[..HeaderWidth(d)] == HeaderBase(d)
    ensures forall c :: 0 <= c < |infos| ==> r.cells[HeaderWidth(d) + c] == TCell(Label("Сред. " + infos[c].name), false, [])
  {
    Row(false, HeaderBase(d) + CategoryHeaders(infos))
  }

  /** When the column headers number exactly `|luminance[0]|`, as for the
      grid the luminance request answers with, the header row as written is the
      intended one. */
  lemma HeaderRowAgrees(d: Data, infos: seq<IP.CategoryInfo>)
    requires |d.luminance| > 0 && HeaderWidth(d) == |d.luminance[0]| + 1
    ensures HeaderRow(d, infos) == Some(HeaderRowAppended(d, infos))
  {
    var base := HeaderBase(d);
    InsertAllSpliced(base, |base|, CategoryHeaders(infos));
    assert base[..|base|] == base && base[|base|..] == [];
    assert base + CategoryHeaders(infos) + [] == base + CategoryHeaders(infos);
  }

  /** The input that shows the raise: one luminance column, no column bound
      (every vertical line removed, the width not yet known) and one category.
      `insertCell(2)` meets a one-cell header row. */
  lemma HeaderRowRaises()
    ensures HeaderRow(Data([[1.0]], [0.0, 1.0], []), [IP.CategoryInfo("a", "A", "#000000")]).None?
    ensures HeaderRowAppended(Data([[1.0]], [0.0, 1.0], []), [IP.CategoryInfo("a", "A", "#000000")]).cells[1]
            == TCell(Label("Сред. A"), false, [])
  {
    var d := Data([[1.0]], [0.0, 1.0], []);
    var infos := [IP.CategoryInfo("a", "A", "#000000")];
    assert HeaderWidth(d) == 1 && !HeadersFit(d, |infos|);
    assert HeaderRowAppended(d, infos).cells[HeaderWidth(d) + 0] == TCell(Label("Сред. " + infos[0].name), false, []);
    assert "Сред. " + infos[0].name == "Сред. A";
  }

  /** A data row: the row header, one unselected number per value, and one
      "NaN" mean cell per category. */
  function DataRow(values: seq<real>, ncats: nat): (r: Row)
    ensures !r.summary && |r.cells| == 1 + |values| + ncats
    ensures forall j :: 1 <= j <= |values| ==> r.cells[j] == TCell(Num(values[j - 1]), false, [])
    ensures forall j :: |values| < j < |r.cells| ==> r.cells[j] == TCell(NaNText, false, [])
    ensures forall j :: 0 <= j < |r.cells| ==> !r.cells[j].selected
  {
    Row(false, seq(1 + |values| + ncats, j requires 0 <= j < 1 + |values| + ncats =>
      if j == 0 then TCell(Label(""), false, [])
      else if j <= |values| then TCell(Num(values[j - 1]), false, [])
      else TCell(NaNText, false, [])))
  }

  /** `updateTable` followed by `finalizeTableCreation`: empty data leaves a
      single placeholder row; otherwise the header and one row per luminance
      row are built for the current image's categories, the table is marked
      rendered, and a pending selection list is restored and dropped. When the
      category headers raise, the table keeps only the header row built so
      far and nothing after it runs. */
  function Render(v: View, data: Option<Data>, img: Option<seq<IP.Category>>): (r: View)
    requires data.Some? ==> Rectangular(data.value.luminance)
    ensures r.data == data
    ensures EmptyData(data) ==> r == View([Row(false, [TCell(Label(Placeholder), false, [])])], data, v.rendered, v.pending)
    ensures RenderThrows(data, if img.Some? then |img.value| else 0) ==>
              r == View([Row(false, HeaderBase(data.value))], data, v.rendered, v.pending)
    ensures !EmptyData(data) && !RenderThrows(data, if img.Some? then |img.value| else 0) ==>
              && r.rendered && r.pending.None?
              && Shaped(r, if img.Some? then |img.value| else 0)
              && 1 + |data.value.luminance| <= |r.rows| <= 2 + |data.value.luminance|
    ensures !RenderThrows(data, if img.Some? then |img.value| else 0) && !EmptyData(data) && v.pending.None? ==>
              |r.rows| == 1 + |data.value.luminance|
  {
    if EmptyData(data) then View([Row(false, [TCell(Label(Placeholder), false, [])])], data, v.rendered, v.pending)
    else
      var infos := if img.Some? then IP.Infos(img.value) else [];
      if !HeadersFit(data.value, |infos|) then View([Row(false, HeaderBase(data.value))], data, v.rendered, v.pending)
      else
        var v1 := Drawn(data.value, infos, v.pending);
        if v.pending.Some? then Restore(v1, v.pending.value, img).(pending := None) else v1
  }

  /** The table `updateTable` draws before any selection is restored: the
      header and one row per luminance row holding its values, nothing
      selected. */
  function Drawn(d: Data, infos: seq<IP.CategoryInfo>, pending: Option<seq<IP.Selection>>): (r: View)
    requires Rectangular(d.luminance) && |d.luminance| > 0 && HeadersFit(d, |infos|)
    ensures r.data == Some(d) && r.rendered && r.pending == pending
    ensures Shaped(r, |infos|) && |r.rows| == 1 + |d.luminance| && DataCols(r) == |d.luminance[0]|
    ensures forall i :: 0 <= i < |d.luminance| ==> r.rows[i + 1] == DataRow(d.luminance[i], |infos|)
  {
    var rows := [HeaderRow(d, infos).value] + seq(|d.luminance|, i requires 0 <= i < |d.luminance| => DataRow(d.luminance[i], |infos|));
    View(rows, Some(d), true, pending)
  }

  /** With nothing pending, the rendered table shows every luminance value at
      its position, shifted past the header row and column, unselected. */
  lemma RenderCell(v: View, d: Data, img: Option<seq<IP.Category>>, i: nat, j: nat)
    requires Rectangular(d.luminance) && v.pending.None?
    requires i < |d.luminance| && j < |d.luminance[i]|
    requires HeadersFit(d, if img.Some? then |img.value| else 0)
    ensures var r := Render(v, Some(d), img);
            && i + 1 < |r.rows| && j + 1 < |r.rows[i + 1].cells|
            && r.rows[i + 1].cells[j + 1] == TCell(Num(d.luminance[i][j]), false, [])
  {
    var infos := if img.Some? then IP.Infos(img.value) else [];
    assert Render(v, Some(d), img) == Drawn(d, infos, None);
  }

  /** A selection list left pending before the first render is restored by the
      render: the new table lists exactly its entries that fall inside the
      luminance matrix, and nothing is pending afterwards. */
  lemma RenderRestoresPending(v: View, d: Data, cats: seq<IP.Category>, s: IP.Selection)
    requires Rectangular(d.luminance) && |d.luminance| > 0
    requires v.pending.Some? && |cats| >= 1 && HeadersFit(d, |cats|)
    ensures Render(v, Some(d), Some(cats)).pending.None?
    ensures s in GetSelectedCells(Render(v, Some(d), Some(cats)).rows, |cats|, true)
            <==> && 0 <= s.row < |d.luminance| && 0 <= s.col < |d.luminance[0]|
                 && exists k :: && 0 <= k < |v.pending.value| && v.pending.value[k].row == s.row
                                && v.pending.value[k].col == s.col
                                && IP.OrDefault(v.pending.value[k].categoryId) == s.categoryId
  {
    var v1 := Drawn(d, IP.Infos(cats), v.pending);
    assert Render(v, Some(d), Some(cats)).rows == Restore(v1, v.pending.value, Some(cats)).rows;
    RestoreThenRead(v1, v.pending.value, cats, s);
  }

  /** A fresh render without a pending list has no selection. */
  lemma RenderUnselected(v: View, data: Option<Data>, img: Option<seq<IP.Category>>, s: IP.Selection)
    requires data.Some? ==> Rectangular(data.value.luminance)
    requires !EmptyData(data) && v.pending.None?
    ensures s !in TableEntries(Render(v, data, img).rows, |Render(v, data, img).rows|, if img.Some? then |img.value| else 0)
  {
    var r := Render(v, data, img).rows;
    var n := if img.Some? then |img.value| else 0;
    RenderRowsUnselected(v, data, img);
    TableEntriesMembers(r, |r|, n, s);
    MarkedAt(r, |r|, n, s);
  }

  /** A render with nothing pending selects no cell below the header. */
  lemma RenderRowsUnselected(v: View, data: Option<Data>, img: Option<seq<IP.Category>>)
    requires data.Some? ==> Rectangular(data.value.luminance)
    requires !EmptyData(data) && v.pending.None?
    ensures var r := Render(v, data, img).rows;
            forall i, j :: 1 <= i < |r| && 0 <= j < |r[i].cells| ==> !r[i].cells[j].selected
  {
    var n := if img.Some? then |img.value| else 0;
    if !RenderThrows(data, n) {
      var infos := if img.Some? then IP.Infos(img.value) else [];
      assert Render(v, data, img) == Drawn(data.value, infos, None);
    }
  }
}
